=== FILE: README.md ===
# ChatSphere backend core in Dafny

This project models the core of the ChatSphere chat backend:

- **The realtime gateway.** This is the Socket.IO session registry, together with the handshake and the event handlers.
- **The three MongoDB-backed services.** These are messages, chats and users.
- **The guard chains of the message and chat HTTP endpoints.**
- **The pure pieces.**
  - the request and document schemas with their validators;
  - the password-strength rules;
  - the response and pagination helpers;
  - the string-derived settings.

Every stateful part is a class whose fields the operations reassign:

- `Gateway.Gateway` holds `connected_users`/`user_sessions` and an effect log.
- `MessageService.MessageStore`, `ChatService.ChatStore` and `UserService.UserStore` each hold one collection as a sequence of documents in natural order.

A store method is proved against a pure function of the old state. The properties the source promises are proved about those functions as lemmas.

Handlers do things outside the registry and the stores: entering or leaving a room, emitting an event, the log-only presence and typing calls. These are recorded as `Gateway.Effect` values. The gateway appends them to a ghost log, and the HTTP handlers return them as an `emitted` list.

Clocks, fresh `ObjectId()` values, bcrypt hashing, the `$regex` match of the user search, `datetime.isoformat` and JWT decoding are parameters.

Modules:

| file | module | models |
|---|---|---|
| common.dfy | Common | `Option`/`Res`, Python string methods (`strip`, `lower`, `split`, `join`), ObjectId syntax, `update_doc` building |
| collection.dfy | Collection | lookup by `_id` and `find_one_and_update(..., return_document=True)` |
| sorting.dfy | Sorting | `.sort(...)` and `.limit(n)` of a cursor |
| message_model.dfy | MessageModel | backend/app/models/message.py |
| chat_model.dfy | ChatModel | backend/app/models/chat.py |
| user_model.dfy | UserModel | backend/app/models/user.py |
| message_service.dfy | MessageService | backend/app/services/message_service.py |
| chat_service.dfy | ChatService | backend/app/services/chat_service.py |
| user_service.dfy | UserService | backend/app/services/user_service.py |
| gateway.dfy | Gateway | backend/app/sio.py |
| message_routes.dfy | MessageRoutes | backend/app/routes/messages.py |
| chat_routes.dfy | ChatRoutes | backend/app/routes/chats.py |
| security.dfy | Security | backend/app/utils/security.py |
| helpers.dfy | Helpers | backend/app/utils/helpers.py |
| config.dfy | Config | backend/app/config.py |

Where the code and its documentation disagree, the model follows the code:

- **Message window when `after` is given.** `get_chat_messages` replaces any `before` bound with it, fetches ascending unless `before` is also given, and reverses the fetched list. So with `after` alone the page holds the oldest messages after that time, newest first. With both bounds, the page holds the newest messages after `after`, oldest first (`MessageService.ChatMessagesOrder`).
- **Presence on connect.** `connect` marks the user online on every handshake, not only on the first session.
- **Token type.** `connect` never looks at the token's `type` claim.
- **Admin check.** `is_user_admin` only asks whether the chat exists, so every admin-only check on a group chat admits any authenticated user (`ChatRoutes.GroupGuardsAdmitAnyone`).

Exceptions are values of `Common.Error`:

- a status raised by a handler (`Http(code)`);
- `InvalidId` from `ObjectId(...)`;
- `DuplicateKey` from a unique index;
- `ValueError` (a failed validator or a service's own check), `NameError`, `AttributeError` and `ZeroDivisionError`.

An error that a handler does not catch is returned as that error.

The corrected definitions listed under "## Findings" are the ones the rest of the model uses:

- `MessageModel.ToResponse` is used by every handler that answers a message.
- `ChatModel.ToChatResponse` is used by every handler that answers a chat.
- `MessageRoutes.Page` is used by `get_messages`.
- `UserService.PlanCreateUser` is used by `create_user`.

## Model

| member | source | states |
|---|---|---|
| Collection.FindById | backend/app/services/chat_service.py:62 | `find_one({"_id": ObjectId(id)})`: InvalidId exactly for a malformed id; otherwise the first document with that id, or proof that none has it |
| Collection.AfterUpdate | backend/app/services/chat_service.py:107-111 | an update by id changes only the first matching document, applying the update to it; a malformed or missing id changes nothing |
| Collection.UpdateById | backend/app/services/chat_service.py:107-117 | the state change and the answer of `find_one_and_update(..., return_document=True)`: InvalidId, `None` for a missing document, or the updated document |
| Collection.UpdateKeepsIds | backend/app/services/chat_service.py:107-111 | an update that keeps ids keeps the ids of the collection unique and in place |
| Sorting.KeyLeIsTotalPreorder | backend/app/services/chat_service.py:81-84 | the two-field sort order with missing values lowest is reflexive, total and transitive |
| Sorting.Insert | backend/app/services/chat_service.py:81-84 | inserting one item into a sorted list gives a sorted list with exactly one more occurrence of that item |
| Sorting.SortBy | backend/app/services/chat_service.py:81-84 | `.sort(...)`: a permutation of the input (same multiset) in the requested order |
| Sorting.ReverseFlipsOrder | backend/app/services/message_service.py:77-78 | reversing a list sorted one way sorts it the other way |
| Sorting.TopN | backend/app/services/chat_service.py:81-86 | `.sort(...).limit(n)`: `min(n, len)` items drawn from the input, in order |
| Sorting.TopNSelects | backend/app/services/chat_service.py:81-86 | no item the limit leaves out sorts before an item that is returned |
| Common.Take | backend/app/services/chat_service.py:189 | `s[:n]`: the first `min(n, len)` items, a prefix of `s` |
| Common.Reverse | backend/app/services/message_service.py:77-78 | `list.reverse()`: item `i` of the result is item `len-1-i` of the input |
| Common.Filter | backend/app/services/message_service.py:63 | a `find` filter: the items satisfying the predicate, each from the input, none left out |
| Common.Without | backend/app/services/chat_service.py:146 | `$pull`: every occurrence of the value removed, every other item kept |
| Common.RemoveFirst | backend/app/sio.py:102 | `list.remove(v)`: the result's multiset is the input's with one occurrence of `v` taken out, so every other element is kept |
| Common.Strip | backend/app/models/message.py:113 | `str.strip()`: no whitespace at either end, never longer than the input |
| Common.StripCutsOnlyEnds | backend/app/models/message.py:113 | `str.strip()` removes only the leading and the trailing whitespace run: the result is the slice of the input between them, and both cut runs are all whitespace |
| Common.StripEmptyIffBlank | backend/app/models/chat.py:100 | `not v.strip()` holds exactly when every character is whitespace |
| Common.StripWithin | backend/app/config.py:95 | every character of `strip()`'s result comes from the input |
| Common.LowerChar | backend/app/services/user_service.py:38-39 | an upper-case ASCII letter becomes the lower-case letter 32 code points above it; every other character is kept |
| Common.Lower | backend/app/services/user_service.py:38-39 | `str.lower()`: same length, each character lower-cased |
| Common.LowerIdempotent | backend/app/services/user_service.py:38-39 | lower-casing twice is lower-casing once |
| Common.Split | backend/app/config.py:91 | `str.split(",")`: at least one piece, and no piece contains the separator |
| Common.SplitJoin | backend/app/config.py:91 | joining the pieces of a split with the separator gives back the string |
| Common.ParseObjectId | backend/app/utils/helpers.py:22-26 | `ObjectId(s)`: InvalidId exactly for a string that is not 24 hex digits, else its canonical lower-case form |
| Common.UpdateDoc | backend/app/services/chat_service.py:97-100 | the update document keeps exactly the fields whose value is not `None` |
| Common.UpdateDocLookup | backend/app/services/user_service.py:112-115 | a field is in the update document exactly when it was given, and maps to the given value |
| Common.RemoveFirstNoDuplicates | backend/app/sio.py:102 | removing a session from a list without repeats leaves a list without repeats that lacks it |
| Common.RemoveFirstAppended | backend/app/sio.py:80-102 | removing the session just appended gives back the list as it was |
| MessageModel.ParseStatus | backend/app/models/message.py:7-10 | `MessageStatus(v)` yields a member whose value is `v` |
| MessageModel.StatusValuesExact | backend/app/models/message.py:7-10 | exactly `sent`, `delivered` and `read` parse, and each member parses back to itself |
| MessageModel.ParseType | backend/app/models/message.py:12-18 | `MessageType(v)` yields a member whose value is `v` |
| MessageModel.TypeValuesExact | backend/app/models/message.py:12-18 | exactly the six type values parse, and each member parses back to itself |
| MessageModel.ValidatePyObjectId | backend/app/models/message.py:34-42 | an ObjectId becomes its string; a string passes unchanged exactly when it is a valid id; anything else raises ValueError |
| MessageModel.ValidateContent | backend/app/models/message.py:85-90 | `validate_content` refuses only `None` and returns the content unchanged |
| MessageModel.ValidateMessageCreate | backend/app/models/message.py:66-90 | accepted exactly when content has 1..5000 characters and the type is an enum value; fields copied |
| MessageModel.ValidateMessageUpdate | backend/app/models/message.py:92-98 | accepted exactly when content has 1..5000 characters |
| MessageModel.ValidateReaction | backend/app/models/message.py:101-116 | the raw emoji has at most 10 characters and is not blank; the result is the stripped emoji |
| MessageModel.ReactionAcceptsNonBlank | backend/app/models/message.py:108-116 | accepted exactly when short and some character is not whitespace; the result has no surrounding whitespace |
| MessageModel.MessageDefaults | backend/app/models/message.py:134-178 | `Message` defaults: status SENT, type TEXT, not edited, not deleted, no edit/delete time, no reply, empty reactions and metadata |
| MessageModel.ToResponseAsWritten | backend/app/models/message.py:199-213 | `MessageResponse(**doc)` fails exactly when the stored `metadata` is `None` |
| MessageModel.ToResponse | backend/app/models/message.py:199-213 | the corrected conversion copies every field, reads absent flags as False, and agrees with the as-written one whenever that one succeeds |
| ChatModel.ParseChatType | backend/app/models/chat.py:7-9 | `ChatType(v)` yields a member whose value is `v` |
| ChatModel.ChatTypeValuesExact | backend/app/models/chat.py:7-9 | exactly `direct` and `group` parse, and each member parses back to itself |
| ChatModel.ValidateName | backend/app/models/chat.py:97-102 | an omitted name stays `None`; an explicit null raises AttributeError; a string is accepted exactly when its stripped form has 1..100 characters, and that form is returned |
| ChatModel.NameRejectsBlank | backend/app/models/chat.py:97-102 | a whitespace-only name is refused; an accepted name has no surrounding whitespace |
| ChatModel.ValidateParticipantIds | backend/app/models/chat.py:83-95 | accepted exactly when non-empty and every id is a valid ObjectId; the list is unchanged |
| ChatModel.ChatTypeAsWritten | backend/app/models/chat.py:76-79 | only a `ChatType` key is read; a body without it yields direct |
| ChatModel.GroupRequestReadAsDirect | backend/app/models/chat.py:76-79 | a body with `chat_type: group` yields direct as written, and group when read by field name |
| ChatModel.ChatTypeField | backend/app/models/chat.py:76-79 | the type read under `chat_type`: direct when absent, refused unless an enum value, otherwise that value |
| ChatModel.ChatTypeFieldRoundTrip | backend/app/models/chat.py:76-79 | every chat type sent under `chat_type` is read back as itself |
| ChatModel.ValidateChatCreate | backend/app/models/chat.py:66-102 | accepted exactly when the name, the description bound (1000) and the participant ids pass; fields copied |
| ChatModel.ValidateParticipantRequest | backend/app/models/chat.py:143-169 | the add and remove requests accept exactly a valid ObjectId |
| ChatModel.ValidateChatUpdate | backend/app/models/chat.py:115-124 | accepted exactly when a given name has 1..100 characters and a given description at most 1000 |
| ChatModel.ChatDefaults | backend/app/models/chat.py:171-207 | `Chat` defaults: not archived, no last message, no name, description or avatar |
| ChatModel.ChatResponseAsWritten | backend/app/models/chat.py:227-250 | `ChatResponse(**doc)` succeeds exactly when `_id`, `ChatType`, `created_by`, `created_at` and `updated_at` keys are present |
| ChatModel.StoredChatsNeverConvert | backend/app/models/chat.py:227-250 | no document `create_chat` stores converts as written |
| ChatModel.ToChatResponse | backend/app/models/chat.py:227-250 | the corrected conversion copies every field of the chat |
| ChatModel.ConversionAgreesWhenTypeFound | backend/app/models/chat.py:227-250 | given a `ChatType` key, the as-written conversion equals the corrected one |
| UserModel.DropUnderscores | backend/app/models/user.py:62 | `v.replace("_", "")`: exactly the characters other than `_`, none longer than the input |
| UserModel.ValidateUsername | backend/app/models/user.py:31-64 | accepted exactly when not blank, alphanumeric once underscores are dropped, and 3..50 long once stripped; the result is `strip().lower()` |
| UserModel.AlnumAfterDrop | backend/app/models/user.py:62 | a username passing the check consists of letters, digits and underscores only |
| UserModel.UsernameIsLowered | backend/app/models/user.py:57-64 | an accepted username is the input lower-cased; leading or trailing whitespace is refused; validating the result again accepts it unchanged |
| UserModel.UnderscoresOfLower | backend/app/models/user.py:62-64 | lower-casing keeps a username acceptable to the character check |
| UserModel.ValidateUserCreate | backend/app/models/user.py:30-86 | accepted exactly when the username, the full-name (1..100) and bio (1000) bounds and the 8..128 password bound hold; the accepted value carries the validated username and every other field as given, avatar and bio included |
| UserModel.ValidateUserLogin | backend/app/models/user.py:101-121 | accepted exactly when the password has 8..128 characters and an email or a username is given and non-empty |
| UserModel.ValidateUserUpdate | backend/app/models/user.py:132-137 | accepted exactly when names have at most 100 characters, the bio at most 500, a username 3..50 |
| UserModel.WithoutHash | backend/app/services/user_service.py:62-65 | the projection `{"password_hash": 0}` keeps every other field |
| UserModel.UserDefaults | backend/app/models/user.py:165-184 | `User` defaults: active, offline, never seen |
| MessageService.NewMessage | backend/app/services/message_service.py:18-29 | the inserted document: given chat, sender, content, type, reply and metadata; status SENT; created and updated at `now`; no edit or delete flag or time; no reactions |
| MessageService.GetMessageById | backend/app/services/message_service.py:42-52 | raises for a malformed id (outside the `try`); otherwise the stored message with that id, or none exists |
| MessageService.Fetch | backend/app/services/message_service.py:63-72 | `find(filter).sort(...).limit(n)`: at most `n` selected messages of the chat, in the fetch order; fewer only when none is left out |
| MessageService.ChatMessages | backend/app/services/message_service.py:54-80 | the page holds at most `limit` messages, each of the chat, not deleted and in the window, and exactly the fetched ones |
| MessageService.ChatMessagesOrder | backend/app/services/message_service.py:70-78 | the page is newest first, except with both `before` and `after`, where it is oldest first |
| MessageService.ChatMessagesWindow | backend/app/services/message_service.py:70-72 | a selected message the limit leaves out is older than every returned one (descending fetch) or newer (ascending fetch) |
| MessageService.FetchOneMore | backend/app/routes/messages.py:62-71 | a `limit + 1` fetch is longer than `limit` exactly when more than `limit` messages match, and its first `limit` are the `limit` fetch |
| MessageService.FetchNoDuplicates | backend/app/services/message_service.py:71-72 | a fetch from a collection with unique ids has no repeats |
| MessageService.ReadIfMarkable | backend/app/services/message_service.py:111-123 | a document the filter matches becomes READ; any other is unchanged |
| MessageService.MarkRead | backend/app/services/message_service.py:111-123 | every message of the chat from another sender (within the time bound) is READ afterwards; the caller's own and other chats' messages are unchanged |
| MessageService.MarkReadKeepsShape | backend/app/services/message_service.py:120-123 | the bulk update keeps stored messages well formed |
| MessageService.MarkReadCountsChanges | backend/app/services/message_service.py:120-125 | the count returned equals the number of documents the update changed |
| MessageService.MarkReadIdempotent | backend/app/services/message_service.py:111-125 | a second pass changes nothing and matches nothing |
| MessageService.NoneMarkable | backend/app/services/message_service.py:111-125 | when nothing matches the filter, the count is 0 |
| MessageService.UnreadCountAsWritten | backend/app/services/message_service.py:230-240 | the count with `is_deleted: False` is at most the number of messages |
| MessageService.UnreadCount | backend/app/services/message_service.py:230-240 | the corrected count is 0 exactly when no message of the chat from another sender is unread and not deleted |
| MessageService.UnreadCountAsWrittenIsZero | backend/app/services/message_service.py:233-238 | the count as written is 0 on every collection the service can produce |
| MessageService.UnreadCountCounterexample | backend/app/services/message_service.py:18-238 | one freshly created message from another user: the count as written is 0, the corrected count 1 |
| MessageService.MarkReadClearsUnread | backend/app/services/message_service.py:111-238 | after marking a chat read, the corrected unread count is 0 |
| MessageService.StatusRecord | backend/app/services/message_service.py:89-96 | `update_message_status` sets the status and `updated_at`, nothing else |
| MessageService.EditRecord | backend/app/services/message_service.py:131-140 | new content, `is_edited`, `edited_at`, `updated_at`; the delete flag, its time and the reactions are kept |
| MessageService.DeleteRecord | backend/app/services/message_service.py:161-170 | `is_deleted` True, `deleted_at`, the tombstone content; the message leaves the listing |
| MessageService.DeleteIdempotent | backend/app/services/message_service.py:161-170 | deleting again keeps flag and content; only the times move |
| MessageService.AddReactionRecord | backend/app/services/message_service.py:192-199 | the user joins the emoji's list at most once; other emoji keys are unchanged |
| MessageService.AddReactionIdempotent | backend/app/services/message_service.py:192-199 | reacting twice is reacting once |
| MessageService.RemoveReactionRecord | backend/app/services/message_service.py:215-222 | the user leaves the emoji's list and every other user stays; other keys are unchanged; an absent key stays absent |
| MessageService.RemoveAbsentReaction | backend/app/services/message_service.py:215-222 | removing a reaction never made changes only `updated_at` |
| MessageService.WithoutAbsent | backend/app/services/message_service.py:218 | pulling an absent value leaves the list unchanged |
| MessageService.AddThenRemoveReaction | backend/app/services/message_service.py:192-222 | add then remove leaves the user out of the list and everyone else as before |
| MessageService.MessageStore.CreateMessage | backend/app/services/message_service.py:11-40 | appends exactly the new document, then applies the chat's last-message update; a malformed chat id raises after the insert |
| MessageService.MessageStore.GetChatMessages | backend/app/services/message_service.py:54-80 | the loop reverses the fetched list in place and returns the page `ChatMessages` defines |
| MessageService.ScanForRead | backend/app/services/message_service.py:111-125 | the loop over the collection yields exactly `MarkRead` of it and the number of documents the filter matches |
| MessageService.MessageStore.MarkMessagesAsRead | backend/app/services/message_service.py:104-125 | the collection becomes `MarkRead` of the old one; the count is the number matched |
| MessageService.MessageStore.UpdateOne | backend/app/services/message_service.py:89-101 | one `find_one_and_update` by id, keeping the store well formed |
| MessageService.MessageStore.UpdateMessageStatus | backend/app/services/message_service.py:82-101 | an update by id with `StatusRecord` |
| MessageService.MessageStore.EditMessage | backend/app/services/message_service.py:128-146 | an update by id with `EditRecord` |
| MessageService.MessageStore.DeleteMessage | backend/app/services/message_service.py:149-176 | an update by id with `DeleteRecord` |
| MessageService.MessageStore.AddReaction | backend/app/services/message_service.py:183-204 | an update by id with `AddReactionRecord` |
| MessageService.MessageStore.RemoveReaction | backend/app/services/message_service.py:207-227 | an update by id with `RemoveReactionRecord` |
| ChatService.Locate | backend/app/services/chat_service.py:62 | InvalidId for a malformed id; otherwise the position of the chat with that id, or none has it |
| ChatService.GetChatById | backend/app/services/chat_service.py:58-68 | a stored chat with that id, or `None` when the id is malformed (the error is caught) or unknown |
| ChatService.IsUserInChat | backend/app/services/chat_service.py:195-203 | raises for a malformed id; otherwise true exactly when the chat exists and lists the user |
| ChatService.IsUserAdmin | backend/app/services/chat_service.py:206-212 | raises for a malformed id; otherwise true exactly when the chat exists |
| ChatService.AdminIgnoresUser | backend/app/services/chat_service.py:206-212 | the answer is the same for every user, and every participant passes it |
| ChatService.GetUserChats | backend/app/services/chat_service.py:71-91 | only the user's chats (archived ones only when asked), most recent first, at most 100, none left out below the limit, none repeated when ids are unique |
| ChatService.UserChatsAreMostRecent | backend/app/services/chat_service.py:81-86 | a chat of the user's left out by the limit is no more recent than any returned one |
| ChatService.WithCreator | backend/app/services/chat_service.py:12-14 | the creator is in the list, prepended only when absent; no other id is added |
| ChatService.SortPair | backend/app/services/chat_service.py:19 | `sorted` of two ids: the same ids in order |
| ChatService.NewChat | backend/app/services/chat_service.py:35-49 | the inserted document: the given name, description, avatar, type and participants; creator as sole admin and `created_by`; created and updated at `now`; not archived, no last message |
| ChatService.PlanCreateChat | backend/app/services/chat_service.py:9-55 | direct: ValueError unless two participants with the creator; an existing matching direct chat is returned, else a sorted pair is inserted; group: ValueError without a name, participants in input order; an inserted chat is `NewChat` with the direct chat's name `name or None` |
| ChatService.SameMembersMatch | backend/app/services/chat_service.py:20-23 | the direct-chat filter depends only on which ids are requested |
| ChatService.DirectChatSymmetric | backend/app/services/chat_service.py:16-27 | A opening a chat with B inserts the chat B would insert, and afterwards B opening one with A gets that same chat back |
| ChatService.AddParticipantTo | backend/app/services/chat_service.py:124-131 | `$addToSet`: the user is a participant, nobody else is added, a present member changes nothing |
| ChatService.AddParticipantIdempotent | backend/app/services/chat_service.py:124-131 | adding twice is adding once |
| ChatService.RemoveParticipantFrom | backend/app/services/chat_service.py:143-150 | `$pull` from both lists: the user is neither participant nor admin, everyone else keeps their role |
| ChatService.ArchiveRecord | backend/app/services/chat_service.py:162-169 | `is_archived` is set; membership is unchanged |
| ChatService.LastMessageRecord | backend/app/services/chat_service.py:185-192 | the last-message time and a preview that is a prefix of the content, within 100 characters, the whole content when it fits |
| ChatService.ApplyChatDoc | backend/app/services/chat_service.py:105-111 | `$set` writes exactly the fields in the update document and `updated_at` |
| ChatService.UpdateChatWritesGivenFields | backend/app/services/chat_service.py:97-111 | `update_chat` writes exactly the fields given a value and keeps the others |
| ChatService.AddParticipantMakesMember | backend/app/services/chat_service.py:124-203 | after `add_participant` on an existing chat, the membership check holds |
| ChatService.RemoveParticipantRevokes | backend/app/services/chat_service.py:143-203 | after `remove_participant`, the membership check no longer holds |
| ChatService.ChatStore.UpdateOne | backend/app/services/chat_service.py:107-117 | one `find_one_and_update` by id, keeping the store well formed |
| ChatService.ChatStore.CreateChat | backend/app/services/chat_service.py:9-55 | performs `PlanCreateChat`: raises and stores nothing, returns the existing chat, or appends the new one |
| ChatService.ChatStore.UpdateChat | backend/app/services/chat_service.py:94-117 | an empty update reads the chat back; otherwise an update by id with the update document |
| ChatService.ChatStore.AddParticipant | backend/app/services/chat_service.py:120-137 | an update by id with `AddParticipantTo` |
| ChatService.ChatStore.RemoveParticipant | backend/app/services/chat_service.py:140-156 | an update by id with `RemoveParticipantFrom` |
| ChatService.ChatStore.ArchiveChat | backend/app/services/chat_service.py:159-175 | an update by id with `ArchiveRecord` |
| ChatService.ChatStore.UpdateLastMessage | backend/app/services/chat_service.py:178-192 | raises exactly for a malformed id; otherwise the chat, if any, gets `LastMessageRecord` |
| UserService.SplitFirstWord | backend/app/services/user_service.py:32 | `split(None, 1)` of a stripped string: a non-empty first word without whitespace, and a stripped non-empty rest if any |
| UserService.SplitFirstWordRejoins | backend/app/services/user_service.py:32 | the first word, a whitespace run and the rest put back together give the string |
| UserService.SplitFullName | backend/app/services/user_service.py:31-34 | no first name exactly when the full name is missing or blank; otherwise the first word and the remainder or `None` |
| UserService.NewUser | backend/app/services/user_service.py:36-50 | the inserted document: lower-cased username and email, the hash, the split name, the given avatar and bio, created and updated at `now`, active, offline, never seen |
| UserService.PlanCreateUserAsWritten | backend/app/services/user_service.py:12-55 | a taken email or username as given is refused with 400; an accepted plan inserts `NewUser` |
| UserService.PlanCreateUser | backend/app/services/user_service.py:12-55 | refused with 400 exactly when the lower-cased email or username is taken; otherwise the new user clashes with nobody |
| UserService.CreateUserEmailCaseCounterexample | backend/app/services/user_service.py:17-39 | `Alice@example.com` against a stored `alice@example.com`: the as-written check ends in DuplicateKey, the corrected one in 400 |
| UserService.CreateUserAgrees | backend/app/services/user_service.py:12-55 | for lower-case input the two checks agree |
| UserService.GetUserById | backend/app/services/user_service.py:58-68 | `None` for a malformed id; otherwise the stored user with that id without the hash, or none exists |
| UserService.ValidIds | backend/app/services/user_service.py:171-193 | exactly the valid ids of the input, as ObjectIds |
| UserService.SearchUser | backend/app/services/user_service.py:155-185 | at most `limit` users, each matching the pattern on username or email and not excluded, without the hash; fewer than `limit` only when every such user is returned; none repeated when ids are unique |
| UserService.SearchExcludes | backend/app/services/user_service.py:170-173 | a user whose valid id is in `exclude_ids` never comes back |
| UserService.GetUsersById | backend/app/services/user_service.py:190-205 | at most as many users as valid ids, each with one of the valid ids, without the hash; with unique stored ids, every stored user whose id was asked for is returned, none repeated |
| UserService.GetUsersByIdIgnoresInvalid | backend/app/services/user_service.py:193 | an invalid id in the request changes nothing |
| UserService.ValidIdsAppendInvalid | backend/app/services/user_service.py:193 | an invalid id adds nothing to the valid ids |
| UserService.ApplyUserDoc | backend/app/services/user_service.py:120-126 | `$set` writes exactly the fields in the update document and `updated_at`; id, email, hash and presence are kept |
| UserService.PresenceRecord | backend/app/services/user_service.py:138-144 | the online flag and `updated_at`; `last_seen` only when going offline |
| UserService.UpdateUserWritesGivenFields | backend/app/services/user_service.py:112-126 | `update_user` writes exactly the fields given a value and keeps the others |
| UserService.UserDocEmpty | backend/app/services/user_service.py:112-117 | the update document is empty exactly when the update sets no field |
| UserService.UsernameClash | backend/app/services/user_service.py:122-126 | the position of another user holding the username, or proof there is none |
| UserService.UpdateUserDoc | backend/app/services/user_service.py:122-132 | an update by id, except that the username index refuses a clash and nothing changes; stored users stay well formed |
| UserService.UserStore.CreateUser | backend/app/services/user_service.py:12-55 | (corrected plan) performs `PlanCreateUser`: nothing stored on refusal, else the new user appended and answered without the hash |
| UserService.UserStore.UpdateUser | backend/app/services/user_service.py:109-132 | an empty update reads the user back (projected); otherwise `UpdateUserDoc` with the full document answered |
| UserService.UserStore.SetUserOnlineStatus | backend/app/services/user_service.py:135-153 | raises exactly for a malformed id; the user, if any, gets `PresenceRecord`; the answer is whether it existed |
| Gateway.RoomNaming | backend/app/sio.py:133-265 | personal and chat rooms never collide, and each names one user or chat |
| Gateway.AddSession | backend/app/sio.py:75-80 | `sid` maps to the user; `sid` is appended to the user's list, created when absent; other entries unchanged |
| Gateway.DropSession | backend/app/sio.py:96-112 | an unknown sid changes nothing; otherwise its entry goes, it leaves its user's list, and the list goes (user offline) exactly when it was the last |
| Gateway.AddSessionKeepsConsistent | backend/app/sio.py:75-80 | registering a fresh session keeps the two maps describing the same pairs with no empty list |
| Gateway.DropSessionKeepsConsistent | backend/app/sio.py:98-105 | unregistering a session keeps the registry consistent |
| Gateway.ConnectThenDisconnect | backend/app/sio.py:75-108 | connecting then disconnecting a session restores both maps, going offline exactly when the user had no session before |
| Gateway.ConnectingUser | backend/app/sio.py:58-73 | a user is admitted exactly when a truthy token decodes to claims with a truthy `sub`, and it is that `sub` |
| Gateway.ConnectIgnoresTokenType | backend/app/sio.py:67-73 | decoders differing only in the `type` claim admit the same user |
| Gateway.JoinChatEffects | backend/app/sio.py:114-139 | errors go to the sender alone and nothing else happens; a participant enters the chat room and the room but the sender hears `user_joined` |
| Gateway.LeaveChatEffects | backend/app/sio.py:141-152 | a truthy chat id leaves that room, with no authentication check; otherwise nothing |
| Gateway.TypingEffects | backend/app/sio.py:198-234 | silent without a session or chat id; otherwise the typing mark and `user_typing` to the room but the sender, with no membership check |
| Gateway.MessageReadEffects | backend/app/sio.py:236-253 | silent without a session or chat id; otherwise `messages_read` to the room but the sender, with no membership check |
| Gateway.PlanSend | backend/app/sio.py:154-196 | refusal to the sender for no session or missing fields; abort on a malformed chat id; "Not a participant" for a non-member; for a member, creation exactly when the message validates, carrying the validated message, and "Failed to send message" otherwise |
| Gateway.Gateway.GetUserId | backend/app/sio.py:44-45 | a user exactly for a registered session, and the session is among that user's |
| Gateway.Gateway.GetUserSids | backend/app/sio.py:48-49 | the user's sessions, each registered to that user, without repeats |
| Gateway.Gateway.Register | backend/app/sio.py:75-80 | the registration step keeps the registry consistent and leaves it as `AddSession` of the old one |
| Gateway.Gateway.Connect | backend/app/sio.py:54-94 | refused without changes when no user is admitted; otherwise registered and marked online on every connect, accepted exactly for a valid id, the session staying registered otherwise |
| Gateway.Gateway.Disconnect | backend/app/sio.py:96-112 | the registry becomes `DropSession` of the old one; the offline mark and store update happen exactly on the last session |
| Gateway.Gateway.JoinChat | backend/app/sio.py:114-139 | registry unchanged; the log gains `JoinChatEffects` |
| Gateway.Gateway.LeaveChat | backend/app/sio.py:141-152 | registry unchanged; the log gains `LeaveChatEffects` |
| Gateway.Gateway.Typing | backend/app/sio.py:198-234 | registry unchanged; the log gains `TypingEffects` |
| Gateway.Gateway.MessageRead | backend/app/sio.py:236-253 | registry unchanged; the log gains `MessageReadEffects` |
| Gateway.Gateway.SendMessage | backend/app/sio.py:154-196 | a refusal logs one error and writes nothing; a creation stores the message, updates the preview and emits `new_message` to the chat room |
| Gateway.EmitToUser | backend/app/sio.py:255-259 | a broadcast to the user's personal room |
| Gateway.EmitToChat | backend/app/sio.py:261-265 | a broadcast to the chat room |
| MessageRoutes.Responses | backend/app/routes/messages.py:73 | one response per message, in order |
| MessageRoutes.PageAsWritten | backend/app/routes/messages.py:62-71 | the page as written holds at most `limit` messages |
| MessageRoutes.Page | backend/app/routes/messages.py:62-71 | the page is exactly `get_chat_messages` with `limit`, and `has_more` holds exactly when more than `limit` messages match |
| MessageRoutes.PageAsWrittenWithoutAfter | backend/app/routes/messages.py:62-71 | without `after` the page as written is the intended page |
| MessageRoutes.ReverseThenCut | backend/app/routes/messages.py:69-71 | cutting a reversed list of `n+1` distinct items loses its first item; cutting before reversing keeps it |
| MessageRoutes.PageAsWrittenDropsFirstFetched | backend/app/routes/messages.py:62-71 | with `after` and more messages than fit, the page as written loses the first fetched message, which the intended page keeps |
| MessageRoutes.GetMessages | backend/app/routes/messages.py:49-79 | (corrected page and conversion) the membership check decides refusal; otherwise the page, `count` its size (at most `limit`), `has_more` exactly when more match |
| MessageRoutes.RequireMessage | backend/app/routes/messages.py:124-130 | 404 exactly for a well-formed but unknown id; otherwise the stored message |
| MessageRoutes.RequireOwnMessage | backend/app/routes/messages.py:124-137 | 404 before 403; passes exactly for the sender |
| MessageRoutes.RequireReactor | backend/app/routes/messages.py:205-217 | 404 before the membership check of the message's chat; passes exactly for a participant |
| MessageRoutes.RemoveReactionSkipsMembership | backend/app/routes/messages.py:205-256 | a non-participant passes the remove guard of an existing message but adding a reaction answers 403 |
| MessageRoutes.SendMessage | backend/app/routes/messages.py:89-109 | (corrected conversion) a non-participant is refused with nothing stored or emitted; otherwise the message is stored, the preview updated and `new_message` emitted |
| MessageRoutes.UpdateMessage | backend/app/routes/messages.py:118-152 | (corrected conversion) refused by the 404/403 guard with no change; otherwise edited and `message_updated` sent to its chat |
| MessageRoutes.RemoveMessage | backend/app/routes/messages.py:161-191 | (corrected conversion) refused by the 404/403 guard with no change and no participation check; otherwise deleted softly and `message_deleted` sent |
| MessageRoutes.AddMessageReaction | backend/app/routes/messages.py:200-232 | (corrected conversion) refused by the 404/participation guard with no change; otherwise the reaction added and `reaction_added` sent |
| MessageRoutes.RemoveMessageReaction | backend/app/routes/messages.py:241-269 | (corrected conversion) refused only when the message is missing; otherwise the reaction pulled and `reaction_removed` sent |
| MessageRoutes.MarkAsRead | backend/app/routes/messages.py:278-302 | a non-participant is refused with no change; otherwise the chat is marked read and the count broadcast |
| ChatRoutes.Summary | backend/app/routes/chats.py:62-73 | a summary copies the chat's fields with `unread_count` 0 |
| ChatRoutes.ChatListFor | backend/app/routes/chats.py:55-78 | one summary per chat of `get_user_chats`, in order, `total` equal to their number, every unread count 0 |
| ChatRoutes.RequireParticipant | backend/app/routes/messages.py:56-60 | passes exactly for a participant; 403 exactly for a non-participant; otherwise InvalidId for a malformed id |
| ChatRoutes.GetChat | backend/app/routes/chats.py:111-137 | (corrected conversion) 404 for a missing chat before 403 for a non-member; otherwise the chat's response |
| ChatRoutes.RequireEditor | backend/app/routes/chats.py:189-201 | 404 first; a group chat asks the admin check, a direct chat the participant check |
| ChatRoutes.RequireAdder | backend/app/routes/chats.py:239-248 | 404, then 400 for a direct chat, then the admin check |
| ChatRoutes.RequireRemover | backend/app/routes/chats.py:268-278 | 404, then 400 for a direct chat, then the admin check unless users remove themselves |
| ChatRoutes.GroupGuardsAdmitAnyone | backend/app/routes/chats.py:196-278 | on an existing group chat every admin-only guard admits every user |
| ChatRoutes.CreateNewChat | backend/app/routes/chats.py:89-102 | (corrected conversion) a refused creation answers 500 and stores nothing; otherwise the existing or inserted chat is answered |
| ChatRoutes.UpdateChatDetails | backend/app/routes/chats.py:184-207 | (corrected conversion) guard refusal changes nothing; an empty update answers the chat; otherwise the update is written and answered |
| ChatRoutes.DeleteChat | backend/app/routes/chats.py:216-225 | a participant archives the chat with no admin check; anyone else is refused and nothing changes |
| ChatRoutes.AddChatParticipant | backend/app/routes/chats.py:234-254 | (corrected conversion) guard refusal changes nothing; otherwise the set-add is written and answered |
| ChatRoutes.RemoveChatParticipant | backend/app/routes/chats.py:262-284 | (corrected conversion) guard refusal changes nothing; otherwise the pull is written and answered |
| Security.MessagesDistinct | backend/app/utils/security.py:40-55 | the four messages are pairwise different and ranked in the order of the checks |
| Security.GetPasswordRequirements | backend/app/utils/security.py:60-66 | the four settings, echoed |
| Security.AppendIf | backend/app/utils/security.py:45-55 | one check step: the message is in the list exactly when its check failed, order kept |
| Security.ValidatePasswordStrength | backend/app/utils/security.py:37-58 | each message appears exactly when its check fails, in the fixed order, at most 4; valid exactly when none, exactly when the password meets the published requirements |
| Helpers.Keys | backend/app/utils/helpers.py:11 | the keys of a dictionary, in order |
| Helpers.Serialize | backend/app/utils/helpers.py:9-19 | dictionaries keep their keys and lists their length; ObjectIds and datetimes become strings; other values are unchanged |
| Helpers.SerializeIsJsonReady | backend/app/utils/helpers.py:9-19 | the result holds no ObjectId and no datetime |
| Helpers.SerializeFixesJsonReady | backend/app/utils/helpers.py:9-19 | a JSON-ready value passes through unchanged |
| Helpers.SerializeIdempotent | backend/app/utils/helpers.py:9-19 | serializing twice is serializing once |
| Helpers.SerializeListPointwise | backend/app/utils/helpers.py:12-13 | list item `i` of the result is item `i` serialized |
| Helpers.ParseObjectIdOrNone | backend/app/utils/helpers.py:22-26 | the ObjectId exactly for a valid id, else `None` |
| Helpers.IsValidObjectIdHelper | backend/app/utils/helpers.py:29-30 | true exactly when the parse gives an ObjectId, exactly for a valid id |
| Helpers.PaginateParamsAsWritten | backend/app/utils/helpers.py:33-39 | every call raises NameError |
| Helpers.PaginateParams | backend/app/utils/helpers.py:33-39 | the limit clamped to 1..100, the page to at least 1, `skip = (page-1)*limit` |
| Helpers.PagesTile | backend/app/utils/helpers.py:33-39 | item `n` lies on exactly the page `n // limit + 1`; the as-written helper answers no page |
| Helpers.FloorDiv | backend/app/utils/helpers.py:48 | Python's `//`: the quotient rounded toward negative infinity |
| Helpers.CreatePaginationResponse | backend/app/utils/helpers.py:41-60 | ZeroDivisionError exactly for limit 0; otherwise the items and, under the key `pagimation` as written, `total_pages` is the ceiling of `total/limit`, `has_next` iff `page*limit < total`, `has_prev` iff `page > 1` |
| Helpers.HasNextBelowLastPage | backend/app/utils/helpers.py:48-57 | for a positive limit, `has_next` holds exactly when the page is below the page count |
| Helpers.SuccessResponse | backend/app/utils/helpers.py:63-73 | `status` and `message` first, and a `data` key exactly when data is not `None` |
| Config.Stripped | backend/app/config.py:91 | each piece stripped, same number of pieces |
| Config.StrippedNonBlank | backend/app/config.py:95 | only non-blank pieces, each stripped |
| Config.StrippedNonBlankMembers | backend/app/config.py:95 | the kept entries are exactly the stripped pieces that are not empty |
| Config.SplitPieceWithin | backend/app/config.py:95 | every character of a split piece comes from the string |
| Config.CorsOriginsList | backend/app/config.py:93-95 | an origin is listed exactly when it is a non-empty stripped comma-separated entry; each is free of commas |
| Config.ListOrWildcard | backend/app/config.py:97-105 | `["*"]` when every stripped entry is empty; otherwise exactly the non-empty stripped entries, in order |
| Config.BlankMeansWildcard | backend/app/config.py:97-105 | a setting of only commas and whitespace gives `["*"]` |
| Config.WildcardDefault | backend/app/config.py:34-105 | the declared defaults give `["*"]` |
| Config.AllowedExtensionsList | backend/app/config.py:89-91 | every comma-separated piece stripped and lower-cased, empty pieces kept |
| Config.ExtensionCount | backend/app/config.py:91 | one extension per comma-separated field |
| Config.SplitCount | backend/app/config.py:91 | a split has one more piece than there are separators |
| Config.ExtensionsNormalised | backend/app/config.py:91 | each extension has no surrounding whitespace, no upper case, no comma, and normalising again changes nothing |
| Config.NormalisedPiece | backend/app/config.py:91 | lower-casing a stripped string keeps it stripped and makes it lower-case |
| Config.RedisUrl | backend/app/config.py:107-111 | the URL starts with `redis://` and ends with `host:port/db`; `:password@` sits right after the scheme when a password is set, and the length leaves room for nothing else |
| Config.RedisUrlCredentials | backend/app/config.py:107-111 | the URL with a password is the one without with `:password@` inserted after the scheme |

## Left out

- Transport and scheduling. Socket.IO delivery, room membership tracking, ping timeouts, async interleaving and the FastAPI/uvicorn plumbing are out. Each handler is one atomic step, and its transport actions are recorded as `Effect` values.
- Event payloads. Emits record the event and the room (and the skipped session), not the payload dictionaries.
- Presence and typing storage. backend/app/services/redis_service.py only logs, so its calls appear as `PresenceMark`/`TypingMark` effects. Its module is not part of this model.
- JWT encoding, expiry and signature checks, and bcrypt hashing. These are the function parameters `decode` and `hash`. backend/app/utils/jwt.py and backend/app/routes/auth.py are not part of this model. Neither are backend/app/routes/users.py and backend/app/database.py: the unique indexes appear only as the `DuplicateKey` outcome.
- Foreign predicates.
  - `ObjectId.is_valid` is modelled as 24 hexadecimal digits.
  - The `$regex` match of `search_user` is a parameter.
  - `EmailStr` validation (a malformed address refused with 422) and normalisation (the domain lower-cased) are not modelled: emails are plain strings.
  - `str.lower`, `str.isalnum`, whitespace and the `\d` class of the password check are the ASCII cases, not the full Unicode tables.
- MongoDB dotted paths. `reactions.<emoji>` is treated as one key even when the emoji contains a dot.
- Sort ties. The database promises no order among equal sort keys. The model keeps insertion order, which is one of the permitted orders.
- Time. Times are integers supplied by the caller. `isoformat` is a parameter.
- Values of the wrong type. `parse_Object_id` and the request models are modelled on strings. A value of another Python type that reaches them is represented only in `MessageModel.ValidatePyObjectId`.
- `error_response` refers to an undefined name and is not modelled. Neither is the second `GET /chats/{chat_id}` handler (backend/app/routes/chats.py:140-176), which the first registration shadows and which calls an undefined function.
- User-service functions outside the core are not modelled: the lookups by email or username for authentication.
- The framework turns an exception that escapes a handler into a 500 response. The model returns the exception (`InvalidId`, `DuplicateKey`, ...) instead.
- `Gateway.Gateway.Connect`: requires a session id that is not registered yet. Socket.IO never reuses a live sid.
- `Gateway.DropSession`: requires a consistent registry. The `ValueError` that `list.remove` would raise on an inconsistent one cannot happen from the handshakes modelled.
- `MessageRoutes.GetMessages`: requires `1 <= limit <= 100`, which the query parameter enforces before the handler runs.
- `Gateway.Gateway.SendMessage`: after a successful creation the model always broadcasts, because it uses the corrected `MessageResponse` conversion. As written, a message without metadata fails the conversion, and the sender gets "Failed to send message" after the message is stored (see Findings).
- `Config.CorsOriginsList`: states which origins are listed, not their order. Starlette's CORS check only tests membership.
- Clock reads. The source sets `created_at` and `updated_at` from two `datetime.now` calls. The model gives both the one value `now`.
- `ChatModel.ValidateChatCreate` takes the chat type already read from the request. How it is read is stated separately by `ChatModel.ChatTypeAsWritten` and `ChatModel.ChatTypeField`.

## Findings

| source | as written | input that shows it | evidently intended | confidence | as-written member | corrected member |
|---|---|---|---|---|---|---|
| backend/app/services/message_service.py:233-238 | the unread count filters on `"is_deleted": False`, a key `create_message` never writes | any message created by another user and not yet read: counted 0 | the `{"$ne": True}` condition the listing uses | high, not executed | MessageService.UnreadCountCounterexample | MessageService.MarkReadClearsUnread |
| backend/app/utils/helpers.py:37 | `skip - (page-1) * limit` evaluates an undefined name | `paginate_params(1, 20)` raises NameError | `skip = (page-1) * limit` | high, not executed | Helpers.PaginateParamsAsWritten | Helpers.PagesTile |
| backend/app/services/user_service.py:17-22 | the email existence check uses the address as given, while stored emails are lower-cased | `Alice@example.com` when `alice@example.com` is registered: passes the check, then DuplicateKey (500) | compare the lower-cased address and answer 400 | medium, not executed | UserService.CreateUserEmailCaseCounterexample | UserService.PlanCreateUser |
| backend/app/models/message.py:212 | `metadata` is a plain dictionary, but `create_message` stores `None` when none is given | `MessageResponse(**doc)` of a message sent without metadata fails | read a missing `metadata` as `{}` | high, not executed | MessageModel.ToResponseAsWritten | MessageModel.ToResponse |
| backend/app/routes/messages.py:62-71 | `has_more` trims the already reversed list, so with `after` the cut drops the first fetched message | `after` set, `limit = 1`, two messages after it: the page shows the newer one, and the older one is never shown | drop the extra message from the far end of the fetch | high, not executed | MessageRoutes.PageAsWrittenDropsFirstFetched | MessageRoutes.Page |
| backend/app/models/chat.py:231-244 | `chat_type` has the alias `ChatType` and the config key is misspelled `populated_by_name` | any stored chat: `ChatResponse(**chat)` lacks `ChatType` and fails | read `chat_type` by its field name | high, not executed | ChatModel.StoredChatsNeverConvert | ChatModel.ToChatResponse |
| backend/app/models/chat.py:76-79 | `ChatCreate.chat_type` is read only under the alias `ChatType` | a body `{"chat_type": "group", ...}` creates a direct chat | read `chat_type` by its field name | high, not executed | ChatModel.GroupRequestReadAsDirect | ChatModel.ChatTypeFieldRoundTrip |

=== FILE: chat_model.dfy ===
/** The chat schema (backend/app/models/chat.py): the chat type enum, the request
    validators, and the stored chat document with its model defaults. */
module ChatModel {
  import opened Common

  datatype ChatType = Direct | Group

  function ChatTypeValue(t: ChatType): string {
    match t
    case Direct => "direct"
    case Group => "group"
  }

  function ParseChatType(v: string): (r: Option<ChatType>)
    ensures r.Some? ==> ChatTypeValue(r.value) == v
  {
    if v == "direct" then Some(Direct) else if v == "group" then Some(Group) else None
  }

  lemma ChatTypeValuesExact(t: ChatType, v: string)
    ensures ParseChatType(ChatTypeValue(t)) == Some(t)
    ensures ParseChatType(v).Some? <==> v in {"direct", "group"}
  {
  }

  const NAME_MAX_LENGTH: nat := 100
  const DESCRIPTION_MAX_LENGTH: nat := 1000
  const PREVIEW_MAX_LENGTH: nat := 100

  /** How the `name` field arrives: left out, an explicit `null`, or a string. */
  datatype NameInput = Omitted | Null | Given(s: string)

  /** `ChatCreate.validate_name` (a before-validator) followed by the 1..100 bound on
      what it returns. A left-out name keeps its default without running the
      validator; an explicit `null` makes `v.strip()` raise AttributeError. */
  function ValidateName(n: NameInput): (r: Res<Option<string>>)
    ensures n.Omitted? ==> r == Ok(None)
    ensures n.Null? ==> r == Err(AttributeError)
    ensures n.Given? ==> (r.Ok? <==> Strip(n.s) != "" && |Strip(n.s)| <= NAME_MAX_LENGTH)
    ensures n.Given? && r.Ok? ==> r.value == Some(Strip(n.s))
  {
    match n
    case Omitted => Ok(None)
    case Null => Err(AttributeError)
    case Given(s) =>
      var t := Strip(s);
      if t == "" then Err(ValueError("Name cannot be empty"))
      else if |t| > NAME_MAX_LENGTH then Err(ValueError("name: length"))
      else Ok(Some(t))
  }

  /** A whitespace-only name is refused; an accepted name never starts or ends with
      whitespace. */
  lemma NameRejectsBlank(s: string)
    ensures (forall i :: 0 <= i < |s| ==> IsSpace(s[i])) ==> ValidateName(Given(s)).Err?
    ensures ValidateName(Given(s)).Ok? ==>
              var t := ValidateName(Given(s)).value.value; t != "" && !IsSpace(t[0]) && !IsSpace(t[|t| - 1])
  {
    StripEmptyIffBlank(s);
  }

  /** `participant_ids`: at least one id, each a valid ObjectId. */
  function ValidateParticipantIds(ids: seq<string>): (r: Res<seq<string>>)
    ensures r.Ok? <==> |ids| >= 1 && forall i :: 0 <= i < |ids| ==> IsValidObjectId(ids[i])
    ensures r.Ok? ==> r.value == ids
  {
    if |ids| == 0 then Err(ValueError("participant_ids: List should have at least 1 item"))
    else if exists i :: 0 <= i < |ids| && !IsValidObjectId(ids[i]) then Err(ValueError("Invalid user ID"))
    else Ok(ids)
  }

  /** The chat type a `ChatCreate` body yields as written: the field carries the alias
      `ChatType` and the model does not populate by name, so only a `ChatType` key is
      read; a body without it gets the default, direct. `None` is a refused value. */
  function ChatTypeAsWritten(body: map<string, string>): (r: Option<ChatType>)
    ensures "ChatType" !in body ==> r == Some(Direct)
    ensures "ChatType" in body ==> (r.Some? <==> body["ChatType"] in {"direct", "group"})
  {
    if "ChatType" in body then ParseChatType(body["ChatType"]) else Some(Direct)
  }

  /** A request that asks for a group under the documented `chat_type` key is read as
      a direct chat. */
  lemma GroupRequestReadAsDirect()
    ensures ChatTypeAsWritten(map["chat_type" := "group"]) == Some(Direct)
    ensures ChatTypeField(map["chat_type" := "group"]) == Some(Group)
  {
  }

  /** The chat type read under its field name `chat_type`, direct when left out. */
  function ChatTypeField(body: map<string, string>): (r: Option<ChatType>)
    ensures "chat_type" !in body ==> r == Some(Direct)
    ensures "chat_type" in body ==> (r.Some? <==> body["chat_type"] in {"direct", "group"})
    ensures r.Some? && "chat_type" in body ==> ChatTypeValue(r.value) == body["chat_type"]
  {
    if "chat_type" in body then ParseChatType(body["chat_type"]) else Some(Direct)
  }

  /** Every chat type sent under `chat_type` is read back as itself. */
  lemma ChatTypeFieldRoundTrip(t: ChatType)
    ensures ChatTypeField(map["chat_type" := ChatTypeValue(t)]) == Some(t)
  {
  }

  /** A `ChatCreate` that passed validation. */
  datatype ChatCreate = ChatCreate(
    name: Option<string>,
    description: Option<string>,
    chatType: ChatType,
    avatar: Option<string>,
    participantIds: seq<string>)

  function ValidateChatCreate(name: NameInput, description: Option<string>, chatType: ChatType,
                              avatar: Option<string>, participantIds: seq<string>): (r: Res<ChatCreate>)
    ensures r.Ok? <==> ValidateName(name).Ok?
                       && (description.Some? ==> |description.value| <= DESCRIPTION_MAX_LENGTH)
                       && ValidateParticipantIds(participantIds).Ok?
    ensures r.Ok? ==> r.value.name == ValidateName(name).value && r.value.participantIds == participantIds
                      && r.value.description == description && r.value.chatType == chatType
                      && r.value.avatar == avatar
  {
    match ValidateName(name)
    case Err(e) => Err(e)
    case Ok(n) =>
      if description.Some? && |description.value| > DESCRIPTION_MAX_LENGTH then Err(ValueError("description: length"))
      else
        match ValidateParticipantIds(participantIds)
        case Err(e) => Err(e)
        case Ok(ids) => Ok(ChatCreate(n, description, chatType, avatar, ids))
  }

  /** `AddParticipantRequest` and `RemoveParticipantRequest` share this validator. */
  function ValidateParticipantRequest(userId: string): (r: Res<string>)
    ensures r.Ok? <==> IsValidObjectId(userId)
    ensures r.Ok? ==> r.value == userId
  {
    if IsValidObjectId(userId) then Ok(userId) else Err(ValueError("Invalid user ID"))
  }

  /** `ChatUpdate`: every field optional; `None` stands for unset or `null`. */
  datatype ChatUpdate = ChatUpdate(name: Option<string>, description: Option<string>, avatar: Option<string>)

  /** The field bounds of `ChatUpdate`: a given name has 1..100 characters and a given
      description at most 1000. No validator strips the name here. */
  function ValidateChatUpdate(u: ChatUpdate): (r: Res<ChatUpdate>)
    ensures r.Ok? <==> (u.name.Some? ==> 1 <= |u.name.value| <= NAME_MAX_LENGTH)
                       && (u.description.Some? ==> |u.description.value| <= DESCRIPTION_MAX_LENGTH)
    ensures r.Ok? ==> r.value == u
  {
    if u.name.Some? && !(1 <= |u.name.value| <= NAME_MAX_LENGTH) then Err(ValueError("name: length"))
    else if u.description.Some? && |u.description.value| > DESCRIPTION_MAX_LENGTH then Err(ValueError("description: length"))
    else Ok(u)
  }

  /** A document of the `chats` collection. */
  datatype Chat = Chat(
    id: string,
    name: Option<string>,
    description: Option<string>,
    chatType: ChatType,
    avatar: Option<string>,
    participants: seq<string>,
    admin: seq<string>,
    createdBy: string,
    createdAt: int,
    updatedAt: int,
    lastMessageAt: Option<int>,
    lastMessagePreview: Option<string>,
    isArchived: bool)

  /** The `Chat` model with its optional fields left to their defaults. */
  function ChatDefaults(id: string, chatType: ChatType, participants: seq<string>, admin: seq<string>,
                        createdBy: string, now: int): (c: Chat)
    ensures !c.isArchived && c.lastMessageAt.None? && c.lastMessagePreview.None?
    ensures c.name.None? && c.description.None? && c.avatar.None?
    ensures c.participants == participants && c.admin == admin && c.createdBy == createdBy
  {
    Chat(id, None, None, chatType, None, participants, admin, createdBy, now, now, None, None, false)
  }

  /** The `Chat` model's field bound on the stored preview. */
  predicate PreviewFits(c: Chat) {
    c.lastMessagePreview.Some? ==> |c.lastMessagePreview.value| <= PREVIEW_MAX_LENGTH
  }

  /** `ChatSummary`, one entry of the chat list. */
  datatype ChatSummary = ChatSummary(
    id: string,
    name: Option<string>,
    chatType: ChatType,
    avatar: Option<string>,
    lastMessageAt: Option<int>,
    lastMessagePreview: Option<string>,
    unreadCount: int)

  /** `ChatResponse`, what the chat endpoints answer. */
  datatype ChatResponse = ChatResponse(
    id: string,
    name: Option<string>,
    description: Option<string>,
    chatType: ChatType,
    avatar: Option<string>,
    participants: seq<string>,
    admin: seq<string>,
    createdBy: string,
    createdAt: int,
    updatedAt: int,
    lastMessageAt: Option<int>,
    lastMessagePreview: Option<string>,
    isArchived: bool)

  /** The keys of a stored chat document, as `create_chat` writes them. */
  const CHAT_DOCUMENT_KEYS: set<string> :=
    {"_id", "name", "description", "chat_type", "avatar", "participants", "admin", "created_by",
     "created_at", "updated_at", "last_message_at", "last_message_preview", "is_archived"}

  /** `ChatResponse(**doc)` as written: the fields without a default must be present
      under their input names. `chat_type` is declared with the alias `ChatType`, and the
      configuration key that would also admit the field name is misspelled
      (`populated_by_name`), so only a `ChatType` key fills it. */
  function ChatResponseAsWritten(keys: set<string>, c: Chat): (r: Res<ChatResponse>)
    ensures r.Ok? <==> {"_id", "ChatType", "created_by", "created_at", "updated_at"} <= keys
  {
    if {"_id", "ChatType", "created_by", "created_at", "updated_at"} <= keys then Ok(ToChatResponse(c))
    else Err(ValueError("ChatType: Field required"))
  }

  /** No stored chat converts as written: every endpoint that answers a `ChatResponse`
      fails after its work is done. */
  lemma StoredChatsNeverConvert(c: Chat)
    ensures ChatResponseAsWritten(CHAT_DOCUMENT_KEYS, c).Err?
  {
    assert "ChatType" !in CHAT_DOCUMENT_KEYS;
  }

  /** The conversion with `chat_type` read by its field name: every field copied. */
  function ToChatResponse(c: Chat): (r: ChatResponse)
    ensures r.id == c.id && r.name == c.name && r.description == c.description && r.chatType == c.chatType
    ensures r.avatar == c.avatar && r.participants == c.participants && r.admin == c.admin
    ensures r.createdBy == c.createdBy && r.isArchived == c.isArchived
    ensures r.lastMessageAt == c.lastMessageAt && r.lastMessagePreview == c.lastMessagePreview
  {
    ChatResponse(c.id, c.name, c.description, c.chatType, c.avatar, c.participants, c.admin, c.createdBy,
                 c.createdAt, c.updatedAt, c.lastMessageAt, c.lastMessagePreview, c.isArchived)
  }

  /** The conversion as written gives the same response once the type is found. */
  lemma ConversionAgreesWhenTypeFound(c: Chat)
    ensures ChatResponseAsWritten(CHAT_DOCUMENT_KEYS + {"ChatType"}, c) == Ok(ToChatResponse(c))
  {
  }
}

=== FILE: chat_routes.dfy ===
/** The chat endpoints (backend/app/routes/chats.py): the chat list, creation, and the
    404 / 400 / 403 guard chains in front of the chat-service operations. Guards answer
    `Http(...)` as the handlers raise it; a malformed id outside a `try` escapes the
    handler as `InvalidId`. Responses are built with the corrected `ChatResponse`
    conversion. */
module ChatRoutes {
  import opened Common
  import opened ChatModel
  import opened Collection
  import opened ChatService

  // ---------------------------------------------------------------------------
  // `GET /chats/`
  // ---------------------------------------------------------------------------

  /** `ChatListResponse`. */
  datatype ChatList = ChatList(chats: seq<ChatSummary>, total: nat)

  /** One entry of the list: the chat's own fields and an unread count fixed at 0. */
  function Summary(c: Chat): (s: ChatSummary)
    ensures s.id == c.id && s.name == c.name && s.chatType == c.chatType && s.avatar == c.avatar
    ensures s.lastMessageAt == c.lastMessageAt && s.lastMessagePreview == c.lastMessagePreview
    ensures s.unreadCount == 0
  {
    ChatSummary(c.id, c.name, c.chatType, c.avatar, c.lastMessageAt, c.lastMessagePreview, 0)
  }

  /** `chat_list`: one summary per chat `get_user_chats` returns, in its order; `total`
      counts the page, not every chat of the user. */
  function ChatListFor(cs: seq<Chat>, userId: string, includeArchived: bool): (r: ChatList)
    ensures |r.chats| == r.total == |GetUserChats(cs, userId, includeArchived)| <= USER_CHATS_LIMIT
    ensures forall i :: 0 <= i < |r.chats| ==> r.chats[i] == Summary(GetUserChats(cs, userId, includeArchived)[i])
    ensures forall i :: 0 <= i < |r.chats| ==> r.chats[i].unreadCount == 0
  {
    var page := GetUserChats(cs, userId, includeArchived);
    ChatList(seq(|page|, i requires 0 <= i < |page| => Summary(page[i])), |page|)
  }

  // ---------------------------------------------------------------------------
  // Guards
  // ---------------------------------------------------------------------------

  /** The participant check of the chat and message endpoints: 403 for a non-participant. */
  function RequireParticipant(cs: seq<Chat>, chatId: string, userId: string): (r: Res<()>)
    ensures r == Ok(()) <==> IsUserInChat(cs, chatId, userId) == Ok(true)
    ensures r == Err(Http(403)) <==> IsUserInChat(cs, chatId, userId) == Ok(false)
    ensures r.Err? && r != Err(Http(403)) ==> r == Err(InvalidId) && !IsValidObjectId(chatId)
  {
    match IsUserInChat(cs, chatId, userId)
    case Err(e) => Err(e)
    case Ok(false) => Err(Http(403))
    case Ok(true) => Ok(())
  }

  /** `get_chat`: 404 for a missing chat, then 403 for a non-participant. */
  function GetChat(cs: seq<Chat>, chatId: string, userId: string): (r: Res<ChatResponse>)
    ensures r == Err(Http(404)) <==> GetChatById(cs, chatId).None?
    ensures r == Err(Http(403)) <==> GetChatById(cs, chatId).Some? && IsUserInChat(cs, chatId, userId) == Ok(false)
    ensures r.Ok? <==> GetChatById(cs, chatId).Some? && IsUserInChat(cs, chatId, userId) == Ok(true)
    ensures r.Ok? ==> r.value == ToChatResponse(GetChatById(cs, chatId).value)
  {
    match GetChatById(cs, chatId)
    case None => Err(Http(404))
    case Some(chat) =>
      match IsUserInChat(cs, chatId, userId)
      case Err(_) => Err(Http(500))
      case Ok(false) => Err(Http(403))
      case Ok(true) => Ok(ToChatResponse(chat))
  }

  /** `update_chat_details`: 404, then for a group chat the admin check, for a direct
      chat the participant check. */
  function RequireEditor(cs: seq<Chat>, chatId: string, userId: string): (r: Res<Chat>)
    ensures r == Err(Http(404)) <==> GetChatById(cs, chatId).None?
    ensures r.Ok? ==> GetChatById(cs, chatId) == Some(r.value)
    ensures GetChatById(cs, chatId).Some? && GetChatById(cs, chatId).value.chatType == Group ==>
              (r.Ok? <==> IsUserAdmin(cs, chatId, userId) == Ok(true))
    ensures GetChatById(cs, chatId).Some? && GetChatById(cs, chatId).value.chatType == Direct ==>
              (r.Ok? <==> IsUserInChat(cs, chatId, userId) == Ok(true))
  {
    match GetChatById(cs, chatId)
    case None => Err(Http(404))
    case Some(chat) =>
      var allowed := if chat.chatType == Group then IsUserAdmin(cs, chatId, userId) else IsUserInChat(cs, chatId, userId);
      match allowed
      case Err(e) => Err(e)
      case Ok(false) => Err(Http(403))
      case Ok(true) => Ok(chat)
  }

  /** `add_chat_participant`: 404, then 400 for a direct chat, then the admin check. */
  function RequireAdder(cs: seq<Chat>, chatId: string, userId: string): (r: Res<Chat>)
    ensures r == Err(Http(404)) <==> GetChatById(cs, chatId).None?
    ensures r == Err(Http(400)) <==> GetChatById(cs, chatId).Some? && GetChatById(cs, chatId).value.chatType == Direct
    ensures r.Ok? <==> GetChatById(cs, chatId).Some? && GetChatById(cs, chatId).value.chatType == Group
                       && IsUserAdmin(cs, chatId, userId) == Ok(true)
    ensures r.Ok? ==> GetChatById(cs, chatId) == Some(r.value)
  {
    match GetChatById(cs, chatId)
    case None => Err(Http(404))
    case Some(chat) =>
      if chat.chatType == Direct then Err(Http(400))
      else
        assert chat.chatType == Group;
        match IsUserAdmin(cs, chatId, userId)
        case Err(e) => Err(e)
        case Ok(false) => Err(Http(403))
        case Ok(true) => Ok(chat)
  }

  /** `remove_chat_participant`: 404, then 400 for a direct chat, then the admin check,
      which a user removing themself skips. */
  function RequireRemover(cs: seq<Chat>, chatId: string, userId: string, targetId: string): (r: Res<Chat>)
    ensures r == Err(Http(404)) <==> GetChatById(cs, chatId).None?
    ensures r == Err(Http(400)) <==> GetChatById(cs, chatId).Some? && GetChatById(cs, chatId).value.chatType == Direct
    ensures r.Ok? <==> GetChatById(cs, chatId).Some? && GetChatById(cs, chatId).value.chatType == Group
                       && (targetId == userId || IsUserAdmin(cs, chatId, userId) == Ok(true))
    ensures r.Ok? ==> GetChatById(cs, chatId) == Some(r.value)
  {
    match GetChatById(cs, chatId)
    case None => Err(Http(404))
    case Some(chat) =>
      if chat.chatType == Direct then Err(Http(400))
      else
        assert chat.chatType == Group;
        if targetId == userId then Ok(chat)
        else match IsUserAdmin(cs, chatId, userId)
        case Err(e) => Err(e)
        case Ok(false) => Err(Http(403))
        case Ok(true) => Ok(chat)
  }

  /** Because `is_user_admin` only asks whether the chat exists, the admin-only guards of
      a group chat let every authenticated user through: anyone may rename it, add
      members, or remove any member. */
  lemma GroupGuardsAdmitAnyone(cs: seq<Chat>, chatId: string, userId: string, targetId: string)
    requires GetChatById(cs, chatId).Some? && GetChatById(cs, chatId).value.chatType == Group
    ensures RequireEditor(cs, chatId, userId).Ok?
    ensures RequireAdder(cs, chatId, userId).Ok?
    ensures RequireRemover(cs, chatId, userId, targetId).Ok?
  {
    var c := GetChatById(cs, chatId).value;
    assert c in cs;
    var k :| 0 <= k < |cs| && cs[k] == c;
    assert IsUserAdmin(cs, chatId, userId) == Ok(true);
  }

  // ---------------------------------------------------------------------------
  // The handlers
  // ---------------------------------------------------------------------------

  /** The response of a handler that ends with `ChatResponse(**updated_chat)`: a
      missing chat there fails the conversion, an internal error. */
  function Respond(updated: Option<Chat>): Res<ChatResponse> {
    if updated.Some? then Ok(ToChatResponse(updated.value)) else Err(Http(500))
  }

  /** `create_new_chat`: a refused creation becomes a 500 with the error's text; a
      reused direct chat or the inserted one is answered. */
  method CreateNewChat(store: ChatStore, data: ChatCreate, userId: string, newId: string, now: int)
    returns (r: Res<ChatResponse>)
    requires store.Valid()
    requires IsCanonicalId(newId) && forall k :: 0 <= k < |store.chats| ==> store.chats[k].id != newId
    modifies store
    ensures store.Valid()
    ensures match PlanCreateChat(old(store.chats), data, userId, newId, now)
            case Err(_) => r == Err(Http(500)) && store.chats == old(store.chats)
            case Ok(Existing(c)) => r == Ok(ToChatResponse(c)) && store.chats == old(store.chats)
            case Ok(Inserted(c)) => r == Ok(ToChatResponse(c)) && store.chats == old(store.chats) + [c]
  {
    var created := store.CreateChat(data, userId, newId, now);
    if created.Err? {
      return Err(Http(500));
    }
    r := Ok(ToChatResponse(created.value));
  }

  /** `update_chat_details`: the guard, then `update_chat`. */
  method UpdateChatDetails(store: ChatStore, chatId: string, u: ChatUpdate, userId: string, now: int)
    returns (r: Res<ChatResponse>)
    requires store.Valid()
    modifies store
    ensures store.Valid()
    ensures RequireEditor(old(store.chats), chatId, userId).Err? ==>
              r.Err? && r.error == RequireEditor(old(store.chats), chatId, userId).error && store.chats == old(store.chats)
    ensures RequireEditor(old(store.chats), chatId, userId).Ok? && u == ChatUpdate(None, None, None) ==>
              store.chats == old(store.chats) && r == Ok(ToChatResponse(RequireEditor(old(store.chats), chatId, userId).value))
    ensures RequireEditor(old(store.chats), chatId, userId).Ok? && u != ChatUpdate(None, None, None) ==>
              var f := (c: Chat) => ApplyChatDoc(c, UpdateDoc(ChatDump(u)), now);
              store.chats == AfterUpdate(old(store.chats), IdOf, chatId, f)
              && r == Ok(ToChatResponse(f(RequireEditor(old(store.chats), chatId, userId).value)))
  {
    var guard := RequireEditor(store.chats, chatId, userId);
    if guard.Err? {
      return Err(guard.error);
    }
    var updated := store.UpdateChat(chatId, u, now);
    r := match updated case Ok(v) => Respond(v) case Err(e) => Err(e);
  }

  /** `delete_chat`: a participant archives the chat. */
  method DeleteChat(store: ChatStore, chatId: string, userId: string, now: int) returns (r: Res<()>)
    requires store.Valid()
    modifies store
    ensures store.Valid()
    ensures RequireParticipant(old(store.chats), chatId, userId).Err? ==>
              r == RequireParticipant(old(store.chats), chatId, userId) && store.chats == old(store.chats)
    ensures RequireParticipant(old(store.chats), chatId, userId).Ok? ==>
              r == Ok(()) && store.chats == AfterUpdate(old(store.chats), IdOf, chatId, c => ArchiveRecord(c, now))
  {
    r := RequireParticipant(store.chats, chatId, userId);
    if r.Err? {
      return;
    }
    var _ := store.ArchiveChat(chatId, now);
  }

  /** `add_chat_participant`: the guard, then the set-add. */
  method AddChatParticipant(store: ChatStore, chatId: string, newUserId: string, userId: string, now: int)
    returns (r: Res<ChatResponse>)
    requires store.Valid()
    modifies store
    ensures store.Valid()
    ensures RequireAdder(old(store.chats), chatId, userId).Err? ==>
              r.Err? && r.error == RequireAdder(old(store.chats), chatId, userId).error && store.chats == old(store.chats)
    ensures RequireAdder(old(store.chats), chatId, userId).Ok? ==>
              store.chats == AfterUpdate(old(store.chats), IdOf, chatId, c => AddParticipantTo(c, newUserId, now))
              && r == Ok(ToChatResponse(AddParticipantTo(RequireAdder(old(store.chats), chatId, userId).value, newUserId, now)))
  {
    var guard := RequireAdder(store.chats, chatId, userId);
    if guard.Err? {
      return Err(guard.error);
    }
    var updated := store.AddParticipant(chatId, newUserId, now);
    r := match updated case Ok(v) => Respond(v) case Err(e) => Err(e);
  }

  /** `remove_chat_participant`: the guard, then the pull. */
  method RemoveChatParticipant(store: ChatStore, chatId: string, targetId: string, userId: string, now: int)
    returns (r: Res<ChatResponse>)
    requires store.Valid()
    modifies store
    ensures store.Valid()
    ensures RequireRemover(old(store.chats), chatId, userId, targetId).Err? ==>
              r.Err? && r.error == RequireRemover(old(store.chats), chatId, userId, targetId).error
              && store.chats == old(store.chats)
    ensures RequireRemover(old(store.chats), chatId, userId, targetId).Ok? ==>
              store.chats == AfterUpdate(old(store.chats), IdOf, chatId, c => RemoveParticipantFrom(c, targetId, now))
              && r == Ok(ToChatResponse(RemoveParticipantFrom(RequireRemover(old(store.chats), chatId, userId, targetId).value,
                                                               targetId, now)))
  {
    var guard := RequireRemover(store.chats, chatId, userId, targetId);
    if guard.Err? {
      return Err(guard.error);
    }
    var updated := store.RemoveParticipant(chatId, targetId, now);
    r := match updated case Ok(v) => Respond(v) case Err(e) => Err(e);
  }
}

=== FILE: chat_service.dfy ===
/** The `chats` collection and its service (backend/app/services/chat_service.py). The
    collection is a sequence of documents in natural (insertion) order; `ObjectId()`
    is a fresh id supplied by the caller, and the clock is the integer `now`. */
module ChatService {
  import opened Common
  import opened ChatModel
  import opened Sorting
  import opened Collection

  function IdOf(c: Chat): string { c.id }

  /** What every stored chat satisfies: a unique canonical id and a preview within
      the model's bound. */
  predicate WellFormed(cs: seq<Chat>) {
    UniqueIds(cs, IdOf) && forall i :: 0 <= i < |cs| ==> IsCanonicalId(cs[i].id) && PreviewFits(cs[i])
  }

  /** `find_one({"_id": ObjectId(chat_id)})`: InvalidId for a malformed id, else the
      position of the chat, if any. */
  function Locate(cs: seq<Chat>, chatId: string): (r: Res<Option<nat>>)
    ensures r.Err? <==> !IsValidObjectId(chatId)
    ensures r.Err? ==> r.error == InvalidId
    ensures r.Ok? && r.value.Some? ==> r.value.value < |cs| && cs[r.value.value].id == Lower(chatId)
    ensures r.Ok? && r.value.None? ==> forall k :: 0 <= k < |cs| ==> cs[k].id != Lower(chatId)
  {
    FindById(cs, IdOf, chatId)
  }

  // ---------------------------------------------------------------------------
  // Queries
  // ---------------------------------------------------------------------------

  /** `get_chat_by_id(chat_id)`: the exception of a malformed id is caught, so it reads
      as "no such chat". */
  function GetChatById(cs: seq<Chat>, chatId: string): (r: Option<Chat>)
    ensures r.Some? ==> r.value in cs && r.value.id == Lower(chatId) && IsValidObjectId(chatId)
    ensures r.None? ==> !IsValidObjectId(chatId) || forall k :: 0 <= k < |cs| ==> cs[k].id != Lower(chatId)
  {
    match Locate(cs, chatId)
    case Err(_) => None
    case Ok(None) => None
    case Ok(Some(k)) => Some(cs[k])
  }

  /** `is_user_in_chat(chat_id, user_id)`: a malformed id raises; otherwise whether the
      chat exists and lists the user. */
  function IsUserInChat(cs: seq<Chat>, chatId: string, userId: string): (r: Res<bool>)
    ensures r.Err? <==> !IsValidObjectId(chatId)
    ensures r.Ok? ==> (r.value <==> exists k :: 0 <= k < |cs| && cs[k].id == Lower(chatId) && userId in cs[k].participants)
  {
    match ParseObjectId(chatId)
    case Err(e) => Err(e)
    case Ok(oid) =>
      var k := FirstIndex(cs, (c: Chat) => c.id == oid && userId in c.participants);
      Ok(k.Some?)
  }

  /** `is_user_admin(chat_id, user_id)` as written: it looks the chat up by id alone, so
      any user counts as an admin of any existing chat. */
  function IsUserAdmin(cs: seq<Chat>, chatId: string, userId: string): (r: Res<bool>)
    ensures r.Err? <==> !IsValidObjectId(chatId)
    ensures r.Ok? ==> (r.value <==> exists k :: 0 <= k < |cs| && cs[k].id == Lower(chatId))
  {
    match Locate(cs, chatId)
    case Err(e) => Err(e)
    case Ok(k) => Ok(k.Some?)
  }

  /** The admin check ignores the user and the `admin` list: whoever asks gets the same
      answer, and a member of a chat is always its "admin". */
  lemma AdminIgnoresUser(cs: seq<Chat>, chatId: string, u1: string, u2: string)
    ensures IsUserAdmin(cs, chatId, u1) == IsUserAdmin(cs, chatId, u2)
    ensures IsUserInChat(cs, chatId, u1) == Ok(true) ==> IsUserAdmin(cs, chatId, u1) == Ok(true)
  {
  }

  /** The recency order of the chat list: `last_message_at` descending (a chat with no
      message yet sorts last), then `created_at` descending. */
  function RecencyKey(c: Chat): Key {
    Key(c.lastMessageAt.Some?, if c.lastMessageAt.Some? then c.lastMessageAt.value else 0, c.createdAt)
  }

  const USER_CHATS_LIMIT: nat := 100

  predicate ListedFor(c: Chat, userId: string, includeArchived: bool) {
    userId in c.participants && (includeArchived || !c.isArchived)
  }

  /** `get_user_chats(user_id, include_archived)`: the user's chats, without archived
      ones unless asked, most recent first, at most 100. */
  function GetUserChats(cs: seq<Chat>, userId: string, includeArchived: bool): (r: seq<Chat>)
    ensures forall i :: 0 <= i < |r| ==> r[i] in cs && ListedFor(r[i], userId, includeArchived)
    ensures SortedBy(r, RecencyKey, true)
    ensures |r| <= USER_CHATS_LIMIT
    ensures |r| == USER_CHATS_LIMIT || forall j :: 0 <= j < |cs| && ListedFor(cs[j], userId, includeArchived) ==> cs[j] in r
    ensures WellFormed(cs) ==> NoDuplicates(r)
  {
    var listed := Filter(cs, (c: Chat) => ListedFor(c, userId, includeArchived));
    var r := TopN(listed, RecencyKey, true, USER_CHATS_LIMIT);
    forall i | 0 <= i < |r| ensures r[i] in cs && ListedFor(r[i], userId, includeArchived) {
      assert r[i] in multiset(listed);
    }
    forall j | 0 <= j < |cs| && ListedFor(cs[j], userId, includeArchived) && |r| < USER_CHATS_LIMIT
      ensures cs[j] in r
    {
      assert cs[j] in listed;
      MultisetSubsetSameSize(r, listed);
    }
    assert WellFormed(cs) ==> NoDuplicates(r) by {
      if WellFormed(cs) {
        assert NoDuplicates(cs) by {
          forall i, j | 0 <= i < j < |cs| ensures cs[i] != cs[j] {
            assert IdOf(cs[i]) != IdOf(cs[j]);
          }
        }
        FilterNoDuplicates(cs, (c: Chat) => ListedFor(c, userId, includeArchived));
        SubmultisetNoDuplicates(r, listed);
      }
    }
    r
  }

  /** A chat of the user's that the limit leaves out is no more recent than any chat
      returned. */
  lemma UserChatsAreMostRecent(cs: seq<Chat>, userId: string, includeArchived: bool, i: int, j: int)
    requires 0 <= i < |GetUserChats(cs, userId, includeArchived)| && 0 <= j < |cs|
    requires ListedFor(cs[j], userId, includeArchived) && cs[j] !in GetUserChats(cs, userId, includeArchived)
    ensures InOrder(RecencyKey(GetUserChats(cs, userId, includeArchived)[i]), RecencyKey(cs[j]), true)
  {
    var listed := Filter(cs, (c: Chat) => ListedFor(c, userId, includeArchived));
    assert cs[j] in listed;
    var j' :| 0 <= j' < |listed| && listed[j'] == cs[j];
    TopNSelects(listed, RecencyKey, true, USER_CHATS_LIMIT, i, j');
  }

  // ---------------------------------------------------------------------------
  // Creation
  // ---------------------------------------------------------------------------

  /** `if creator_id not in participant_ids: participant_ids.insert(0, creator_id)` */
  function WithCreator(ids: seq<string>, creator: string): (r: seq<string>)
    ensures creator in r
    ensures forall x :: x in r <==> x in ids || x == creator
    ensures r == ids || (r[0] == creator && r[1..] == ids)
  {
    if creator in ids then ids else [creator] + ids
  }

  /** `sorted(ids)` for two ids. */
  function SortPair(ids: seq<string>): (r: seq<string>)
    requires |ids| == 2
    ensures |r| == 2 && LexLe(r[0], r[1])
    ensures multiset(r) == multiset(ids)
  {
    LexLeTotal(ids[0], ids[1]);
    assert ids == [ids[0], ids[1]];
    if LexLe(ids[0], ids[1]) then ids else [ids[1], ids[0]]
  }

  /** The `find_one` filter for an existing direct chat: type direct, exactly two
      participants (`$size`), every requested id among them (`$all`). */
  predicate DirectMatch(c: Chat, ids: seq<string>) {
    c.chatType == Direct && |c.participants| == 2 && forall x :: x in ids ==> x in c.participants
  }

  /** The document `create_chat` inserts. */
  function NewChat(id: string, name: Option<string>, data: ChatCreate, participants: seq<string>,
                   creator: string, now: int): (c: Chat)
    ensures c.id == id && c.name == name && c.participants == participants && c.chatType == data.chatType
    ensures c.admin == [creator] && c.createdBy == creator && !c.isArchived
    ensures c.lastMessageAt.None? && c.lastMessagePreview.None?
    ensures c.description == data.description && c.avatar == data.avatar
    ensures c.createdAt == now && c.updatedAt == now
  {
    Chat(id, name, data.description, data.chatType, data.avatar, participants, [creator], creator,
         now, now, None, None, false)
  }

  datatype CreateOutcome = Existing(chat: Chat) | Inserted(chat: Chat)

  /** `create_chat(chat_data, creator_id)`, as a decision on the collection: a direct
      chat needs exactly two participants once the creator is added and reuses a
      matching direct chat; a group chat needs a name. */
  function PlanCreateChat(cs: seq<Chat>, data: ChatCreate, creator: string, newId: string, now: int): (r: Res<CreateOutcome>)
    ensures data.chatType == Direct ==> (r.Err? <==> |WithCreator(data.participantIds, creator)| != 2)
    ensures data.chatType == Group ==> (r.Err? <==> !Truthy(data.name))
    ensures r.Err? ==> r.error.ValueError?
    ensures r.Ok? && r.value.Existing? ==>
              data.chatType == Direct && r.value.chat in cs && DirectMatch(r.value.chat, data.participantIds + [creator])
    ensures r.Ok? && r.value.Inserted? ==>
              var c := r.value.chat;
              c.id == newId && creator in c.participants && c.admin == [creator] && c.createdBy == creator
              && !c.isArchived && c.chatType == data.chatType
              && (forall x :: x in c.participants <==> x in data.participantIds || x == creator)
    ensures r.Ok? && r.value.Inserted? && data.chatType == Direct ==>
              |r.value.chat.participants| == 2 && LexLe(r.value.chat.participants[0], r.value.chat.participants[1])
              && forall k :: 0 <= k < |cs| ==> !DirectMatch(cs[k], data.participantIds + [creator])
    ensures r.Ok? && r.value.Inserted? && data.chatType == Group ==>
              r.value.chat.participants == WithCreator(data.participantIds, creator) && r.value.chat.name == data.name
    ensures r.Ok? && r.value.Inserted? ==>
              r.value.chat == NewChat(newId, if data.chatType == Direct then (if Truthy(data.name) then data.name else None)
                                             else data.name, data, r.value.chat.participants, creator, now)
  {
    var ids := WithCreator(data.participantIds, creator);
    if data.chatType == Direct then
      if |ids| != 2 then Err(ValueError("Direct chat must have exactly two participants (including you)"))
      else
        var sorted := SortPair(ids);
        assert forall x :: x in sorted <==> x in multiset(ids);
        SameMembersMatch(cs, sorted, data.participantIds + [creator]);
        match FirstIndex(cs, (c: Chat) => DirectMatch(c, sorted))
        case Some(k) => Ok(Existing(cs[k]))
        case None =>
          Ok(Inserted(NewChat(newId, if Truthy(data.name) then data.name else None, data, sorted, creator, now)))
    else if !Truthy(data.name) then Err(ValueError("Group chat name is required"))
    else Ok(Inserted(NewChat(newId, data.name, data, ids, creator, now)))
  }

  /** The direct-chat filter depends only on which ids are requested. */
  lemma SameMembersMatch(cs: seq<Chat>, a: seq<string>, b: seq<string>)
    requires forall x :: x in a <==> x in b
    ensures forall k :: 0 <= k < |cs| ==> (DirectMatch(cs[k], a) <==> DirectMatch(cs[k], b))
  {
  }

  /** Direct chats do not depend on who starts them: when `a` opens a chat with `b` and
      finds none, the chat inserted is the one `b` would have inserted, and once it is
      stored, `b` opening a chat with `a` gets that same chat back. */
  lemma DirectChatSymmetric(cs: seq<Chat>, d1: ChatCreate, d2: ChatCreate, a: string, b: string,
                            newId: string, newId2: string, now: int, now2: int)
    requires a != b && d1.chatType == Direct && d2.chatType == Direct
    requires d1.participantIds == [b] && d2.participantIds == [a]
    requires PlanCreateChat(cs, d1, a, newId, now).Ok? && PlanCreateChat(cs, d1, a, newId, now).value.Inserted?
    ensures PlanCreateChat(cs, d2, b, newId, now).Ok? && PlanCreateChat(cs, d2, b, newId, now).value.Inserted?
    ensures PlanCreateChat(cs, d2, b, newId, now).value.chat.participants == PlanCreateChat(cs, d1, a, newId, now).value.chat.participants
    ensures var c := PlanCreateChat(cs, d1, a, newId, now).value.chat;
            PlanCreateChat(cs + [c], d2, b, newId2, now2) == Ok(Existing(c))
  {
    var c := PlanCreateChat(cs, d1, a, newId, now).value.chat;
    var p1 := SortPair(WithCreator([b], a));
    var p2 := SortPair(WithCreator([a], b));
    assert WithCreator([b], a) == [a, b];
    assert WithCreator([a], b) == [b, a];
    LexLeTotal(a, b);
    if LexLe(a, b) && LexLe(b, a) {
      LexLeAntisymmetric(a, b);
    }
    assert p1 == p2;
    assert d1.participantIds + [a] == [b] + [a];
    SameMembersMatch(cs, p2, [b] + [a]);
    var cs2 := cs + [c];
    assert DirectMatch(c, p2);
    SameMembersMatch(cs2, p2, [a] + [b]);
    var k := FirstIndex(cs2, (x: Chat) => DirectMatch(x, p2));
    assert forall j :: 0 <= j < |cs| ==> !DirectMatch(cs[j], [b] + [a]);
    assert forall j :: 0 <= j < |cs| ==> !DirectMatch(cs2[j], p2);
    assert DirectMatch(cs2[|cs|], p2);
    assert k == Some(|cs|);
  }

  // ---------------------------------------------------------------------------
  // Updates of one chat document
  // ---------------------------------------------------------------------------

  /** `$addToSet` on `participants`, with `updated_at` set. */
  function AddParticipantTo(c: Chat, userId: string, now: int): (r: Chat)
    ensures userId in r.participants
    ensures forall x :: x in r.participants <==> x in c.participants || x == userId
    ensures userId in c.participants ==> r.participants == c.participants
    ensures r.admin == c.admin && r.id == c.id && r.lastMessagePreview == c.lastMessagePreview
  {
    c.(participants := if userId in c.participants then c.participants else c.participants + [userId], updatedAt := now)
  }

  /** Adding the same participant twice is adding once. */
  lemma AddParticipantIdempotent(c: Chat, userId: string, now: int)
    ensures AddParticipantTo(AddParticipantTo(c, userId, now), userId, now) == AddParticipantTo(c, userId, now)
  {
  }

  /** `$pull` of the user from `participants` and from `admin`, with `updated_at` set. */
  function RemoveParticipantFrom(c: Chat, userId: string, now: int): (r: Chat)
    ensures userId !in r.participants && userId !in r.admin
    ensures forall x :: x != userId ==> (x in r.participants <==> x in c.participants)
    ensures forall x :: x != userId ==> (x in r.admin <==> x in c.admin)
    ensures r.id == c.id && r.lastMessagePreview == c.lastMessagePreview && r.isArchived == c.isArchived
  {
    c.(participants := Without(c.participants, userId), admin := Without(c.admin, userId), updatedAt := now)
  }

  function ArchiveRecord(c: Chat, now: int): (r: Chat)
    ensures r.isArchived && r.participants == c.participants && r.admin == c.admin
    ensures r.id == c.id && r.lastMessagePreview == c.lastMessagePreview
  {
    c.(isArchived := true, updatedAt := now)
  }

  /** `update_last_message`: the time of the last message and its first 100 characters. */
  function LastMessageRecord(c: Chat, preview: string, timestamp: int, now: int): (r: Chat)
    ensures r.lastMessageAt == Some(timestamp)
    ensures r.lastMessagePreview.Some? && PreviewFits(r)
    ensures var p := r.lastMessagePreview.value;
            |p| <= |preview| && p == preview[..|p|] && (|preview| <= PREVIEW_MAX_LENGTH ==> p == preview)
    ensures r.id == c.id && r.participants == c.participants && r.isArchived == c.isArchived
  {
    c.(lastMessageAt := Some(timestamp), lastMessagePreview := Some(Take(preview, PREVIEW_MAX_LENGTH)), updatedAt := now)
  }

  /** The `ChatUpdate` fields as `model_dump` lists them. */
  function ChatDump(u: ChatUpdate): Dump {
    [("name", u.name), ("description", u.description), ("avatar", u.avatar)]
  }

  /** `$set` of an update document on a chat, with `updated_at`. */
  function ApplyChatDoc(c: Chat, doc: map<string, string>, now: int): (r: Chat)
    ensures r.name == (if "name" in doc then Some(doc["name"]) else c.name)
    ensures r.description == (if "description" in doc then Some(doc["description"]) else c.description)
    ensures r.avatar == (if "avatar" in doc then Some(doc["avatar"]) else c.avatar)
    ensures r.updatedAt == now
    ensures r.id == c.id && r.participants == c.participants && r.admin == c.admin
    ensures r.lastMessagePreview == c.lastMessagePreview && r.isArchived == c.isArchived
  {
    c.(name := if "name" in doc then Some(doc["name"]) else c.name,
       description := if "description" in doc then Some(doc["description"]) else c.description,
       avatar := if "avatar" in doc then Some(doc["avatar"]) else c.avatar,
       updatedAt := now)
  }

  /** `update_chat` writes exactly the fields given a value and keeps the others. */
  lemma UpdateChatWritesGivenFields(c: Chat, u: ChatUpdate, now: int)
    ensures var r := ApplyChatDoc(c, UpdateDoc(ChatDump(u)), now);
            r.name == (if u.name.Some? then u.name else c.name)
            && r.description == (if u.description.Some? then u.description else c.description)
            && r.avatar == (if u.avatar.Some? then u.avatar else c.avatar)
  {
    var d := ChatDump(u);
    UpdateDocLookup(d, 0);
    UpdateDocLookup(d, 1);
    UpdateDocLookup(d, 2);
  }

  /** A record update that keeps the id and the preview bound keeps the collection
      well formed. */
  ghost predicate KeepsShape(f: Chat -> Chat) {
    forall c :: f(c).id == c.id && (PreviewFits(c) ==> PreviewFits(f(c)))
  }

  /** Once `add_participant` has run on an existing chat, the user is in it. */
  lemma AddParticipantMakesMember(cs: seq<Chat>, chatId: string, userId: string, now: int)
    requires GetChatById(cs, chatId).Some?
    ensures IsUserInChat(AfterUpdate(cs, IdOf, chatId, c => AddParticipantTo(c, userId, now)), chatId, userId) == Ok(true)
  {
    var after := AfterUpdate(cs, IdOf, chatId, c => AddParticipantTo(c, userId, now));
    var k := Locate(cs, chatId).value.value;
    assert after[k] == AddParticipantTo(cs[k], userId, now);
  }

  /** Once `remove_participant` has run, the user is in the chat no more (ids being
      unique, no other document answers to the same id). */
  lemma {:induction false} RemoveParticipantRevokes(cs: seq<Chat>, chatId: string, userId: string, now: int)
    requires WellFormed(cs)
    ensures IsUserInChat(AfterUpdate(cs, IdOf, chatId, c => RemoveParticipantFrom(c, userId, now)), chatId, userId) != Ok(true)
  {
    var after := AfterUpdate(cs, IdOf, chatId, c => RemoveParticipantFrom(c, userId, now));
    forall j | 0 <= j < |after| && after[j].id == Lower(chatId) ensures userId !in after[j].participants {
      var k := Locate(cs, chatId).value.value;
      assert cs[j].id == Lower(chatId);
      assert j == k;
    }
  }

  class ChatStore {
    var chats: seq<Chat>

    ghost predicate Valid()
      reads this
    {
      WellFormed(chats)
    }

    constructor ()
      ensures Valid() && chats == []
    {
      chats := [];
    }

    method UpdateOne(chatId: string, f: Chat -> Chat) returns (r: Res<Option<Chat>>)
      requires Valid() && KeepsShape(f)
      modifies this
      ensures Valid()
      ensures UpdatedById(old(chats), chats, IdOf, chatId, f, r)
    {
      UpdateKeepsIds(chats, IdOf, chatId, f);
      var next := UpdateById(chats, IdOf, chatId, f);
      chats, r := next.0, next.1;
    }

    /** `create_chat`: stores the planned chat, or returns the existing direct chat, or
        raises; `newId` is the fresh `ObjectId()`. */
    method CreateChat(data: ChatCreate, creator: string, newId: string, now: int) returns (r: Res<Chat>)
      requires Valid()
      requires IsCanonicalId(newId) && forall k :: 0 <= k < |chats| ==> chats[k].id != newId
      modifies this
      ensures Valid()
      ensures var plan := PlanCreateChat(old(chats), data, creator, newId, now);
              match plan
              case Err(e) => r == Err(e) && chats == old(chats)
              case Ok(Existing(c)) => r == Ok(c) && chats == old(chats)
              case Ok(Inserted(c)) => r == Ok(c) && chats == old(chats) + [c]
    {
      var plan := PlanCreateChat(chats, data, creator, newId, now);
      match plan
      case Err(e) =>
        r := Err(e);
      case Ok(Existing(c)) =>
        r := Ok(c);
      case Ok(Inserted(c)) =>
        chats := chats + [c];
        r := Ok(c);
    }

    /** `update_chat`: an update that sets nothing reads the chat back (a malformed id
        then gives `None`); otherwise the set fields and `updated_at` are written. */
    method UpdateChat(chatId: string, u: ChatUpdate, now: int) returns (r: Res<Option<Chat>>)
      requires Valid()
      modifies this
      ensures Valid()
      ensures u == ChatUpdate(None, None, None) ==> chats == old(chats) && r == Ok(GetChatById(old(chats), chatId))
      ensures u != ChatUpdate(None, None, None) ==>
                UpdatedById(old(chats), chats, IdOf, chatId, c => ApplyChatDoc(c, UpdateDoc(ChatDump(u)), now), r)
    {
      var doc := BuildUpdateDoc(ChatDump(u));
      if doc == map[] {
        assert ChatDump(u)[0].1.None? && ChatDump(u)[1].1.None? && ChatDump(u)[2].1.None?;
        r := Ok(GetChatById(chats, chatId));
        return;
      }
      r := UpdateOne(chatId, c => ApplyChatDoc(c, doc, now));
    }

    /** `add_participant`: a set-add, so adding a present member changes only `updated_at`. */
    method AddParticipant(chatId: string, userId: string, now: int) returns (r: Res<Option<Chat>>)
      requires Valid()
      modifies this
      ensures Valid()
      ensures UpdatedById(old(chats), chats, IdOf, chatId, c => AddParticipantTo(c, userId, now), r)
    {
      r := UpdateOne(chatId, c => AddParticipantTo(c, userId, now));
    }

    /** `remove_participant`: the user leaves both `participants` and `admin`. */
    method RemoveParticipant(chatId: string, userId: string, now: int) returns (r: Res<Option<Chat>>)
      requires Valid()
      modifies this
      ensures Valid()
      ensures UpdatedById(old(chats), chats, IdOf, chatId, c => RemoveParticipantFrom(c, userId, now), r)
    {
      r := UpdateOne(chatId, c => RemoveParticipantFrom(c, userId, now));
    }

    method ArchiveChat(chatId: string, now: int) returns (r: Res<Option<Chat>>)
      requires Valid()
      modifies this
      ensures Valid()
      ensures UpdatedById(old(chats), chats, IdOf, chatId, c => ArchiveRecord(c, now), r)
    {
      r := UpdateOne(chatId, c => ArchiveRecord(c, now));
    }

    /** `update_last_message`: raises for a malformed id, does nothing for a missing
        chat, returns nothing. */
    method UpdateLastMessage(chatId: string, preview: string, timestamp: int, now: int) returns (r: Res<()>)
      requires Valid()
      modifies this
      ensures Valid()
      ensures r.Err? <==> !IsValidObjectId(chatId)
      ensures chats == AfterUpdate(old(chats), IdOf, chatId, c => LastMessageRecord(c, preview, timestamp, now))
    {
      var u := UpdateOne(chatId, c => LastMessageRecord(c, preview, timestamp, now));
      r := if u.Err? then Err(u.error) else Ok(());
    }
  }
}

=== FILE: collection.dfy ===
/** The behaviour of a MongoDB collection that the services rely on when they address
    one document by `{"_id": ObjectId(id)}`: a sequence of documents in natural order,
    the first document whose id matches, and `find_one_and_update(...,
    return_document=True)`. */
module Collection {
  import opened Common

  /** `find_one({"_id": ObjectId(rawId)})`: InvalidId when `ObjectId(rawId)` raises,
      else the position of the first document with that id, if any. */
  function FindById<T>(s: seq<T>, idOf: T -> string, rawId: string): (r: Res<Option<nat>>)
    ensures r.Err? <==> !IsValidObjectId(rawId)
    ensures r.Err? ==> r.error == InvalidId
    ensures r.Ok? && r.value.Some? ==>
              r.value.value < |s| && idOf(s[r.value.value]) == Lower(rawId)
              && forall k :: 0 <= k < r.value.value ==> idOf(s[k]) != Lower(rawId)
    ensures r.Ok? && r.value.None? ==> forall k :: 0 <= k < |s| ==> idOf(s[k]) != Lower(rawId)
  {
    match ParseObjectId(rawId)
    case Err(e) => Err(e)
    case Ok(oid) => Ok(FirstIndex(s, (x: T) => idOf(x) == oid))
  }

  /** The collection after an update by id that applies `f` to the document: only the
      addressed document changes, and nothing changes when there is none. */
  function AfterUpdate<T>(s: seq<T>, idOf: T -> string, rawId: string, f: T -> T): (after: seq<T>)
    ensures |after| == |s|
    ensures forall j :: 0 <= j < |s| && idOf(s[j]) != Lower(rawId) ==> after[j] == s[j]
    ensures !IsValidObjectId(rawId) ==> after == s
    ensures forall j :: (0 <= j < |s| && idOf(s[j]) == Lower(rawId) && IsValidObjectId(rawId)
                         && forall i :: 0 <= i < j ==> idOf(s[i]) != Lower(rawId)) ==> after[j] == f(s[j])
  {
    match FindById(s, idOf, rawId)
    case Ok(Some(k)) => UpdateAt(s, k, f)
    case _ => s
  }

  /** The state change and the answer of `find_one_and_update(..., return_document=True)`:
      InvalidId for a malformed id, `None` for a missing document, otherwise the
      document as updated. */
  predicate UpdatedById<T(==)>(before: seq<T>, after: seq<T>, idOf: T -> string, rawId: string, f: T -> T, r: Res<Option<T>>) {
    after == AfterUpdate(before, idOf, rawId, f)
    && match FindById(before, idOf, rawId)
       case Err(e) => r == Err(e)
       case Ok(None) => r == Ok(None)
       case Ok(Some(k)) => r == Ok(Some(after[k]))
  }

  /** The update operation itself, on values: what the store methods perform. */
  function UpdateById<T>(s: seq<T>, idOf: T -> string, rawId: string, f: T -> T): (r: (seq<T>, Res<Option<T>>))
    ensures UpdatedById(s, r.0, idOf, rawId, f, r.1)
  {
    match FindById(s, idOf, rawId)
    case Err(e) => (s, Err(e))
    case Ok(None) => (s, Ok(None))
    case Ok(Some(k)) => var after := UpdateAt(s, k, f); (after, Ok(Some(after[k])))
  }

  /** Ids that occur once at most. */
  predicate UniqueIds<T>(s: seq<T>, idOf: T -> string) {
    forall i, j :: 0 <= i < j < |s| ==> idOf(s[i]) != idOf(s[j])
  }

  /** An update that keeps ids keeps them unique, and leaves the result a document
      with the requested id. */
  lemma UpdateKeepsIds<T>(s: seq<T>, idOf: T -> string, rawId: string, f: T -> T)
    requires UniqueIds(s, idOf)
    requires forall x :: idOf(f(x)) == idOf(x)
    ensures UniqueIds(AfterUpdate(s, idOf, rawId, f), idOf)
    ensures forall j :: 0 <= j < |s| ==> idOf(AfterUpdate(s, idOf, rawId, f)[j]) == idOf(s[j])
  {
    var after := AfterUpdate(s, idOf, rawId, f);
    assert forall j :: 0 <= j < |s| ==> idOf(after[j]) == idOf(s[j]);
  }
}

=== FILE: common.dfy ===
/** Values shared by every part of the chat backend model: optional values, the
    exceptions the services raise, Python's string primitives on `seq<char>`, and
    MongoDB ObjectId strings. */
module Common {

  datatype Option<+T> = None | Some(value: T)

  /** The exceptions that leave a service call, and the HTTP errors a handler raises. */
  datatype Error =
    | InvalidId                 // bson.errors.InvalidId from ObjectId(<bad string>)
    | ValueError(msg: string)   // a ValueError raised by service or validator code
    | DuplicateKey              // a write refused by a unique index
    | NameError(name: string)   // a reference to an undefined Python name
    | AttributeError            // a method called on None inside a validator
    | ZeroDivisionError         // an integer division by zero
    | Http(code: int)           // fastapi.HTTPException with this status code

  datatype Res<+T> = Ok(value: T) | Err(error: Error)

  /** `seq[:n]` in Python: the first `n` items, or all of them. */
  function Take<T>(s: seq<T>, n: nat): (r: seq<T>)
    ensures |r| == if n < |s| then n else |s|
    ensures r == s[..|r|]
  {
    if n < |s| then s[..n] else s
  }

  function Reverse<T>(s: seq<T>): (r: seq<T>)
    ensures |r| == |s|
    ensures forall i :: 0 <= i < |s| ==> r[i] == s[|s| - 1 - i]
  {
    seq(|s|, i requires 0 <= i < |s| => s[|s| - 1 - i])
  }

  /** Python's `list.reverse()`: the items swapped pairwise from both ends, in place. */
  method ReverseInPlace<T>(a: array<T>)
    modifies a
    ensures a[..] == Reverse(old(a[..]))
  {
    var i := 0;
    var j := a.Length - 1;
    while i < j
      invariant 0 <= i <= a.Length && j == a.Length - 1 - i && i <= j + 1
      invariant forall k :: 0 <= k < i ==> a[k] == old(a[a.Length - 1 - k]) && a[a.Length - 1 - k] == old(a[k])
      invariant forall k :: i <= k <= j ==> a[k] == old(a[k])
    {
      a[i], a[j] := a[j], a[i];
      i, j := i + 1, j - 1;
    }
  }

  lemma ReverseSameElements<T(!new)>(s: seq<T>)
    ensures multiset(Reverse(s)) == multiset(s)
    ensures forall x :: x in Reverse(s) <==> x in s
  {
    if s != [] {
      var t := s[1..];
      ReverseSameElements(t);
      assert Reverse(s) == Reverse(t) + [s[0]];
      assert s == [s[0]] + t;
    }
  }

  /** The first position whose item satisfies `p`: what `find_one` returns from a
      collection read in its natural order. */
  function FirstIndex<T>(s: seq<T>, p: T -> bool): (r: Option<nat>)
    ensures r.Some? ==> r.value < |s| && p(s[r.value]) && forall k :: 0 <= k < r.value ==> !p(s[k])
    ensures r.None? ==> forall k :: 0 <= k < |s| ==> !p(s[k])
  {
    if s == [] then None
    else if p(s[0]) then Some(0)
    else
      match FirstIndex(s[1..], p)
      case None => None
      case Some(k) => Some(k + 1)
  }

  /** The items that satisfy `p`, in their order: what a `find` filter selects. */
  function Filter<T>(s: seq<T>, p: T -> bool): (r: seq<T>)
    ensures |r| <= |s|
    ensures forall i :: 0 <= i < |r| ==> p(r[i]) && r[i] in s
    ensures forall i :: 0 <= i < |s| && p(s[i]) ==> s[i] in r
  {
    if s == [] then []
    else
      var rest := Filter(s[1..], p);
      assert forall i :: 1 <= i < |s| ==> s[i] == s[1..][i - 1];
      if p(s[0]) then [s[0]] + rest else rest
  }

  /** Nothing is selected when no item satisfies `p`. */
  lemma {:induction false} FilterNone<T>(s: seq<T>, p: T -> bool)
    requires forall i :: 0 <= i < |s| ==> !p(s[i])
    ensures Filter(s, p) == []
  {
    if s != [] {
      FilterNone(s[1..], p);
    }
  }

  /** `[x for x in s if x != v]`: MongoDB's `$pull` of one value from an array. */
  function Without(s: seq<string>, v: string): (r: seq<string>)
    ensures v !in r
    ensures forall x :: x in r <==> x in s && x != v
    ensures |r| <= |s|
  {
    if s == [] then []
    else if s[0] == v then Without(s[1..], v)
    else [s[0]] + Without(s[1..], v)
  }

  /** Python's `list.remove(v)`: drops the first occurrence only. */
  function RemoveFirst(s: seq<string>, v: string): (r: seq<string>)
    requires v in s
    ensures |r| == |s| - 1
    ensures forall x :: x in r ==> x in s
    ensures multiset(r) == multiset(s) - multiset{v}
  {
    assert s == [s[0]] + s[1..];
    if s[0] == v then s[1..]
    else [s[0]] + RemoveFirst(s[1..], v)
  }

  predicate NoDuplicates<T(==)>(s: seq<T>) {
    forall i, j :: 0 <= i < j < |s| ==> s[i] != s[j]
  }

  /** A value occurs at most once in a list without repeats. */
  lemma {:induction false} NoDuplicatesCount<T>(s: seq<T>, x: T)
    requires NoDuplicates(s)
    ensures multiset(s)[x] <= 1
  {
    if s != [] {
      assert s == [s[0]] + s[1..];
      NoDuplicatesCount(s[1..], x);
      if s[0] == x {
        assert x !in s[1..];
      }
    }
  }

  /** Part of a list without repeats (as a multiset) has no repeats either. */
  lemma SubmultisetNoDuplicates<T>(r: seq<T>, s: seq<T>)
    requires multiset(r) <= multiset(s) && NoDuplicates(s)
    ensures NoDuplicates(r)
  {
    forall i, j | 0 <= i < j < |r| ensures r[i] != r[j] {
      if r[i] == r[j] {
        assert r == r[..j] + r[j..];
        assert r[i] in r[..j];
        assert multiset(r)[r[i]] == multiset(r[..j])[r[i]] + multiset(r[j..])[r[i]];
        NoDuplicatesCount(s, r[i]);
      }
    }
  }

  lemma {:induction false} FilterNoDuplicates<T>(s: seq<T>, p: T -> bool)
    requires NoDuplicates(s)
    ensures NoDuplicates(Filter(s, p))
  {
    if s != [] {
      FilterNoDuplicates(s[1..], p);
      assert s[0] !in s[1..];
    }
  }

  /** Items with pairwise different keys, each selected one keyed by a member of `v`:
      at most `|v|` of them are selected. */
  lemma {:induction false} FilterKeyedBound<T>(s: seq<T>, key: T -> string, p: T -> bool, v: seq<string>)
    requires forall i, j :: 0 <= i < j < |s| ==> key(s[i]) != key(s[j])
    requires forall i :: 0 <= i < |s| && p(s[i]) ==> key(s[i]) in v
    ensures |Filter(s, p)| <= |v|
  {
    if s != [] {
      var t := s[1..];
      assert forall i :: 0 <= i < |t| ==> t[i] == s[i + 1];
      if p(s[0]) {
        var w := RemoveFirst(v, key(s[0]));
        forall i | 0 <= i < |t| && p(t[i]) ensures key(t[i]) in w {
          assert key(t[i]) != key(s[0]) && key(t[i]) in v;
          assert multiset(w)[key(t[i])] == multiset(v)[key(t[i])];
        }
        FilterKeyedBound(t, key, p, w);
      } else {
        FilterKeyedBound(t, key, p, v);
      }
    }
  }

  /** Selecting from items with pairwise different keys keeps the keys different. */
  lemma {:induction false} FilterUniqueKeys<T>(s: seq<T>, key: T -> string, p: T -> bool)
    requires forall i, j :: 0 <= i < j < |s| ==> key(s[i]) != key(s[j])
    ensures forall i, j :: 0 <= i < j < |Filter(s, p)| ==> key(Filter(s, p)[i]) != key(Filter(s, p)[j])
  {
    if s != [] {
      var t := s[1..];
      assert forall i :: 0 <= i < |t| ==> t[i] == s[i + 1];
      FilterUniqueKeys(t, key, p);
      if p(s[0]) {
        var f := Filter(t, p);
        forall j | 0 <= j < |f| ensures key(s[0]) != key(f[j]) {
          var k :| 0 <= k < |t| && t[k] == f[j];
        }
        assert Filter(s, p) == [s[0]] + f;
      }
    }
  }

  /** Removing the first occurrence from a list without repeats removes the value
      altogether and keeps every other member. */
  lemma {:induction false} RemoveFirstNoDuplicates(s: seq<string>, v: string)
    requires v in s && NoDuplicates(s)
    ensures NoDuplicates(RemoveFirst(s, v))
    ensures forall x :: x in RemoveFirst(s, v) <==> x in s && x != v
  {
    assert s == [s[0]] + s[1..];
    if s[0] == v {
      assert v !in s[1..];
    } else {
      RemoveFirstNoDuplicates(s[1..], v);
      var t := RemoveFirst(s[1..], v);
      assert s[0] !in t;
      assert RemoveFirst(s, v) == [s[0]] + t;
      forall i, j | 0 <= i < j < |[s[0]] + t| ensures ([s[0]] + t)[i] != ([s[0]] + t)[j] {
        if i == 0 { assert ([s[0]] + t)[j] == t[j - 1]; }
      }
    }
  }

  /** Removing a value appended to a list that did not hold it gives the list back. */
  lemma {:induction false} RemoveFirstAppended(s: seq<string>, v: string)
    requires v !in s
    ensures RemoveFirst(s + [v], v) == s
  {
    if s != [] {
      assert (s + [v])[1..] == s[1..] + [v];
      RemoveFirstAppended(s[1..], v);
    }
  }

  // ---------------------------------------------------------------------------
  // Characters and strings, as Python's str methods treat them (ASCII part).
  // ---------------------------------------------------------------------------

  /** `str.isspace()` restricted to the ASCII and Latin-1 whitespace characters. */
  predicate IsSpace(c: char) {
    var n := c as int;
    n == 32 || (9 <= n <= 13) || (28 <= n <= 31) || n == 0x85 || n == 0xA0
  }

  predicate IsAsciiUpper(c: char) { 'A' <= c <= 'Z' }
  predicate IsAsciiLower(c: char) { 'a' <= c <= 'z' }
  predicate IsDigit(c: char) { '0' <= c <= '9' }
  predicate IsAlnum(c: char) { IsAsciiUpper(c) || IsAsciiLower(c) || IsDigit(c) }
  predicate IsHexDigit(c: char) { IsDigit(c) || ('a' <= c <= 'f') || ('A' <= c <= 'F') }

  function LowerChar(c: char): (r: char)
    ensures !IsAsciiUpper(r)
    ensures IsAsciiUpper(c) ==> r as int == c as int + 32
    ensures IsAsciiUpper(c) || r == c
  {
    if IsAsciiUpper(c) then (c as int + 32) as char else c
  }

  /** `str.lower()` */
  function Lower(s: string): (r: string)
    ensures |r| == |s|
    ensures forall i :: 0 <= i < |s| ==> r[i] == LowerChar(s[i])
  {
    seq(|s|, i requires 0 <= i < |s| => LowerChar(s[i]))
  }

  /** Lower-casing changes letters only: whitespace and every other character keep
      what they are. */
  lemma LowerCharKeeps(c: char)
    ensures IsSpace(LowerChar(c)) <==> IsSpace(c)
    ensures LowerChar(c) == ',' <==> c == ','
  {
  }

  lemma LowerIdempotent(s: string)
    ensures Lower(Lower(s)) == Lower(s)
  {
  }

  /** How many whitespace characters `s` starts with. */
  function LeadingSpaces(s: string): (k: nat)
    ensures k <= |s| && (k == |s| || !IsSpace(s[k]))
    ensures forall i :: 0 <= i < k ==> IsSpace(s[i])
  {
    if s == [] || !IsSpace(s[0]) then 0
    else
      var k := LeadingSpaces(s[1..]);
      assert forall i :: 1 <= i < k + 1 ==> s[i] == s[1..][i - 1];
      k + 1
  }

  /** Where the run of whitespace that ends `s` begins. */
  function TrailingStart(s: string): (k: nat)
    ensures k <= |s| && (k == 0 || !IsSpace(s[k - 1]))
    ensures forall i :: k <= i < |s| ==> IsSpace(s[i])
  {
    if s == [] || !IsSpace(s[|s| - 1]) then |s|
    else TrailingStart(s[..|s| - 1])
  }

  /** `str.lstrip()` */
  function LStrip(s: string): (r: string)
    ensures r == [] || !IsSpace(r[0])
  {
    s[LeadingSpaces(s)..]
  }

  /** `str.rstrip()` */
  function RStrip(s: string): (r: string)
    ensures r == [] || !IsSpace(r[|r| - 1])
  {
    s[..TrailingStart(s)]
  }

  /** Every character of `t` is whitespace. */
  predicate AllSpace(t: string) {
    forall i :: 0 <= i < |t| ==> IsSpace(t[i])
  }

  /** `str.strip()` */
  function Strip(s: string): (r: string)
    ensures r == [] || (!IsSpace(r[0]) && !IsSpace(r[|r| - 1]))
    ensures |r| <= |s|
  {
    RStrip(LStrip(s))
  }

  lemma PrefixAllSpace(s: string, a: nat)
    requires a <= |s| && forall i :: 0 <= i < a ==> IsSpace(s[i])
    ensures AllSpace(s[..a])
  {
    forall i | 0 <= i < a ensures IsSpace(s[..a][i]) {
      assert s[..a][i] == s[i];
    }
  }

  lemma SuffixAllSpace(s: string, b: nat)
    requires b <= |s| && forall i :: b <= i < |s| ==> IsSpace(s[i])
    ensures AllSpace(s[b..])
  {
    forall i | 0 <= i < |s| - b ensures IsSpace(s[b..][i]) {
      assert s[b..][i] == s[b + i];
    }
  }

  /** `strip()` cuts off the leading and the trailing run of whitespace and removes
      nothing else: the result is the slice between the two runs. */
  lemma StripCutsOnlyEnds(s: string)
    ensures var a := LeadingSpaces(s); var r := Strip(s);
            a + |r| <= |s| && r == s[a..a + |r|] && AllSpace(s[..a]) && AllSpace(s[a + |r|..])
  {
    var a := LeadingSpaces(s);
    var l := s[a..];
    var k := TrailingStart(l);
    assert LStrip(s) == l;
    assert Strip(s) == l[..k] == s[a..a + k];
    PrefixAllSpace(s, a);
    forall i | a + k <= i < |s| ensures IsSpace(s[i]) {
      assert s[i] == l[i - a];
    }
    SuffixAllSpace(s, a + k);
  }

  /** Stripping a string that has no whitespace at either end changes nothing. */
  lemma StripUnchanged(s: string)
    requires s == [] || (!IsSpace(s[0]) && !IsSpace(s[|s| - 1]))
    ensures Strip(s) == s
  {
    assert LStrip(s) == s;
  }

  /** Every character of `strip()`'s result comes from the input. */
  lemma StripWithin(s: string)
    ensures forall c :: c in Strip(s) ==> c in s
  {
    var a := LeadingSpaces(s);
    var l := s[a..];
    var t := Strip(s);
    assert LStrip(s) == l;
    assert t == l[..TrailingStart(l)];
    forall c | c in t ensures c in s {
      var j :| 0 <= j < |t| && t[j] == c;
      assert l[j] == c;
      assert s[a + j] == c;
    }
  }

  /** A string is blank (`not s.strip()`) exactly when every character is whitespace. */
  lemma StripEmptyIffBlank(s: string)
    ensures Strip(s) == [] <==> forall i :: 0 <= i < |s| ==> IsSpace(s[i])
  {
    var a := LeadingSpaces(s);
    if a < |s| {
      assert LStrip(s) != [] && LStrip(s)[0] == s[a];
    }
  }

  /** `str.split(sep)` for a one-character separator: every piece, empty ones included. */
  function Split(s: string, sep: char): (r: seq<string>)
    ensures |r| >= 1
    ensures forall i :: 0 <= i < |r| ==> sep !in r[i]
  {
    if s == [] then [""]
    else
      var rest := Split(s[1..], sep);
      if s[0] == sep then [""] + rest
      else [[s[0]] + rest[0]] + rest[1..]
  }

  /** `sep.join(pieces)` */
  function Join(pieces: seq<string>, sep: char): string {
    if pieces == [] then ""
    else if |pieces| == 1 then pieces[0]
    else pieces[0] + [sep] + Join(pieces[1..], sep)
  }

  /** Splitting and joining again on the same separator gives back the string. */
  lemma {:induction false} SplitJoin(s: string, sep: char)
    ensures Join(Split(s, sep), sep) == s
  {
    if s != [] {
      var rest := Split(s[1..], sep);
      SplitJoin(s[1..], sep);
      if s[0] == sep {
        assert Split(s, sep) == [""] + rest;
        assert ([""] + rest)[1..] == rest;
      } else {
        var r := Split(s, sep);
        assert r == [[s[0]] + rest[0]] + rest[1..];
        assert r[1..] == rest[1..];
        if |rest| == 1 {
          assert Join(rest, sep) == rest[0];
        } else {
          assert Join(rest, sep) == rest[0] + [sep] + Join(rest[1..], sep);
        }
      }
    }
  }

  /** Lexicographic `<=` on strings, by code point, as Python compares `str`. */
  predicate LexLe(a: string, b: string) {
    if a == [] then true
    else if b == [] then false
    else if a[0] != b[0] then a[0] < b[0]
    else LexLe(a[1..], b[1..])
  }

  lemma {:induction false} LexLeTotal(a: string, b: string)
    ensures LexLe(a, b) || LexLe(b, a)
  {
    if a != [] && b != [] && a[0] == b[0] {
      LexLeTotal(a[1..], b[1..]);
    }
  }

  lemma {:induction false} LexLeAntisymmetric(a: string, b: string)
    requires LexLe(a, b) && LexLe(b, a)
    ensures a == b
  {
    if a != [] && b != [] {
      LexLeAntisymmetric(a[1..], b[1..]);
      assert a == [a[0]] + a[1..] && b == [b[0]] + b[1..];
    }
  }

  /** Decimal digits of a natural number, as `str(n)` prints it. */
  function NatToString(n: nat): (r: string)
    ensures |r| >= 1
    ensures forall i :: 0 <= i < |r| ==> IsDigit(r[i])
    decreases n
  {
    var d := ['0' + (n % 10) as char];
    if n < 10 then d else NatToString(n / 10) + d
  }

  /** `str(n)` for any integer. */
  function IntToString(n: int): (r: string)
    ensures |r| >= 1
  {
    if n < 0 then "-" + NatToString(-n) else NatToString(n)
  }

  // ---------------------------------------------------------------------------
  // ObjectId strings
  // ---------------------------------------------------------------------------

  /** `ObjectId.is_valid(s)` for a `str`: 24 hexadecimal digits. */
  predicate IsValidObjectId(s: string) {
    |s| == 24 && forall i :: 0 <= i < |s| ==> IsHexDigit(s[i])
  }

  /** `str(ObjectId(s))`: the 24-digit id in lower case. */
  predicate IsCanonicalId(s: string) {
    IsValidObjectId(s) && Lower(s) == s
  }

  /** `ObjectId(s)`: the canonical id it stands for, or InvalidId. */
  function ParseObjectId(s: string): (r: Res<string>)
    ensures r.Ok? <==> IsValidObjectId(s)
    ensures r.Ok? ==> IsCanonicalId(r.value) && r.value == Lower(s)
  {
    if IsValidObjectId(s) then
      LowerIdempotent(s);
      Ok(Lower(s))
    else Err(InvalidId)
  }

  /** A canonical id parses to itself, so stored ids are found by their own string. */
  lemma ParseCanonical(s: string)
    requires IsCanonicalId(s)
    ensures ParseObjectId(s) == Ok(s)
  {
  }

  /** The same update applied to the one record at position `k` of a collection. */
  function UpdateAt<T>(s: seq<T>, k: nat, f: T -> T): (r: seq<T>)
    requires k < |s|
    ensures |r| == |s| && r[k] == f(s[k])
    ensures forall i :: 0 <= i < |s| && i != k ==> r[i] == s[i]
  {
    s[k := f(s[k])]
  }

  /** The fields of a `model_dump(exclude_unset=True)`, in declaration order, each with
      its value or `None`. */
  type Dump = seq<(string, Option<string>)>

  /** The update document a dump gives: the fields with a value, the later entry
      winning should a field repeat. */
  function UpdateDoc(dump: Dump): (doc: map<string, string>)
    ensures forall k :: k in doc <==> exists i :: 0 <= i < |dump| && dump[i].0 == k && dump[i].1.Some?
    ensures forall k :: k in doc ==> exists i :: 0 <= i < |dump| && dump[i] == (k, Some(doc[k]))
    ensures doc == map[] <==> forall i :: 0 <= i < |dump| ==> dump[i].1.None?
  {
    if dump == [] then map[]
    else
      var n := |dump| - 1;
      var prev := UpdateDoc(dump[..n]);
      assert forall i :: 0 <= i < n ==> dump[..n][i] == dump[i];
      var doc := if dump[n].1.Some? then prev[dump[n].0 := dump[n].1.value] else prev;
      forall k | k in doc ensures exists i :: 0 <= i < |dump| && dump[i] == (k, Some(doc[k])) {
        if dump[n].1.Some? && k == dump[n].0 {
          assert dump[n] == (k, Some(doc[k]));
        } else {
          var i :| 0 <= i < n && dump[..n][i] == (k, Some(prev[k]));
          assert dump[i] == (k, Some(doc[k]));
        }
      }
      assert forall i :: 0 <= i < |dump| && dump[i].1.Some? ==> dump[i].0 in doc;
      assert doc != map[] ==> exists i :: 0 <= i < |dump| && dump[i].1.Some? by {
        if doc != map[] {
          var k :| k in doc;
        }
      }
      doc
  }

  /** When no field repeats, a field is in the update document exactly when it is given
      a value, and then it carries that value. */
  lemma {:induction false} UpdateDocLookup(dump: Dump, i: int)
    requires 0 <= i < |dump|
    requires forall a, b :: 0 <= a < b < |dump| ==> dump[a].0 != dump[b].0
    ensures dump[i].0 in UpdateDoc(dump) <==> dump[i].1.Some?
    ensures dump[i].1.Some? ==> UpdateDoc(dump)[dump[i].0] == dump[i].1.value
  {
    var n := |dump| - 1;
    if i < n {
      assert forall a :: 0 <= a < n ==> dump[..n][a] == dump[a];
      UpdateDocLookup(dump[..n], i);
    }
  }

  /** The loop `for field, value in dump: if value is not None: update_doc[field] = value`. */
  method BuildUpdateDoc(dump: Dump) returns (doc: map<string, string>)
    ensures doc == UpdateDoc(dump)
  {
    doc := map[];
    var n := 0;
    while n < |dump|
      invariant 0 <= n <= |dump|
      invariant doc == UpdateDoc(dump[..n])
    {
      assert dump[..n + 1][..n] == dump[..n];
      var (field, value) := dump[n];
      if value.Some? {
        doc := doc[field := value.value];
      }
      n := n + 1;
    }
    assert dump[..n] == dump;
  }

  /** Python truthiness of an optional string: `None` and `""` are both falsy. */
  predicate Truthy(s: Option<string>) {
    s.Some? && s.value != ""
  }
}

=== FILE: config.dfy ===
/** The derived settings of backend/app/config.py: comma-separated lists read from
    environment strings, and the Redis connection URL. */
module Config {
  import opened Common

  const CORS_ORIGIN_DEFAULT: string := "http://localhost:5173"
  const CORS_ALLOW_METHODS_DEFAULT: string := "*"
  const CORS_ALLOW_HEADERS_DEFAULT: string := "*"
  const ALLOWED_FILE_EXTENSIONS_DEFAULT: string := "jpg,jpeg,png,gif,pdf,txt"

  /** `[p.strip() for p in pieces]` */
  function Stripped(pieces: seq<string>): (r: seq<string>)
    ensures |r| == |pieces|
    ensures forall i :: 0 <= i < |pieces| ==> r[i] == Strip(pieces[i])
  {
    seq(|pieces|, i requires 0 <= i < |pieces| => Strip(pieces[i]))
  }

  /** A list entry as the comprehensions keep it: not empty, and already stripped. */
  predicate NonBlankStripped(x: string) {
    x != "" && Strip(x) == x
  }

  /** `[p.strip() for p in pieces if p.strip()]`: exactly the non-blank pieces, each
      stripped, in their order. */
  function StrippedNonBlank(pieces: seq<string>): (r: seq<string>)
    ensures |r| <= |pieces|
    ensures forall i :: 0 <= i < |r| ==> NonBlankStripped(r[i])
  {
    if pieces == [] then []
    else
      var t := Strip(pieces[0]);
      var rest := StrippedNonBlank(pieces[1..]);
      if t == "" then rest
      else
        StripUnchanged(t);
        assert NonBlankStripped(t);
        [t] + rest
  }

  /** The comprehension keeps exactly the pieces that are not blank, stripped. */
  lemma {:induction false} StrippedNonBlankMembers(pieces: seq<string>)
    ensures forall x :: x in StrippedNonBlank(pieces) <==> x in Stripped(pieces) && x != ""
  {
    if pieces != [] {
      var t := Strip(pieces[0]);
      var tl := pieces[1..];
      StrippedNonBlankMembers(tl);
      assert Stripped(pieces) == [t] + Stripped(tl);
      if t != "" {
        assert StrippedNonBlank(pieces) == [t] + StrippedNonBlank(tl);
      } else {
        assert StrippedNonBlank(pieces) == StrippedNonBlank(tl);
      }
    }
  }

  /** Every character of a piece of a split appears in the split string. */
  lemma {:induction false} SplitPieceWithin(s: string, sep: char, j: int)
    requires 0 <= j < |Split(s, sep)|
    ensures forall c :: c in Split(s, sep)[j] ==> c in s
  {
    if s != [] {
      var rest := Split(s[1..], sep);
      if s[0] == sep {
        if j > 0 {
          SplitPieceWithin(s[1..], sep, j - 1);
        }
      } else if j == 0 {
        SplitPieceWithin(s[1..], sep, 0);
        assert Split(s, sep)[0] == [s[0]] + rest[0];
      } else {
        SplitPieceWithin(s[1..], sep, j);
      }
    }
  }

  /** `cors_origins_list`: the stripped, non-blank comma-separated entries, in the
      order they are written. */
  function CorsOriginsList(corsOrigin: string): (r: seq<string>)
    ensures forall i :: 0 <= i < |r| ==> r[i] != "" && Strip(r[i]) == r[i] && ',' !in r[i]
    ensures forall x :: x in r <==> x != "" && x in Stripped(Split(corsOrigin, ','))
  {
    var pieces := Split(corsOrigin, ',');
    var r := StrippedNonBlank(pieces);
    StrippedNonBlankMembers(pieces);
    forall i | 0 <= i < |r| ensures ',' !in r[i] {
      assert r[i] in Stripped(pieces);
      var j :| 0 <= j < |pieces| && Stripped(pieces)[j] == r[i];
      assert ',' !in pieces[j];
      StripWithin(pieces[j]);
    }
    r
  }

  /** `cors_allow_methods_list` and `cors_allow_headers_list`: the stripped non-blank
      entries, or `["*"]` when there are none. */
  function ListOrWildcard(setting: string): (r: seq<string>)
    ensures |r| >= 1
    ensures StrippedNonBlank(Split(setting, ',')) == [] ==> r == ["*"]
    ensures StrippedNonBlank(Split(setting, ',')) != [] ==> r == StrippedNonBlank(Split(setting, ','))
    ensures (forall x :: x in Stripped(Split(setting, ',')) ==> x == "") ==> r == ["*"]
    ensures (exists x :: x in Stripped(Split(setting, ',')) && x != "") ==>
              forall y :: y in r <==> y != "" && y in Stripped(Split(setting, ','))
  {
    var pieces := Split(setting, ',');
    var parts := StrippedNonBlank(pieces);
    StrippedNonBlankMembers(pieces);
    if parts != [] then
      assert parts[0] in parts;
      parts
    else
      assert forall x :: x in Stripped(pieces) ==> x == "";
      ["*"]
  }

  /** A setting made only of separators and whitespace (the empty string among them)
      allows everything, as the wildcard does. */
  lemma BlankMeansWildcard(setting: string)
    requires forall i :: 0 <= i < |setting| ==> setting[i] == ',' || IsSpace(setting[i])
    ensures ListOrWildcard(setting) == ["*"]
  {
    var pieces := Split(setting, ',');
    StrippedNonBlankMembers(pieces);
    forall j | 0 <= j < |pieces| ensures Stripped(pieces)[j] == "" {
      SplitPieceWithin(setting, ',', j);
      forall i | 0 <= i < |pieces[j]| ensures IsSpace(pieces[j][i]) {
        assert pieces[j][i] in pieces[j];
      }
      StripEmptyIffBlank(pieces[j]);
    }
    if StrippedNonBlank(pieces) != [] {
      assert StrippedNonBlank(pieces)[0] in StrippedNonBlank(pieces);
    }
  }

  /** The declared default `"*"` is the wildcard list itself. */
  lemma WildcardDefault()
    ensures ListOrWildcard(CORS_ALLOW_METHODS_DEFAULT) == ["*"]
    ensures ListOrWildcard(CORS_ALLOW_HEADERS_DEFAULT) == ["*"]
  {
    var star := "*";
    assert star[0] == '*' && star[1..] == "";
    assert Split(star[1..], ',') == [""];
    assert [star[0]] + "" == star;
    assert Split(star, ',') == [[star[0]] + Split(star[1..], ',')[0]] + Split(star[1..], ',')[1..];
    assert Split(star, ',') == ["*"];
    StripUnchanged(star);
    assert StrippedNonBlank(["*"]) == ["*"];
  }

  /** `allowed_extensions_list`: every comma-separated piece stripped and lower-cased,
      empty pieces kept. */
  function AllowedExtensionsList(exts: string): (r: seq<string>)
    ensures |r| == |Split(exts, ',')|
    ensures forall i :: 0 <= i < |r| ==> r[i] == Lower(Strip(Split(exts, ',')[i]))
  {
    var pieces := Split(exts, ',');
    seq(|pieces|, i requires 0 <= i < |pieces| => Lower(Strip(pieces[i])))
  }

  /** How many times `c` occurs in `s`. */
  function Occurrences(s: string, c: char): nat {
    if s == [] then 0 else (if s[0] == c then 1 else 0) + Occurrences(s[1..], c)
  }

  /** `split` yields one more piece than there are separators, empty pieces included,
      so the extension list has one entry per comma-separated field. */
  lemma {:induction false} ExtensionCount(exts: string)
    ensures |AllowedExtensionsList(exts)| == Occurrences(exts, ',') + 1
  {
    SplitCount(exts, ',');
  }

  lemma {:induction false} SplitCount(s: string, sep: char)
    ensures |Split(s, sep)| == Occurrences(s, sep) + 1
  {
    if s != [] {
      SplitCount(s[1..], sep);
    }
  }

  /** Each extension is already normalised: no surrounding whitespace, no upper-case
      letter, no comma, and normalising it again changes nothing. */
  lemma ExtensionsNormalised(exts: string, i: int)
    requires 0 <= i < |AllowedExtensionsList(exts)|
    ensures var e := AllowedExtensionsList(exts)[i];
            Lower(Strip(e)) == e && ',' !in e && forall j :: 0 <= j < |e| ==> !IsAsciiUpper(e[j])
  {
    var p := Split(exts, ',')[i];
    var t := Strip(p);
    var e := Lower(t);
    NormalisedPiece(t);
    StripWithin(p);
    assert ',' !in t;
    forall j | 0 <= j < |e| ensures e[j] != ',' {
      LowerCharKeeps(t[j]);
      assert t[j] in t;
    }
  }

  /** Lower-casing a stripped string leaves it stripped, and lower-case. */
  lemma NormalisedPiece(t: string)
    requires t == [] || (!IsSpace(t[0]) && !IsSpace(t[|t| - 1]))
    ensures Lower(Strip(Lower(t))) == Lower(t)
    ensures forall j :: 0 <= j < |Lower(t)| ==> !IsAsciiUpper(Lower(t)[j])
  {
    var e := Lower(t);
    if t != [] {
      LowerCharKeeps(t[0]);
      LowerCharKeeps(t[|t| - 1]);
    }
    StripUnchanged(e);
    LowerIdempotent(t);
  }

  /** `redis_url`: credentials appear, as `:password@`, exactly when a password is set;
      host, port and database follow in either case. */
  function RedisUrl(password: string, host: string, port: int, db: int): (r: string)
    ensures var tail := host + ":" + IntToString(port) + "/" + IntToString(db);
            && |r| == 8 + |tail| + (if password != "" then |password| + 2 else 0)
            && r[..8] == "redis://"
            && r[|r| - |tail|..] == tail
    ensures password != "" ==>
              r[8] == ':' && r[9..9 + |password|] == password && r[9 + |password|] == '@'
  {
    var tail := host + ":" + IntToString(port) + "/" + IntToString(db);
    if password != "" then
      var creds := "redis://:" + password + "@";
      assert creds[..8] == "redis://" && creds[8] == ':';
      assert creds[9..9 + |password|] == password && creds[9 + |password|] == '@';
      var r := creds + tail;
      assert r[..|creds|] == creds && r[|creds|..] == tail;
      r
    else
      var r := "redis://" + tail;
      assert r[..8] == "redis://" && r[8..] == tail;
      r
  }

  /** The URL with a password is the URL without one with `:password@` inserted right
      after the scheme. */
  lemma RedisUrlCredentials(password: string, host: string, port: int, db: int)
    requires password != ""
    ensures var plain := RedisUrl("", host, port, db);
            RedisUrl(password, host, port, db) == plain[..8] + ":" + password + "@" + plain[8..]
  {
    var tail := host + ":" + IntToString(port) + "/" + IntToString(db);
    var plain := RedisUrl("", host, port, db);
    assert plain == "redis://" + tail;
    assert plain[..8] == "redis://" && plain[8..] == tail;
    assert RedisUrl(password, host, port, db) == "redis://:" + password + "@" + tail;
    assert "redis://:" == "redis://" + ":";
  }
}

=== FILE: gateway.dfy ===
/** The Socket.IO gateway (backend/app/sio.py): the registry of connected sessions,
    the handshake and the event handlers. Handlers are atomic steps; what they do to
    the transport (room entry, emits) and to the log-only presence and typing calls
    of backend/app/services/redis_service.py is recorded as a log of effects. The JWT
    decoder is a parameter. */
module Gateway {
  import opened Common
  import opened MessageModel
  import UserService
  import ChatService
  import ChatModel
  import opened Collection
  import MessageService

  // ---------------------------------------------------------------------------
  // Rooms
  // ---------------------------------------------------------------------------

  /** The personal room every session of a user enters (`emit_to_user`). */
  function UserRoom(userId: string): string { "user:" + userId }

  /** The room of a chat (`emit_to_chat`, `join_chat`). */
  function ChatRoom(chatId: string): string { "chat:" + chatId }

  /** Room names never collide: each kind names one user or chat, and a personal room
      is never a chat room. */
  lemma RoomNaming(a: string, b: string)
    ensures UserRoom(a) != ChatRoom(b)
    ensures UserRoom(a) == UserRoom(b) ==> a == b
    ensures ChatRoom(a) == ChatRoom(b) ==> a == b
  {
    assert UserRoom(a)[0] == 'u' && ChatRoom(b)[0] == 'c';
    assert UserRoom(a)[5..] == a && UserRoom(b)[5..] == b;
    assert ChatRoom(a)[5..] == a && ChatRoom(b)[5..] == b;
  }

  /** One thing a handler does outside the session registry. */
  datatype Effect =
    | Emit(event: string, room: string, skipSid: Option<string>)  // `sio.emit(event, ..., room=..., skip_sid=...)`
    | Error(sid: string, message: string)                          // `sio.emit('error', {'message': ...}, room=sid)`
    | EnterRoom(sid: string, room: string)
    | LeaveRoom(sid: string, room: string)
    | PresenceMark(userId: string, online: bool)                   // `set_user_online` / `set_user_offline`
    | TypingMark(chatId: string, userId: string, isTyping: bool)   // `set_typing_status`

  // ---------------------------------------------------------------------------
  // The session registry
  // ---------------------------------------------------------------------------

  /** `get_user_sids`: the user's sessions, none when the user has no entry. */
  function Sessions(sessions: map<string, seq<string>>, userId: string): seq<string> {
    if userId in sessions then sessions[userId] else []
  }

  /** The registry's invariant: `connected_users` and `user_sessions` describe the same
      pairs, every connected user id is truthy, and no session list is empty or holds
      a session twice. */
  predicate Consistent(connected: map<string, string>, sessions: map<string, seq<string>>) {
    (forall sid :: sid in connected ==>
       connected[sid] != "" && connected[sid] in sessions && sid in sessions[connected[sid]])
    && (forall u :: u in sessions ==>
          sessions[u] != [] && NoDuplicates(sessions[u])
          && forall i :: 0 <= i < |sessions[u]| ==> sessions[u][i] in connected && connected[sessions[u][i]] == u)
  }

  /** Registering session `sid` for `userId`: the map entry, and `sid` appended to the
      user's list, which is created when absent. */
  function AddSession(connected: map<string, string>, sessions: map<string, seq<string>>, sid: string, userId: string)
    : (r: (map<string, string>, map<string, seq<string>>))
    ensures r.0.Keys == connected.Keys + {sid} && r.0[sid] == userId
    ensures forall s :: s in connected && s != sid ==> r.0[s] == connected[s]
    ensures r.1.Keys == sessions.Keys + {userId} && r.1[userId] == Sessions(sessions, userId) + [sid]
    ensures forall u :: u in sessions && u != userId ==> r.1[u] == sessions[u]
  {
    (connected[sid := userId], sessions[userId := Sessions(sessions, userId) + [sid]])
  }

  /** A session's removal empties its user's list exactly when it was the only one. */
  lemma LastSession(s: seq<string>, sid: string)
    requires sid in s
    ensures RemoveFirst(s, sid) == [] <==> s == [sid]
  {
    if RemoveFirst(s, sid) == [] {
      assert |s| == 1 && s[0] == sid;
    }
  }

  /** Unregistering session `sid`: its map entry goes; it leaves its user's list, and the
      list goes when it was the last one, which is when the user goes offline (the
      third component). An unknown session changes nothing. */
  function DropSession(connected: map<string, string>, sessions: map<string, seq<string>>, sid: string)
    : (r: (map<string, string>, map<string, seq<string>>, bool))
    requires Consistent(connected, sessions)
    ensures sid !in connected ==> r == (connected, sessions, false)
    ensures sid in connected ==> r.0 == connected - {sid}
    ensures sid in connected ==>
              var u := connected[sid];
              (r.2 <==> sessions[u] == [sid])
              && (r.2 ==> r.1 == sessions - {u})
              && (!r.2 ==> r.1.Keys == sessions.Keys && r.1[u] != []
                           && forall s :: s in r.1[u] <==> s in sessions[u] && s != sid)
    ensures forall u :: u in r.1 && (sid !in connected || u != connected[sid]) ==> r.1[u] == sessions[u]
  {
    if sid !in connected then (connected, sessions, false)
    else
      var u := connected[sid];
      var rest := RemoveFirst(sessions[u], sid);
      RemoveFirstNoDuplicates(sessions[u], sid);
      LastSession(sessions[u], sid);
      if rest == [] then (connected - {sid}, sessions - {u}, true)
      else (connected - {sid}, sessions[u := rest], false)
  }

  /** Registering a fresh session for a truthy user id keeps the registry consistent. */
  lemma AddSessionKeepsConsistent(connected: map<string, string>, sessions: map<string, seq<string>>, sid: string, userId: string)
    requires Consistent(connected, sessions) && sid !in connected && userId != ""
    ensures Consistent(AddSession(connected, sessions, sid, userId).0, AddSession(connected, sessions, sid, userId).1)
  {
    var (c2, s2) := AddSession(connected, sessions, sid, userId);
    var old_ := Sessions(sessions, userId);
    assert sid !in old_;
    forall s | s in c2
      ensures c2[s] != "" && c2[s] in s2 && s in s2[c2[s]]
    {
      if s != sid && connected[s] == userId {
        assert s in old_;
      }
    }
    forall u | u in s2
      ensures s2[u] != [] && NoDuplicates(s2[u])
              && forall i :: 0 <= i < |s2[u]| ==> s2[u][i] in c2 && c2[s2[u][i]] == u
    {
      if u == userId {
        forall i, j | 0 <= i < j < |s2[u]| ensures s2[u][i] != s2[u][j] {
          if j == |old_| {
            assert s2[u][i] == old_[i];
          }
        }
        forall i | 0 <= i < |s2[u]| ensures s2[u][i] in c2 && c2[s2[u][i]] == u {
          if i < |old_| {
            assert s2[u][i] == old_[i];
          }
        }
      }
    }
  }

  /** Unregistering a session keeps the registry consistent. */
  lemma DropSessionKeepsConsistent(connected: map<string, string>, sessions: map<string, seq<string>>, sid: string)
    requires Consistent(connected, sessions)
    ensures Consistent(DropSession(connected, sessions, sid).0, DropSession(connected, sessions, sid).1)
  {
    if sid in connected {
      var (c2, s2, offline) := DropSession(connected, sessions, sid);
      var u := connected[sid];
      RemoveFirstNoDuplicates(sessions[u], sid);
      forall s | s in c2
        ensures c2[s] != "" && c2[s] in s2 && s in s2[c2[s]]
      {
        if connected[s] == u {
          assert s in sessions[u] && s != sid;
        }
      }
      forall w | w in s2
        ensures s2[w] != [] && NoDuplicates(s2[w])
                && forall i :: 0 <= i < |s2[w]| ==> s2[w][i] in c2 && c2[s2[w][i]] == w
      {
        forall i | 0 <= i < |s2[w]| ensures s2[w][i] in c2 && c2[s2[w][i]] == w {
          var x := s2[w][i];
          if w == u {
            assert x in sessions[u] && x != sid;
          } else {
            assert x in sessions[w];
          }
        }
      }
    }
  }

  /** Dropping a session that was the last one appended to its user's list takes the
      list back to what it was before, removing the entry when that was empty. */
  lemma DropAppended(connected: map<string, string>, sessions: map<string, seq<string>>, sid: string,
                     userId: string, before: seq<string>)
    requires Consistent(connected, sessions)
    requires sid in connected && connected[sid] == userId
    requires userId in sessions && sessions[userId] == before + [sid]
    ensures DropSession(connected, sessions, sid)
            == (connected - {sid}, if before == [] then sessions - {userId} else sessions[userId := before], before == [])
  {
    forall i | 0 <= i < |before| ensures before[i] != sid {
      assert sessions[userId][i] == before[i] && sessions[userId][|before|] == sid;
    }
    RemoveFirstAppended(before, sid);
  }

  /** Taking the new session's entries back out of both maps gives the maps as they
      were before it was registered. */
  lemma UndoAdd(connected: map<string, string>, sessions: map<string, seq<string>>, sid: string, userId: string)
    requires sid !in connected
    ensures var added := AddSession(connected, sessions, sid, userId);
            added.0 - {sid} == connected
            && (userId in sessions ==> added.1[userId := sessions[userId]] == sessions)
            && (userId !in sessions ==> added.1 - {userId} == sessions)
  {
  }

  /** A session that connects and then disconnects leaves the registry as it was. */
  lemma ConnectThenDisconnect(connected: map<string, string>, sessions: map<string, seq<string>>, sid: string, userId: string)
    requires Consistent(connected, sessions) && sid !in connected && userId != ""
    ensures var added := AddSession(connected, sessions, sid, userId);
            Consistent(added.0, added.1)
            && DropSession(added.0, added.1, sid) == (connected, sessions, userId !in sessions)
  {
    AddSessionKeepsConsistent(connected, sessions, sid, userId);
    var (c2, s2) := AddSession(connected, sessions, sid, userId);
    var old_ := Sessions(sessions, userId);
    DropAppended(c2, s2, sid, userId, old_);
    UndoAdd(connected, sessions, sid, userId);
    assert userId in sessions ==> old_ != [];
  }

  // ---------------------------------------------------------------------------
  // The handshake
  // ---------------------------------------------------------------------------

  /** The claims the JWT decoder returns; `decode` gives `None` when it raises. */
  datatype Claims = Claims(sub: Option<string>, tokenType: Option<string>)

  /** The `auth` argument of the handshake: absent (or not a dictionary), or a dictionary
      whose `token` entry may be missing. */
  datatype Auth = NoAuth | AuthDict(token: Option<string>)

  function TokenOf(auth: Auth): Option<string> {
    if auth.AuthDict? then auth.token else None
  }

  /** The user a handshake registers, if any: it needs a truthy token that decodes to
      claims with a truthy `sub`. The `type` claim is never consulted. */
  function ConnectingUser(auth: Auth, decode: string -> Option<Claims>): (r: Option<string>)
    ensures r.Some? <==> Truthy(TokenOf(auth)) && decode(TokenOf(auth).value).Some?
                         && Truthy(decode(TokenOf(auth).value).value.sub)
    ensures r.Some? ==> r.value != "" && r == decode(TokenOf(auth).value).value.sub
  {
    var token := TokenOf(auth);
    if !Truthy(token) then None
    else
      match decode(token.value)
      case None => None
      case Some(claims) => if Truthy(claims.sub) then claims.sub else None
  }

  /** Refresh tokens are accepted like access tokens: two decoders that differ only in
      the `type` claim admit the same user. */
  lemma ConnectIgnoresTokenType(auth: Auth, decode: string -> Option<Claims>, decode2: string -> Option<Claims>)
    requires forall t :: decode(t).Some? <==> decode2(t).Some?
    requires forall t :: decode(t).Some? ==> decode(t).value.sub == decode2(t).value.sub
    ensures ConnectingUser(auth, decode) == ConnectingUser(auth, decode2)
  {
    var token := TokenOf(auth);
    if Truthy(token) {
      assert decode(token.value).Some? <==> decode2(token.value).Some?;
    }
  }

  // ---------------------------------------------------------------------------
  // Event handlers as effects
  // ---------------------------------------------------------------------------

  /** `join_chat`: errors go to the sender alone; a participant enters the chat room
      and the room (but the sender) hears `user_joined`. A malformed chat id makes the
      membership check raise: nothing happens. */
  function JoinChatEffects(cs: seq<ChatModel.Chat>, sid: string, userId: Option<string>, chatId: Option<string>)
    : (r: seq<Effect>)
    ensures !Truthy(userId) ==> r == [Error(sid, "Not authenticated")]
    ensures Truthy(userId) && !Truthy(chatId) ==> r == [Error(sid, "chat_id required")]
    ensures forall i :: 0 <= i < |r| && !r[i].Error? ==>
              Truthy(userId) && Truthy(chatId) && ChatService.IsUserInChat(cs, chatId.value, userId.value) == Ok(true)
    ensures Truthy(userId) && Truthy(chatId) && ChatService.IsUserInChat(cs, chatId.value, userId.value) == Ok(true) ==>
              r == [EnterRoom(sid, ChatRoom(chatId.value)), Emit("user_joined", ChatRoom(chatId.value), Some(sid))]
    ensures forall i :: 0 <= i < |r| && r[i].Error? ==> r == [r[i]] && r[i].sid == sid
  {
    if !Truthy(userId) then [Error(sid, "Not authenticated")]
    else if !Truthy(chatId) then [Error(sid, "chat_id required")]
    else
      match ChatService.IsUserInChat(cs, chatId.value, userId.value)
      case Err(_) => []
      case Ok(false) => [Error(sid, "Not a participant")]
      case Ok(true) =>
        var room := ChatRoom(chatId.value);
        [EnterRoom(sid, room), Emit("user_joined", room, Some(sid))]
  }

  /** `leave_chat`: leaves the room named by a truthy chat id; it asks for no session. */
  function LeaveChatEffects(sid: string, chatId: Option<string>): (r: seq<Effect>)
    ensures Truthy(chatId) ==> r == [LeaveRoom(sid, ChatRoom(chatId.value))]
    ensures !Truthy(chatId) ==> r == []
  {
    if Truthy(chatId) then [LeaveRoom(sid, ChatRoom(chatId.value))] else []
  }

  /** `typing_start` / `typing_stop`: silent without a session or a chat id; otherwise
      the typing mark and a `user_typing` to the chat room but the sender. Membership is
      not checked. */
  function TypingEffects(sid: string, userId: Option<string>, chatId: Option<string>, isTyping: bool): (r: seq<Effect>)
    ensures r != [] <==> Truthy(userId) && Truthy(chatId)
    ensures r != [] ==> r == [TypingMark(chatId.value, userId.value, isTyping),
                             Emit("user_typing", ChatRoom(chatId.value), Some(sid))]
  {
    if !Truthy(userId) || !Truthy(chatId) then []
    else [TypingMark(chatId.value, userId.value, isTyping), Emit("user_typing", ChatRoom(chatId.value), Some(sid))]
  }

  /** `message_read`: relays `messages_read` to the chat room but the sender, with no
      membership check and no change to any message. */
  function MessageReadEffects(sid: string, userId: Option<string>, chatId: Option<string>): (r: seq<Effect>)
    ensures r != [] <==> Truthy(userId) && Truthy(chatId)
    ensures forall i :: 0 <= i < |r| ==> r[i] == Emit("messages_read", ChatRoom(chatId.value), Some(sid))
  {
    if !Truthy(userId) || !Truthy(chatId) then [] else [Emit("messages_read", ChatRoom(chatId.value), Some(sid))]
  }

  /** The fields of a `send_message` event. */
  datatype SendData = SendData(
    chatId: Option<string>,
    content: Option<string>,
    messageType: Option<string>,   // absent: "text"
    replyTo: Option<string>,
    metadata: Option<Metadata>)

  /** What `send_message` does before it writes: refuse with an error to the sender,
      stop because the membership check raised, or create this message. */
  datatype SendPlan = Refuse(message: string) | Abort | Create(chatId: string, senderId: string, data: MessageCreate)

  function PlanSend(cs: seq<ChatModel.Chat>, userId: Option<string>, data: SendData): (r: SendPlan)
    ensures !Truthy(userId) ==> r == Refuse("Not authenticated")
    ensures Truthy(userId) && (!Truthy(data.chatId) || !Truthy(data.content)) ==> r == Refuse("chat_id and content required")
    ensures r.Create? ==> Truthy(userId) && r.senderId == userId.value && r.chatId == data.chatId.value
                          && ChatService.IsUserInChat(cs, r.chatId, r.senderId) == Ok(true)
                          && r.data.content == data.content.value && |r.data.content| <= CONTENT_MAX_LENGTH
    ensures r.Abort? <==> Truthy(userId) && Truthy(data.chatId) && Truthy(data.content) && !IsValidObjectId(data.chatId.value)
    ensures (Truthy(userId) && Truthy(data.chatId) && Truthy(data.content)
             && ChatService.IsUserInChat(cs, data.chatId.value, userId.value) == Ok(false)) ==> r == Refuse("Not a participant")
    ensures (Truthy(userId) && Truthy(data.chatId) && Truthy(data.content)
             && ChatService.IsUserInChat(cs, data.chatId.value, userId.value) == Ok(true)) ==>
              var mt := if data.messageType.Some? then data.messageType.value else "text";
              var v := ValidateMessageCreate(data.content, mt, data.replyTo, data.metadata);
              (r.Create? <==> v.Ok?) && (r.Create? ==> r.data == v.value)
                && (v.Err? ==> r == Refuse("Failed to send message"))
  {
    if !Truthy(userId) then Refuse("Not authenticated")
    else if !Truthy(data.chatId) || !Truthy(data.content) then Refuse("chat_id and content required")
    else
      match ChatService.IsUserInChat(cs, data.chatId.value, userId.value)
      case Err(_) => Abort
      case Ok(false) => Refuse("Not a participant")
      case Ok(true) =>
        var messageType := if data.messageType.Some? then data.messageType.value else "text";
        match ValidateMessageCreate(data.content, messageType, data.replyTo, data.metadata)
        case Err(_) => Refuse("Failed to send message")
        case Ok(mc) => Create(data.chatId.value, userId.value, mc)
  }

  // ---------------------------------------------------------------------------
  // The gateway
  // ---------------------------------------------------------------------------

  class Gateway {
    var connectedUsers: map<string, string>
    var userSessions: map<string, seq<string>>
    ghost var log: seq<Effect>

    ghost predicate Valid()
      reads this
    {
      Consistent(connectedUsers, userSessions)
    }

    constructor ()
      ensures Valid() && connectedUsers == map[] && userSessions == map[] && log == []
    {
      connectedUsers := map[];
      userSessions := map[];
      log := [];
    }

    /** `get_user_id`: the user a session belongs to. */
    function GetUserId(sid: string): (r: Option<string>)
      reads this
      ensures r.Some? <==> sid in connectedUsers
      ensures Valid() && r.Some? ==> sid in GetUserSids(r.value)
    {
      if sid in connectedUsers then Some(connectedUsers[sid]) else None
    }

    /** `get_user_sids`: the sessions of a user, every one of them registered to that user. */
    function GetUserSids(userId: string): (r: seq<string>)
      reads this
      ensures Valid() ==> forall s :: s in r ==> s in connectedUsers && connectedUsers[s] == userId
      ensures Valid() ==> NoDuplicates(r)
    {
      Sessions(userSessions, userId)
    }

    /** The registration step of `connect`: the session is mapped to the user and
        appended to the user's list, which is created first when absent. */
    method Register(sid: string, u: string)
      requires Valid() && sid !in connectedUsers && u != ""
      modifies this
      ensures Valid() && log == old(log)
      ensures (connectedUsers, userSessions) == AddSession(old(connectedUsers), old(userSessions), sid, u)
    {
      AddSessionKeepsConsistent(connectedUsers, userSessions, sid, u);
      ghost var before := userSessions;
      ghost var list := Sessions(before, u);
      connectedUsers := connectedUsers[sid := u];
      if u !in userSessions {
        userSessions := userSessions[u := []];
      }
      assert userSessions[u] == list;
      userSessions := userSessions[u := userSessions[u] + [sid]];
      assert userSessions == before[u := list + [sid]];
    }

    /** `connect`: a handshake without a usable token or `sub` is refused and changes
        nothing. Otherwise the session is registered and the user marked online in the
        store, whatever sessions it already had; a malformed user id makes that store
        call raise, so the handshake is refused with the session left registered. */
    method Connect(sid: string, auth: Auth, decode: string -> Option<Claims>, users: UserService.UserStore, now: int)
      returns (accepted: bool)
      requires Valid() && users.Valid() && sid !in connectedUsers
      modifies this, users
      ensures Valid() && users.Valid()
      ensures ConnectingUser(auth, decode).None? ==>
                !accepted && connectedUsers == old(connectedUsers) && userSessions == old(userSessions)
                && log == old(log) && users.users == old(users.users)
      ensures ConnectingUser(auth, decode).Some? ==>
                var u := ConnectingUser(auth, decode).value;
                (connectedUsers, userSessions) == AddSession(old(connectedUsers), old(userSessions), sid, u)
                && users.users == AfterUpdate(old(users.users), UserService.IdOf, u,
                                              UserService.Presence(true, now))
                && (accepted <==> IsValidObjectId(u))
                && log == old(log) + [PresenceMark(u, true)]
                          + (if accepted then [EnterRoom(sid, UserRoom(u)), Emit("connected", sid, None)] else [])
    {
      var token := TokenOf(auth);
      if !Truthy(token) {
        assert ConnectingUser(auth, decode).None?;
        return false;
      }
      var claims := decode(token.value);
      if claims.None? || !Truthy(claims.value.sub) {
        assert ConnectingUser(auth, decode).None?;
        return false;
      }
      var u := claims.value.sub.value;
      assert ConnectingUser(auth, decode) == Some(u);
      Register(sid, u);
      log := log + [PresenceMark(u, true)];
      var stored := users.SetUserOnlineStatus(u, true, now);
      if stored.Err? {
        return false;
      }
      log := log + [EnterRoom(sid, UserRoom(u)), Emit("connected", sid, None)];
      accepted := true;
    }

    /** `disconnect`: an unknown session changes nothing; otherwise it is unregistered,
        and the user goes offline (in the presence log and in the store) exactly when it
        was the user's last session. */
    method Disconnect(sid: string, users: UserService.UserStore, now: int)
      requires Valid() && users.Valid()
      modifies this, users
      ensures Valid() && users.Valid()
      ensures var (c, s, offline) := DropSession(old(connectedUsers), old(userSessions), sid);
              connectedUsers == c && userSessions == s
              && (offline ==> log == old(log) + [PresenceMark(old(connectedUsers)[sid], false)]
                              && users.users == AfterUpdate(old(users.users), UserService.IdOf, old(connectedUsers)[sid],
                                                            UserService.Presence(false, now)))
              && (!offline ==> log == old(log) && users.users == old(users.users))
    {
      DropSessionKeepsConsistent(connectedUsers, userSessions, sid);
      if sid !in connectedUsers {
        return;
      }
      var u := connectedUsers[sid];
      connectedUsers := connectedUsers - {sid};
      if u != "" && u in userSessions {
        var rest := RemoveFirst(userSessions[u], sid);
        userSessions := userSessions[u := rest];
        if rest == [] {
          userSessions := userSessions - {u};
          log := log + [PresenceMark(u, false)];
          var _ := users.SetUserOnlineStatus(u, false, now);
        }
      }
    }

    method JoinChat(sid: string, chatId: Option<string>, chats: ChatService.ChatStore)
      modifies this
      ensures connectedUsers == old(connectedUsers) && userSessions == old(userSessions)
      ensures log == old(log) + JoinChatEffects(chats.chats, sid, GetUserId(sid), chatId)
    {
      log := log + JoinChatEffects(chats.chats, sid, GetUserId(sid), chatId);
    }

    method LeaveChat(sid: string, chatId: Option<string>)
      modifies this
      ensures connectedUsers == old(connectedUsers) && userSessions == old(userSessions)
      ensures log == old(log) + LeaveChatEffects(sid, chatId)
    {
      log := log + LeaveChatEffects(sid, chatId);
    }

    method Typing(sid: string, chatId: Option<string>, isTyping: bool)
      modifies this
      ensures connectedUsers == old(connectedUsers) && userSessions == old(userSessions)
      ensures log == old(log) + TypingEffects(sid, GetUserId(sid), chatId, isTyping)
    {
      log := log + TypingEffects(sid, GetUserId(sid), chatId, isTyping);
    }

    method MessageRead(sid: string, chatId: Option<string>)
      modifies this
      ensures connectedUsers == old(connectedUsers) && userSessions == old(userSessions)
      ensures log == old(log) + MessageReadEffects(sid, GetUserId(sid), chatId)
    {
      log := log + MessageReadEffects(sid, GetUserId(sid), chatId);
    }

    /** `send_message`: only a planned creation writes; it stores the message, updates
        the chat's preview and broadcasts `new_message` to the chat room. */
    method SendMessage(sid: string, data: SendData, chats: ChatService.ChatStore,
                       messages: MessageService.MessageStore, newId: string, now: int)
      requires chats.Valid() && messages.Valid()
      requires IsCanonicalId(newId) && forall k :: 0 <= k < |messages.messages| ==> messages.messages[k].id != newId
      modifies this, chats, messages
      ensures chats.Valid() && messages.Valid()
      ensures connectedUsers == old(connectedUsers) && userSessions == old(userSessions)
      ensures match PlanSend(old(chats.chats), GetUserId(sid), data)
              case Refuse(msg) =>
                log == old(log) + [Error(sid, msg)]
                && messages.messages == old(messages.messages) && chats.chats == old(chats.chats)
              case Abort =>
                log == old(log) && messages.messages == old(messages.messages) && chats.chats == old(chats.chats)
              case Create(chatId, senderId, mc) =>
                messages.messages == old(messages.messages) + [MessageService.NewMessage(newId, chatId, senderId, mc, now)]
                && chats.chats == AfterUpdate(old(chats.chats), ChatService.IdOf, chatId,
                                              c => ChatService.LastMessageRecord(c, mc.content, now, now))
                && log == old(log) + [Emit("new_message", ChatRoom(chatId), None)]
    {
      var plan := PlanSend(chats.chats, GetUserId(sid), data);
      match plan
      case Refuse(msg) =>
        log := log + [Error(sid, msg)];
      case Abort =>
      case Create(chatId, senderId, mc) =>
        var created := messages.CreateMessage(chats, chatId, senderId, mc, newId, now);
        log := log + [Emit("new_message", ChatRoom(chatId), None)];
    }
  }

  /** `emit_to_user` and `emit_to_chat`: a broadcast to the user's or the chat's room. */
  function EmitToUser(userId: string, event: string): (e: Effect)
    ensures e.Emit? && e.room == UserRoom(userId) && e.skipSid.None?
  {
    Emit(event, UserRoom(userId), None)
  }

  function EmitToChat(chatId: string, event: string): (e: Effect)
    ensures e.Emit? && e.room == ChatRoom(chatId) && e.skipSid.None?
  {
    Emit(event, ChatRoom(chatId), None)
  }
}

=== FILE: helpers.dfy ===
/** Response helpers (backend/app/utils/helpers.py): turning documents into JSON-ready
    values, ObjectId parsing, and pagination arithmetic. */
module Helpers {
  import opened Common

  /** A Python value as the helpers see it: dictionaries (keys in insertion order),
      lists, ObjectIds (held by their canonical string), datetimes (held by an
      integer instant), and the other scalars. */
  datatype Value =
    | VDict(entries: seq<Entry>)
    | VList(items: seq<Value>)
    | VObjectId(oid: string)
    | VDatetime(t: int)
    | VStr(s: string)
    | VInt(n: int)
    | VBool(b: bool)
    | VNull
  datatype Entry = Entry(key: string, val: Value)

  /** No ObjectId and no datetime anywhere inside `v`. */
  predicate JsonReady(v: Value) {
    match v
    case VDict(es) => forall i :: 0 <= i < |es| ==> JsonReady(es[i].val)
    case VList(xs) => forall i :: 0 <= i < |xs| ==> JsonReady(xs[i])
    case VObjectId(_) => false
    case VDatetime(_) => false
    case _ => true
  }

  /** Keys of a dictionary, in order. */
  function Keys(es: seq<Entry>): (r: seq<string>)
    ensures |r| == |es|
    ensures forall i :: 0 <= i < |es| ==> r[i] == es[i].key
  {
    seq(|es|, i requires 0 <= i < |es| => es[i].key)
  }

  /** `serialize_object_id(obj)`: ObjectIds become their strings and datetimes their
      `isoformat()` text (the formatter is a parameter); dictionaries and lists are
      rebuilt item by item; every other value is returned as it is. */
  function Serialize(v: Value, iso: int -> string): (r: Value)
    ensures v.VDict? ==> r.VDict? && Keys(r.entries) == Keys(v.entries)
    ensures v.VList? ==> r.VList? && |r.items| == |v.items|
    ensures v.VObjectId? ==> r == VStr(v.oid)
    ensures v.VDatetime? ==> r == VStr(iso(v.t))
    ensures !v.VDict? && !v.VList? && !v.VObjectId? && !v.VDatetime? ==> r == v
  {
    match v
    case VDict(es) =>
      VDict(seq(|es|, i requires 0 <= i < |es| => Entry(es[i].key, Serialize(es[i].val, iso))))
    case VList(xs) =>
      VList(seq(|xs|, i requires 0 <= i < |xs| => Serialize(xs[i], iso)))
    case VObjectId(oid) => VStr(oid)
    case VDatetime(t) => VStr(iso(t))
    case _ => v
  }

  /** What comes out of the serializer holds no ObjectId and no datetime. */
  lemma {:induction false} SerializeIsJsonReady(v: Value, iso: int -> string)
    ensures JsonReady(Serialize(v, iso))
  {
    match v
    case VDict(es) =>
      var r := Serialize(v, iso);
      forall i | 0 <= i < |es| ensures JsonReady(r.entries[i].val) {
        SerializeIsJsonReady(es[i].val, iso);
      }
    case VList(xs) =>
      var r := Serialize(v, iso);
      forall i | 0 <= i < |xs| ensures JsonReady(r.items[i]) {
        SerializeIsJsonReady(xs[i], iso);
      }
    case _ =>
  }

  /** A value that is already JSON-ready passes through unchanged. */
  lemma {:induction false} SerializeFixesJsonReady(v: Value, iso: int -> string)
    requires JsonReady(v)
    ensures Serialize(v, iso) == v
  {
    match v
    case VDict(es) =>
      var r := Serialize(v, iso).entries;
      forall i | 0 <= i < |es| ensures r[i] == es[i] {
        SerializeFixesJsonReady(es[i].val, iso);
      }
    case VList(xs) =>
      var r := Serialize(v, iso).items;
      forall i | 0 <= i < |xs| ensures r[i] == xs[i] {
        SerializeFixesJsonReady(xs[i], iso);
      }
    case _ =>
  }

  /** Serializing twice gives what serializing once gives. */
  lemma SerializeIdempotent(v: Value, iso: int -> string)
    ensures Serialize(Serialize(v, iso), iso) == Serialize(v, iso)
  {
    SerializeIsJsonReady(v, iso);
    SerializeFixesJsonReady(Serialize(v, iso), iso);
  }

  /** Every list item keeps its place: item `i` of the result is item `i` serialized. */
  lemma SerializeListPointwise(xs: seq<Value>, iso: int -> string, i: int)
    requires 0 <= i < |xs|
    ensures Serialize(VList(xs), iso).items[i] == Serialize(xs[i], iso)
  {
  }

  /** `parse_Object_id(id_str)` for a string: the ObjectId, or `None` where the
      constructor raises InvalidId. */
  function ParseObjectIdOrNone(idStr: string): (r: Option<string>)
    ensures r.Some? <==> IsValidObjectId(idStr)
    ensures r.Some? ==> IsCanonicalId(r.value) && ParseObjectId(idStr) == Ok(r.value)
  {
    match ParseObjectId(idStr)
    case Ok(oid) => Some(oid)
    case Err(_) => None
  }

  /** `is_valid_object_id(id_str)` */
  function IsValidObjectIdHelper(idStr: string): (b: bool)
    ensures b <==> ParseObjectIdOrNone(idStr).Some?
    ensures b <==> IsValidObjectId(idStr)
  {
    ParseObjectIdOrNone(idStr) != None
  }

  // ---------------------------------------------------------------------------
  // Pagination
  // ---------------------------------------------------------------------------

  datatype PageParams = PageParams(skip: int, limit: int)

  /** `paginate_params(page, limit)` as written: line 37 computes `skip - ...` instead
      of assigning `skip`, so evaluating it reads the undefined local name and the
      call always raises NameError. */
  function PaginateParamsAsWritten(page: int, limit: int): (r: Res<PageParams>)
    ensures r.Err? && r.error.NameError?
  {
    Err(NameError("skip"))
  }

  /** `paginate_params` with `skip = (page - 1) * limit`: the page is clamped to at
      least 1 and the limit to 1..100. */
  function PaginateParams(page: int, limit: int): (r: PageParams)
    ensures 1 <= r.limit <= 100 && r.skip >= 0
    ensures r.limit == (if limit < 1 then 1 else if limit > 100 then 100 else limit)
    ensures page >= 1 ==> r.skip == (page - 1) * r.limit
    ensures page < 1 ==> r.skip == 0
  {
    var p := if page < 1 then 1 else page;
    var l := if limit < 1 then 1 else if limit > 100 then 100 else limit;
    PageParams((p - 1) * l, l)
  }

  /** The pages of the corrected helper tile the item positions: item `n` is on exactly
      one page, the one numbered `n / limit + 1`. The as-written helper returns no
      page at all. */
  lemma PagesTile(page: int, limit: int, n: nat)
    requires 1 <= limit <= 100 && page >= 1
    ensures PaginateParamsAsWritten(page, limit).Err?
    ensures var p := PaginateParams(page, limit);
            p.skip <= n < p.skip + p.limit <==> page == n / limit + 1
  {
    var p := PaginateParams(page, limit);
    var q := n / limit;
    DivBounds(n, limit);
    if page <= q {
      MulMono(page, q, limit);
      Distribute(page, limit);
    } else if page >= q + 2 {
      MulMono(q + 1, page - 1, limit);
    }
  }

  lemma DivBounds(n: nat, limit: int)
    requires limit > 0
    ensures (n / limit) * limit <= n < (n / limit + 1) * limit
  {
    var q := n / limit;
    assert n == q * limit + n % limit;
    Distribute(q + 1, limit);
  }

  lemma Distribute(a: int, c: int)
    ensures (a - 1) * c + c == a * c
  {
  }

  lemma MulMono(a: int, b: int, c: nat)
    requires a <= b
    ensures a * c <= b * c
  {
    var d := b - a;
    assert b * c == a * c + d * c;
  }

  /** Python's `a // b`: the quotient rounded toward negative infinity. */
  function FloorDiv(a: int, b: int): (q: int)
    requires b != 0
    ensures b > 0 ==> b * q <= a < b * q + b
    ensures b < 0 ==> b * q >= a > b * q + b
  {
    if b > 0 then a / b else (-a) / (-b)
  }

  datatype Pagination = Pagination(total: int, page: int, limit: int, totalPages: int, hasNext: bool, hasPrev: bool)
  /** The response carries its page data under the key `pagimation`, spelled as the
      helper writes it; a client reading `pagination` finds nothing. */
  datatype PageResponse<T> = PageResponse(items: seq<T>, pagimation: Pagination)

  /** `create_pagination_response(items, total, page, limit)`; a limit of 0 makes the
      floor division raise ZeroDivisionError. For a positive limit the page count is
      the ceiling of `total / limit`. */
  function CreatePaginationResponse<T>(items: seq<T>, total: int, page: int, limit: int): (r: Res<PageResponse<T>>)
    ensures r.Err? <==> limit == 0
    ensures r.Ok? ==> r.value.items == items && r.value.pagimation.total == total
    ensures r.Ok? && limit > 0 ==>
              var n := r.value.pagimation.totalPages; (n - 1) * limit < total <= n * limit
    ensures r.Ok? ==> (r.value.pagimation.hasNext <==> page * limit < total)
    ensures r.Ok? ==> (r.value.pagimation.hasPrev <==> page > 1)
  {
    if limit == 0 then Err(ZeroDivisionError)
    else
      var totalPages := FloorDiv(total + limit - 1, limit);
      Ok(PageResponse(items, Pagination(total, page, limit, totalPages, page * limit < total, page > 1)))
  }

  /** For a positive limit, "there is a next page" means exactly that the current page
      number is below the page count. */
  lemma HasNextBelowLastPage<T>(items: seq<T>, total: int, page: int, limit: int)
    requires limit > 0
    ensures var p := CreatePaginationResponse(items, total, page, limit).value.pagimation;
            p.hasNext <==> page < p.totalPages
  {
    var p := CreatePaginationResponse(items, total, page, limit).value.pagimation;
    var n := p.totalPages;
    if page < n {
      MulMono(page, n - 1, limit);
    } else {
      MulMono(n, page, limit);
    }
  }

  /** `success_response(data, message)`: a dictionary with `status` and `message`,
      and a `data` key exactly when `data is not None`; Python's `None` is `VNull`. */
  function SuccessResponse(data: Value, message: string): (r: Value)
    ensures r.VDict? && |r.entries| >= 2
    ensures r.entries[0] == Entry("status", VStr("success")) && r.entries[1] == Entry("message", VStr(message))
    ensures "data" in Keys(r.entries) <==> data != VNull
    ensures data != VNull ==> Entry("data", data) in r.entries
  {
    var base := [Entry("status", VStr("success")), Entry("message", VStr(message))];
    if data != VNull then
      var es := base + [Entry("data", data)];
      assert Keys(es)[2] == "data";
      VDict(es)
    else
      assert Keys(base) == ["status", "message"];
      VDict(base)
  }
}

=== FILE: message_model.dfy ===
/** The message schema (backend/app/models/message.py): the status and type enums,
    the request validators, the stored document that the message service writes,
    and the response model a stored document is read back through. */
module MessageModel {
  import opened Common

  datatype MessageStatus = Sent | Delivered | Read

  function StatusValue(s: MessageStatus): string {
    match s
    case Sent => "sent"
    case Delivered => "delivered"
    case Read => "read"
  }

  /** `MessageStatus(v)`: the member whose value is `v`. */
  function ParseStatus(v: string): (r: Option<MessageStatus>)
    ensures r.Some? ==> StatusValue(r.value) == v
  {
    if v == "sent" then Some(Sent)
    else if v == "delivered" then Some(Delivered)
    else if v == "read" then Some(Read)
    else None
  }

  /** The enum has exactly the three values, each parsed back to its own member. */
  lemma StatusValuesExact(s: MessageStatus, v: string)
    ensures ParseStatus(StatusValue(s)) == Some(s)
    ensures ParseStatus(v).Some? <==> v in {"sent", "delivered", "read"}
  {
  }

  datatype MessageType = Text | Image | Video | File | System | Ai

  function TypeValue(t: MessageType): string {
    match t
    case Text => "text"
    case Image => "image"
    case Video => "video"
    case File => "file"
    case System => "system"
    case Ai => "ai"
  }

  function ParseType(v: string): (r: Option<MessageType>)
    ensures r.Some? ==> TypeValue(r.value) == v
  {
    if v == "text" then Some(Text)
    else if v == "image" then Some(Image)
    else if v == "video" then Some(Video)
    else if v == "file" then Some(File)
    else if v == "system" then Some(System)
    else if v == "ai" then Some(Ai)
    else None
  }

  lemma TypeValuesExact(t: MessageType, v: string)
    ensures ParseType(TypeValue(t)) == Some(t)
    ensures ParseType(v).Some? <==> v in {"text", "image", "video", "file", "system", "ai"}
  {
  }

  /** The free-form `metadata` dictionary, with string values. */
  type Metadata = map<string, string>

  // ---------------------------------------------------------------------------
  // PyObjectId.validate
  // ---------------------------------------------------------------------------

  /** What reaches `PyObjectId.validate`: an ObjectId instance (held here by its
      canonical string), a `str`, or a value of another type. */
  datatype PyValue = ObjectIdInstance(oid: string) | Str(s: string) | OtherType

  function ValidatePyObjectId(v: PyValue): (r: Res<string>)
    ensures v.ObjectIdInstance? ==> r == Ok(v.oid)
    ensures v.Str? ==> (r.Ok? <==> IsValidObjectId(v.s))
    ensures v.Str? && r.Ok? ==> r.value == v.s
    ensures v.OtherType? ==> r == Err(ValueError("Invalid ObjectId"))
  {
    match v
    case ObjectIdInstance(oid) => Ok(oid)
    case Str(s) => if IsValidObjectId(s) then Ok(s) else Err(ValueError("Invalid ObjectId"))
    case OtherType => Err(ValueError("Invalid ObjectId"))
  }

  // ---------------------------------------------------------------------------
  // Request models
  // ---------------------------------------------------------------------------

  const CONTENT_MIN_LENGTH: nat := 1
  const CONTENT_MAX_LENGTH: nat := 5000
  const EMOJI_MAX_LENGTH: nat := 10

  /** A `MessageCreate` that passed validation. */
  datatype MessageCreate = MessageCreate(
    content: string,
    messageType: MessageType,
    replyTo: Option<string>,
    metadata: Option<Metadata>)

  /** `MessageCreate.validate_content`: its condition `v is None and not
      ObjectId.is_valid(v)` holds only for `None`. */
  function ValidateContent(v: Option<string>): (r: Res<string>)
    ensures r.Err? <==> v.None?
    ensures r.Ok? ==> r.value == v.value
  {
    if v.None? then Err(ValueError("Invalid ObjectId")) else Ok(v.value)
  }

  /** Building `MessageCreate(content=..., message_type=..., reply_to=..., metadata=...)`
      from raw fields: content must be a string of 1..5000 characters, the type one
      of the enum values. */
  function ValidateMessageCreate(content: Option<string>, messageType: string,
                                 replyTo: Option<string>, metadata: Option<Metadata>): (r: Res<MessageCreate>)
    ensures r.Ok? <==> content.Some? && CONTENT_MIN_LENGTH <= |content.value| <= CONTENT_MAX_LENGTH
                       && ParseType(messageType).Some?
    ensures r.Ok? ==> r.value.content == content.value && TypeValue(r.value.messageType) == messageType
                      && r.value.replyTo == replyTo && r.value.metadata == metadata
  {
    if content.None? then Err(ValueError("content: Input should be a valid string"))
    else if !(CONTENT_MIN_LENGTH <= |content.value| <= CONTENT_MAX_LENGTH) then Err(ValueError("content: length"))
    else if ParseType(messageType).None? then Err(ValueError("message_type: Input should be a valid enum member"))
    else
      match ValidateContent(content)
      case Err(e) => Err(e)
      case Ok(c) => Ok(MessageCreate(c, ParseType(messageType).value, replyTo, metadata))
  }

  /** `MessageUpdate(content=...)`: 1..5000 characters. */
  function ValidateMessageUpdate(content: string): (r: Res<string>)
    ensures r.Ok? <==> CONTENT_MIN_LENGTH <= |content| <= CONTENT_MAX_LENGTH
    ensures r.Ok? ==> r.value == content
  {
    if CONTENT_MIN_LENGTH <= |content| <= CONTENT_MAX_LENGTH then Ok(content)
    else Err(ValueError("content: length"))
  }

  /** `ReactionRequest(emoji=...)`: the length bound applies to the raw string, then
      `validate_emoji` strips it and refuses what is left empty. */
  function ValidateReaction(emoji: string): (r: Res<string>)
    ensures r.Ok? <==> |emoji| <= EMOJI_MAX_LENGTH && Strip(emoji) != ""
    ensures r.Ok? ==> r.value == Strip(emoji) && 0 < |r.value| <= EMOJI_MAX_LENGTH
  {
    if |emoji| > EMOJI_MAX_LENGTH then Err(ValueError("emoji: length"))
    else
      var v := Strip(emoji);
      if v == "" then Err(ValueError("Emoji cannot be empty")) else Ok(v)
  }

  /** The emoji validator accepts exactly the short strings that are not blank, and
      what it accepts carries no surrounding whitespace. */
  lemma ReactionAcceptsNonBlank(emoji: string)
    ensures ValidateReaction(emoji).Ok? <==>
              |emoji| <= EMOJI_MAX_LENGTH && exists i :: 0 <= i < |emoji| && !IsSpace(emoji[i])
    ensures ValidateReaction(emoji).Ok? ==>
              var e := ValidateReaction(emoji).value; !IsSpace(e[0]) && !IsSpace(e[|e| - 1])
  {
    StripEmptyIffBlank(emoji);
  }

  // ---------------------------------------------------------------------------
  // The stored message document
  // ---------------------------------------------------------------------------

  /** The constant written over the content of a soft-deleted message. */
  const TOMBSTONE: string := "[Message deleted]"

  /** A document of the `messages` collection. `isEdited` and `isDeleted` are `None`
      while the field is absent from the document: `create_message` writes neither. */
  datatype Message = Message(
    id: string,
    chatId: string,
    senderId: string,
    content: string,
    messageType: MessageType,
    replyTo: Option<string>,
    metadata: Option<Metadata>,
    status: MessageStatus,
    createdAt: int,
    updatedAt: int,
    isEdited: Option<bool>,
    editedAt: Option<int>,
    reactions: map<string, seq<string>>,
    isDeleted: Option<bool>,
    deletedAt: Option<int>)

  /** The `Message` model with every field left to its default. */
  function MessageDefaults(id: string, chatId: string, senderId: string, content: string, now: int): (m: Message)
    ensures m.status == Sent && m.messageType == Text
    ensures m.isEdited == Some(false) && m.isDeleted == Some(false)
    ensures m.editedAt.None? && m.deletedAt.None? && m.replyTo.None?
    ensures m.reactions == map[] && m.metadata == Some(map[])
  {
    Message(id, chatId, senderId, content, Text, None, Some(map[]), Sent, now, now,
            Some(false), None, map[], Some(false), None)
  }

  /** `MessageResponse`: what the API and the socket send for a message. */
  datatype MessageResponse = MessageResponse(
    id: string,
    content: string,
    chatId: string,
    senderId: string,
    messageType: MessageType,
    status: MessageStatus,
    createdAt: int,
    updatedAt: int,
    isEdited: bool,
    editedAt: Option<int>,
    replyTo: Option<string>,
    reactions: map<string, seq<string>>,
    metadata: Metadata,
    isDeleted: bool)

  function OrFalse(b: Option<bool>): bool {
    b.Some? && b.value
  }

  /** `MessageResponse(**doc)` as written: an absent flag takes its default, but a
      document whose `metadata` is `None` is refused, because the field is a plain
      dictionary. */
  function ToResponseAsWritten(m: Message): (r: Res<MessageResponse>)
    ensures r.Err? <==> m.metadata.None?
  {
    if m.metadata.None? then Err(ValueError("metadata: Input should be a valid dictionary"))
    else Ok(MessageResponse(m.id, m.content, m.chatId, m.senderId, m.messageType, m.status,
                            m.createdAt, m.updatedAt, OrFalse(m.isEdited), m.editedAt, m.replyTo,
                            m.reactions, m.metadata.value, OrFalse(m.isDeleted)))
  }

  /** The response conversion with a missing `metadata` read as the empty dictionary,
      as the model's `{}` default intends: every stored document converts. */
  function ToResponse(m: Message): (r: MessageResponse)
    ensures r.id == m.id && r.content == m.content && r.chatId == m.chatId && r.senderId == m.senderId
    ensures r.status == m.status && r.reactions == m.reactions
    ensures r.isDeleted <==> m.isDeleted == Some(true)
    ensures r.isEdited <==> m.isEdited == Some(true)
    ensures m.metadata.Some? ==> ToResponseAsWritten(m) == Ok(r)
  {
    MessageResponse(m.id, m.content, m.chatId, m.senderId, m.messageType, m.status,
                    m.createdAt, m.updatedAt, OrFalse(m.isEdited), m.editedAt, m.replyTo,
                    m.reactions, if m.metadata.Some? then m.metadata.value else map[], OrFalse(m.isDeleted))
  }
}

=== FILE: message_routes.dfy ===
/** The message endpoints (backend/app/routes/messages.py): the guard chain of each
    handler, the page with its `has_more` flag, and the broadcast each successful
    handler sends to the chat room. Guards answer `Http(403)` / `Http(404)` as the
    handlers raise them; any other error (a malformed id) escapes the handler. */
module MessageRoutes {
  import opened Common
  import opened MessageModel
  import opened Collection
  import ChatModel
  import ChatService
  import opened MessageService
  import opened Gateway
  import ChatRoutes

  /** `MessageListResponse`. */
  datatype MessageList = MessageList(messages: seq<MessageResponse>, count: nat, hasMore: bool)

  function Responses(ms: seq<Message>): (r: seq<MessageResponse>)
    ensures |r| == |ms| && forall i :: 0 <= i < |ms| ==> r[i] == ToResponse(ms[i])
  {
    seq(|ms|, i requires 0 <= i < |ms| => ToResponse(ms[i]))
  }

  // ---------------------------------------------------------------------------
  // `GET /messages/{chat_id}`
  // ---------------------------------------------------------------------------

  /** The page as written: `get_chat_messages` with `limit + 1`, then the first `limit`
      of the list it returns, which is already reversed when `after` is given. */
  function PageAsWritten(ms: seq<Message>, chatId: string, limit: nat, before: Option<int>, after: Option<int>)
    : (r: (seq<Message>, bool))
    ensures |r.0| <= limit
  {
    var fetched := ChatMessages(ms, chatId, limit + 1, before, after);
    var hasMore := |fetched| > limit;
    (if hasMore then fetched[..limit] else fetched, hasMore)
  }

  /** The page with the extra message dropped from the far end of the fetch, before
      the reversal: exactly the `limit`-message page, and `has_more` says whether more
      messages match. */
  function Page(ms: seq<Message>, chatId: string, limit: nat, before: Option<int>, after: Option<int>)
    : (r: (seq<Message>, bool))
    ensures r.0 == ChatMessages(ms, chatId, limit, before, after)
    ensures r.1 <==> |Filter(ms, (m: Message) => Selected(m, chatId, before, after))| > limit
  {
    FetchOneMore(ms, chatId, limit, before, after);
    var fetched := Fetch(ms, chatId, limit + 1, before, after);
    var hasMore := |fetched| > limit;
    var kept := if hasMore then fetched[..limit] else fetched;
    (if after.Some? then Reverse(kept) else kept, hasMore)
  }

  /** Without `after` the page as written is the intended one. */
  lemma PageAsWrittenWithoutAfter(ms: seq<Message>, chatId: string, limit: nat, before: Option<int>)
    ensures PageAsWritten(ms, chatId, limit, before, None) == Page(ms, chatId, limit, before, None)
  {
    FetchOneMore(ms, chatId, limit, before, None);
  }

  /** Cutting a reversed list of `n + 1` distinct items to `n` loses the list's first
      item; cutting before reversing keeps it. */
  lemma ReverseThenCut<T>(f: seq<T>, n: nat)
    requires NoDuplicates(f) && |f| == n + 1 && n >= 1
    ensures f[0] !in Reverse(f)[..n]
    ensures f[0] in Reverse(f[..n])
  {
    var w := Reverse(f)[..n];
    forall i | 0 <= i < n ensures w[i] != f[0] {
      assert w[i] == f[n - i];
    }
    assert Reverse(f[..n])[n - 1] == f[0];
  }

  /** With `after` and more messages than the page holds, the page as written loses the
      first message the query fetched (with `after` alone: the oldest one after it,
      which the next page, asked for after the newest one shown, never returns) and
      shows the extra one instead; the intended page keeps it. */
  lemma PageAsWrittenDropsFirstFetched(ms: seq<Message>, chatId: string, limit: nat, before: Option<int>, after: Option<int>)
    requires WellFormed(ms) && limit >= 1 && after.Some?
    requires PageAsWritten(ms, chatId, limit, before, after).1
    ensures Fetch(ms, chatId, limit + 1, before, after)[0] !in PageAsWritten(ms, chatId, limit, before, after).0
    ensures Fetch(ms, chatId, limit + 1, before, after)[0] in Page(ms, chatId, limit, before, after).0
  {
    FetchOneMore(ms, chatId, limit, before, after);
    FetchNoDuplicates(ms, chatId, limit + 1, before, after);
    var f := Fetch(ms, chatId, limit + 1, before, after);
    ReverseThenCut(f, limit);
    assert PageAsWritten(ms, chatId, limit, before, after).0 == Reverse(f)[..limit];
    assert Page(ms, chatId, limit, before, after).0 == Reverse(f[..limit]);
  }

  /** `get_messages`: 403 for a non-participant, else the page, its size and `has_more`. */
  function GetMessages(ms: seq<Message>, cs: seq<ChatModel.Chat>, chatId: string, userId: string,
                       limit: nat, before: Option<int>, after: Option<int>): (r: Res<MessageList>)
    requires 1 <= limit <= 100
    ensures r.Err? <==> ChatRoutes.RequireParticipant(cs, chatId, userId).Err?
    ensures r.Ok? ==> r.value.messages == Responses(ChatMessages(ms, chatId, limit, before, after))
                      && r.value.count == |r.value.messages| <= limit
                      && (r.value.hasMore <==> |Filter(ms, (m: Message) => Selected(m, chatId, before, after))| > limit)
  {
    match ChatRoutes.RequireParticipant(cs, chatId, userId)
    case Err(e) => Err(e)
    case Ok(_) =>
      var (page, hasMore) := Page(ms, chatId, limit, before, after);
      Ok(MessageList(Responses(page), |page|, hasMore))
  }

  // ---------------------------------------------------------------------------
  // Guards of the handlers that address one message
  // ---------------------------------------------------------------------------

  /** The message a handler addresses: 404 when there is none. */
  function RequireMessage(ms: seq<Message>, messageId: string): (r: Res<Message>)
    ensures r.Ok? <==> GetMessageById(ms, messageId).Ok? && GetMessageById(ms, messageId).value.Some?
    ensures r.Ok? ==> r.value in ms && r.value.id == Lower(messageId)
    ensures r == Err(Http(404)) <==> GetMessageById(ms, messageId) == Ok(None)
  {
    match GetMessageById(ms, messageId)
    case Err(e) => Err(e)
    case Ok(None) => Err(Http(404))
    case Ok(Some(m)) => Ok(m)
  }

  /** `update_message` and `remove_message`: 404, then 403 unless the caller sent it. */
  function RequireOwnMessage(ms: seq<Message>, messageId: string, userId: string): (r: Res<Message>)
    ensures r.Ok? <==> RequireMessage(ms, messageId).Ok? && RequireMessage(ms, messageId).value.senderId == userId
    ensures r.Ok? ==> r == RequireMessage(ms, messageId)
    ensures r == Err(Http(403)) <==> RequireMessage(ms, messageId).Ok? && RequireMessage(ms, messageId).value.senderId != userId
  {
    match RequireMessage(ms, messageId)
    case Err(e) => Err(e)
    case Ok(m) => if m.senderId != userId then Err(Http(403)) else Ok(m)
  }

  /** `add_message_reaction`: 404, then 403 unless the caller is in the message's chat. */
  function RequireReactor(ms: seq<Message>, cs: seq<ChatModel.Chat>, messageId: string, userId: string): (r: Res<Message>)
    ensures r.Ok? <==> RequireMessage(ms, messageId).Ok?
                       && ChatRoutes.RequireParticipant(cs, RequireMessage(ms, messageId).value.chatId, userId).Ok?
    ensures r.Ok? ==> r == RequireMessage(ms, messageId)
  {
    match RequireMessage(ms, messageId)
    case Err(e) => Err(e)
    case Ok(m) =>
      match ChatRoutes.RequireParticipant(cs, m.chatId, userId)
      case Err(e) => Err(e)
      case Ok(_) => Ok(m)
  }

  /** Removing a reaction asks only that the message exists: a user who left the chat,
      or never was in it, passes the guard that adding a reaction refuses. */
  lemma RemoveReactionSkipsMembership(ms: seq<Message>, cs: seq<ChatModel.Chat>, messageId: string, userId: string)
    requires RequireMessage(ms, messageId).Ok?
    requires ChatService.IsUserInChat(cs, RequireMessage(ms, messageId).value.chatId, userId) == Ok(false)
    ensures RequireReactor(ms, cs, messageId, userId) == Err(Http(403))
  {
  }

  // ---------------------------------------------------------------------------
  // The handlers
  // ---------------------------------------------------------------------------

  /** `send_message`: a participant's message is stored, the chat's preview updated and
      the response broadcast as `new_message`. */
  method SendMessage(messages: MessageStore, chats: ChatService.ChatStore, chatId: string, data: MessageCreate,
                     userId: string, newId: string, now: int) returns (r: Res<MessageResponse>, emitted: seq<Effect>)
    requires messages.Valid() && chats.Valid()
    requires IsCanonicalId(newId) && forall k :: 0 <= k < |messages.messages| ==> messages.messages[k].id != newId
    modifies messages, chats
    ensures messages.Valid() && chats.Valid()
    ensures ChatRoutes.RequireParticipant(old(chats.chats), chatId, userId).Err? ==>
              r.Err? && r.error == ChatRoutes.RequireParticipant(old(chats.chats), chatId, userId).error
              && emitted == [] && messages.messages == old(messages.messages) && chats.chats == old(chats.chats)
    ensures ChatRoutes.RequireParticipant(old(chats.chats), chatId, userId).Ok? ==>
              var m := NewMessage(newId, chatId, userId, data, now);
              r == Ok(ToResponse(m)) && emitted == [EmitToChat(chatId, "new_message")]
              && messages.messages == old(messages.messages) + [m]
              && chats.chats == AfterUpdate(old(chats.chats), ChatService.IdOf, chatId,
                                            c => ChatService.LastMessageRecord(c, data.content, now, now))
  {
    var guard := ChatRoutes.RequireParticipant(chats.chats, chatId, userId);
    if guard.Err? {
      return Err(guard.error), [];
    }
    var created := messages.CreateMessage(chats, chatId, userId, data, newId, now);
    r := Ok(ToResponse(created.value));
    emitted := [EmitToChat(chatId, "new_message")];
  }

  /** `update_message`: only the sender edits; the edited message goes to the room. */
  method UpdateMessage(messages: MessageStore, messageId: string, content: string, userId: string, now: int)
    returns (r: Res<MessageResponse>, emitted: seq<Effect>)
    requires messages.Valid()
    modifies messages
    ensures messages.Valid()
    ensures RequireOwnMessage(old(messages.messages), messageId, userId).Err? ==>
              r.Err? && r.error == RequireOwnMessage(old(messages.messages), messageId, userId).error
              && emitted == [] && messages.messages == old(messages.messages)
    ensures RequireOwnMessage(old(messages.messages), messageId, userId).Ok? ==>
              var m := RequireOwnMessage(old(messages.messages), messageId, userId).value;
              messages.messages == AfterUpdate(old(messages.messages), IdOf, messageId, x => EditRecord(x, content, now))
              && r == Ok(ToResponse(EditRecord(m, content, now)))
              && emitted == [EmitToChat(m.chatId, "message_updated")]
  {
    var guard := RequireOwnMessage(messages.messages, messageId, userId);
    if guard.Err? {
      return Err(guard.error), [];
    }
    var m := guard.value;
    var updated := messages.EditMessage(messageId, content, now);
    r := Ok(ToResponse(updated.value.value));
    emitted := [EmitToChat(m.chatId, "message_updated")];
  }

  /** `remove_message`: only the sender deletes (softly); the room hears `message_deleted`. */
  method RemoveMessage(messages: MessageStore, messageId: string, userId: string, now: int)
    returns (r: Res<()>, emitted: seq<Effect>)
    requires messages.Valid()
    modifies messages
    ensures messages.Valid()
    ensures RequireOwnMessage(old(messages.messages), messageId, userId).Err? ==>
              r.Err? && r.error == RequireOwnMessage(old(messages.messages), messageId, userId).error
              && emitted == [] && messages.messages == old(messages.messages)
    ensures RequireOwnMessage(old(messages.messages), messageId, userId).Ok? ==>
              messages.messages == AfterUpdate(old(messages.messages), IdOf, messageId, x => DeleteRecord(x, now))
              && r == Ok(())
              && emitted == [EmitToChat(RequireOwnMessage(old(messages.messages), messageId, userId).value.chatId, "message_deleted")]
  {
    var guard := RequireOwnMessage(messages.messages, messageId, userId);
    if guard.Err? {
      return Err(guard.error), [];
    }
    var _ := messages.DeleteMessage(messageId, now);
    r := Ok(());
    emitted := [EmitToChat(guard.value.chatId, "message_deleted")];
  }

  /** `add_message_reaction`: a participant's reaction is recorded once. */
  method AddMessageReaction(messages: MessageStore, chats: ChatService.ChatStore, messageId: string, emoji: string,
                            userId: string, now: int) returns (r: Res<MessageResponse>, emitted: seq<Effect>)
    requires messages.Valid()
    modifies messages
    ensures messages.Valid()
    ensures RequireReactor(old(messages.messages), chats.chats, messageId, userId).Err? ==>
              r.Err? && r.error == RequireReactor(old(messages.messages), chats.chats, messageId, userId).error
              && emitted == [] && messages.messages == old(messages.messages)
    ensures RequireReactor(old(messages.messages), chats.chats, messageId, userId).Ok? ==>
              var m := RequireReactor(old(messages.messages), chats.chats, messageId, userId).value;
              messages.messages == AfterUpdate(old(messages.messages), IdOf, messageId, x => AddReactionRecord(x, userId, emoji, now))
              && r == Ok(ToResponse(AddReactionRecord(m, userId, emoji, now)))
              && emitted == [EmitToChat(m.chatId, "reaction_added")]
  {
    var guard := RequireReactor(messages.messages, chats.chats, messageId, userId);
    if guard.Err? {
      return Err(guard.error), [];
    }
    var updated := messages.AddReaction(messageId, userId, emoji, now);
    r := Ok(ToResponse(updated.value.value));
    emitted := [EmitToChat(guard.value.chatId, "reaction_added")];
  }

  /** `remove_message_reaction`: any authenticated user may take their reaction off an
      existing message. */
  method RemoveMessageReaction(messages: MessageStore, messageId: string, emoji: string, userId: string, now: int)
    returns (r: Res<MessageResponse>, emitted: seq<Effect>)
    requires messages.Valid()
    modifies messages
    ensures messages.Valid()
    ensures RequireMessage(old(messages.messages), messageId).Err? ==>
              r.Err? && r.error == RequireMessage(old(messages.messages), messageId).error
              && emitted == [] && messages.messages == old(messages.messages)
    ensures RequireMessage(old(messages.messages), messageId).Ok? ==>
              var m := RequireMessage(old(messages.messages), messageId).value;
              messages.messages == AfterUpdate(old(messages.messages), IdOf, messageId, x => RemoveReactionRecord(x, userId, emoji, now))
              && r == Ok(ToResponse(RemoveReactionRecord(m, userId, emoji, now)))
              && emitted == [EmitToChat(m.chatId, "reaction_removed")]
  {
    var guard := RequireMessage(messages.messages, messageId);
    if guard.Err? {
      return Err(guard.error), [];
    }
    var updated := messages.RemoveReaction(messageId, userId, emoji, now);
    r := Ok(ToResponse(updated.value.value));
    emitted := [EmitToChat(guard.value.chatId, "reaction_removed")];
  }

  /** `mark_as_read`: a participant marks every message of the chat from others as read
      (no time bound) and the room hears how many matched. */
  method MarkAsRead(messages: MessageStore, chats: ChatService.ChatStore, chatId: string, userId: string)
    returns (r: Res<nat>, emitted: seq<Effect>)
    requires messages.Valid()
    modifies messages
    ensures messages.Valid()
    ensures ChatRoutes.RequireParticipant(chats.chats, chatId, userId).Err? ==>
              r.Err? && r.error == ChatRoutes.RequireParticipant(chats.chats, chatId, userId).error
              && emitted == [] && messages.messages == old(messages.messages)
    ensures ChatRoutes.RequireParticipant(chats.chats, chatId, userId).Ok? ==>
              messages.messages == MarkRead(old(messages.messages), chatId, userId, None)
              && r == Ok(CountMarkable(old(messages.messages), chatId, userId, None))
              && emitted == [EmitToChat(chatId, "messages_read")]
  {
    var guard := ChatRoutes.RequireParticipant(chats.chats, chatId, userId);
    if guard.Err? {
      return Err(guard.error), [];
    }
    var count := messages.MarkMessagesAsRead(chatId, userId, None);
    r := Ok(count);
    emitted := [EmitToChat(chatId, "messages_read")];
  }
}

=== FILE: message_service.dfy ===
/** The `messages` collection and its service (backend/app/services/message_service.py).
    Documents are held in natural (insertion) order; the fresh `ObjectId()` of a new
    message and every `datetime.now()` are supplied by the caller. */
module MessageService {
  import opened Common
  import opened MessageModel
  import opened Sorting
  import opened Collection
  import ChatService

  function IdOf(m: Message): string { m.id }

  /** What every stored message satisfies: a unique canonical id, and an `is_deleted`
      flag that is either missing or `True`, because the service never writes
      `False` there. */
  predicate WellFormed(ms: seq<Message>) {
    UniqueIds(ms, IdOf)
    && forall i :: 0 <= i < |ms| ==> IsCanonicalId(ms[i].id) && ms[i].isDeleted != Some(false)
  }

  /** The document `create_message` inserts: no `is_edited`, `is_deleted`, `reactions`,
      `edited_at` or `deleted_at` key, status SENT. */
  function NewMessage(id: string, chatId: string, senderId: string, data: MessageCreate, now: int): (m: Message)
    ensures m.id == id && m.chatId == chatId && m.senderId == senderId && m.content == data.content
    ensures m.status == Sent && m.messageType == data.messageType
    ensures m.isDeleted.None? && m.isEdited.None? && m.reactions == map[]
    ensures m.metadata == data.metadata && m.replyTo == data.replyTo
    ensures m.createdAt == now && m.updatedAt == now && m.editedAt.None? && m.deletedAt.None?
  {
    Message(id, chatId, senderId, data.content, data.messageType, data.replyTo, data.metadata,
            Sent, now, now, None, None, map[], None, None)
  }

  /** `get_message_by_id`: `ObjectId(message_id)` is evaluated outside the `try`, so a
      malformed id raises. */
  function GetMessageById(ms: seq<Message>, messageId: string): (r: Res<Option<Message>>)
    ensures r.Err? <==> !IsValidObjectId(messageId)
    ensures r.Ok? && r.value.Some? ==> r.value.value in ms && r.value.value.id == Lower(messageId)
    ensures r.Ok? && r.value.None? ==> forall k :: 0 <= k < |ms| ==> ms[k].id != Lower(messageId)
  {
    match FindById(ms, IdOf, messageId)
    case Err(e) => Err(e)
    case Ok(None) => Ok(None)
    case Ok(Some(k)) => Ok(Some(ms[k]))
  }

  // ---------------------------------------------------------------------------
  // Listing a chat's messages
  // ---------------------------------------------------------------------------

  /** `{"chat_id": chat_id, "is_deleted": {"$ne": True}}`: a missing flag matches. */
  predicate Listed(m: Message, chatId: string) {
    m.chatId == chatId && m.isDeleted != Some(true)
  }

  /** The `created_at` condition: `after` replaces `before` when both are given. */
  predicate InWindow(m: Message, before: Option<int>, after: Option<int>) {
    if after.Some? then m.createdAt > after.value
    else before.Some? ==> m.createdAt < before.value
  }

  predicate Selected(m: Message, chatId: string, before: Option<int>, after: Option<int>) {
    Listed(m, chatId) && InWindow(m, before, after)
  }

  function CreatedKey(m: Message): Key { Key(true, m.createdAt, 0) }

  /** `sort_order = -1 if before or not after else 1` */
  predicate FetchDescending(before: Option<int>, after: Option<int>) {
    before.Some? || after.None?
  }

  /** `find(filter).sort("created_at", order).limit(limit)`: the `limit` first selected
      messages in the sort order. */
  function Fetch(ms: seq<Message>, chatId: string, limit: nat, before: Option<int>, after: Option<int>): (r: seq<Message>)
    ensures |r| <= limit
    ensures forall i :: 0 <= i < |r| ==> r[i] in ms && Selected(r[i], chatId, before, after)
    ensures SortedBy(r, CreatedKey, FetchDescending(before, after))
    ensures |r| == limit || forall j :: 0 <= j < |ms| && Selected(ms[j], chatId, before, after) ==> ms[j] in r
  {
    var sel := Filter(ms, (m: Message) => Selected(m, chatId, before, after));
    var r := TopN(sel, CreatedKey, FetchDescending(before, after), limit);
    forall i | 0 <= i < |r| ensures r[i] in ms && Selected(r[i], chatId, before, after) {
      assert r[i] in multiset(sel);
    }
    forall j | 0 <= j < |ms| && Selected(ms[j], chatId, before, after) && |r| < limit ensures ms[j] in r {
      assert ms[j] in sel;
      MultisetSubsetSameSize(r, sel);
    }
    r
  }

  /** `get_chat_messages(chat_id, limit, before, after)`: the fetched page, reversed
      when `after` is given. */
  function ChatMessages(ms: seq<Message>, chatId: string, limit: nat, before: Option<int>, after: Option<int>): (r: seq<Message>)
    ensures |r| <= limit
    ensures forall i :: 0 <= i < |r| ==> r[i] in ms && Selected(r[i], chatId, before, after)
    ensures forall x :: x in r <==> x in Fetch(ms, chatId, limit, before, after)
  {
    var f := Fetch(ms, chatId, limit, before, after);
    ReverseSameElements(f);
    if after.Some? then Reverse(f) else f
  }

  /** The order of the page: newest first, except when both `before` and `after` are
      given, where the descending fetch is reversed into oldest first. */
  lemma ChatMessagesOrder(ms: seq<Message>, chatId: string, limit: nat, before: Option<int>, after: Option<int>)
    ensures SortedBy(ChatMessages(ms, chatId, limit, before, after), CreatedKey, !(before.Some? && after.Some?))
  {
    var f := Fetch(ms, chatId, limit, before, after);
    var r := ChatMessages(ms, chatId, limit, before, after);
    if after.Some? {
      ReverseFlipsOrder(f, CreatedKey, FetchDescending(before, after));
    }
  }

  /** No selected message that the limit leaves out lies on the wrong side of the page:
      with a descending fetch every one left out is older than each message returned,
      with an ascending fetch (`after` alone) newer. */
  lemma ChatMessagesWindow(ms: seq<Message>, chatId: string, limit: nat, before: Option<int>, after: Option<int>, i: int, j: int)
    requires 0 <= i < |ChatMessages(ms, chatId, limit, before, after)| && 0 <= j < |ms|
    requires Selected(ms[j], chatId, before, after) && ms[j] !in ChatMessages(ms, chatId, limit, before, after)
    ensures var m := ChatMessages(ms, chatId, limit, before, after)[i];
            if FetchDescending(before, after) then ms[j].createdAt <= m.createdAt else ms[j].createdAt >= m.createdAt
  {
    var sel := Filter(ms, (m: Message) => Selected(m, chatId, before, after));
    var f := Fetch(ms, chatId, limit, before, after);
    var r := ChatMessages(ms, chatId, limit, before, after);
    assert r[i] in f;
    var i' :| 0 <= i' < |f| && f[i'] == r[i];
    assert ms[j] in sel;
    var j' :| 0 <= j' < |sel| && sel[j'] == ms[j];
    TopNSelects(sel, CreatedKey, FetchDescending(before, after), limit, i', j');
  }

  /** One more in the limit fetches the same messages plus at most one: the first
      `limit` of a `limit + 1` fetch are the `limit` fetch, and the larger fetch is full
      exactly when more than `limit` messages are selected. */
  lemma FetchOneMore(ms: seq<Message>, chatId: string, limit: nat, before: Option<int>, after: Option<int>)
    ensures var f := Fetch(ms, chatId, limit + 1, before, after);
            var sel := Filter(ms, (m: Message) => Selected(m, chatId, before, after));
            (|f| > limit <==> |sel| > limit)
            && (|f| > limit ==> f[..limit] == Fetch(ms, chatId, limit, before, after))
            && (|f| <= limit ==> f == Fetch(ms, chatId, limit, before, after))
  {
    var sel := Filter(ms, (m: Message) => Selected(m, chatId, before, after));
    var sorted := SortBy(sel, CreatedKey, FetchDescending(before, after));
    assert Fetch(ms, chatId, limit + 1, before, after) == Take(sorted, limit + 1);
    assert Fetch(ms, chatId, limit, before, after) == Take(sorted, limit);
  }

  /** Distinct stored documents give a fetch without repeats. */
  lemma FetchNoDuplicates(ms: seq<Message>, chatId: string, limit: nat, before: Option<int>, after: Option<int>)
    requires WellFormed(ms)
    ensures NoDuplicates(Fetch(ms, chatId, limit, before, after))
  {
    var sel := Filter(ms, (m: Message) => Selected(m, chatId, before, after));
    assert NoDuplicates(ms) by {
      forall i, j | 0 <= i < j < |ms| ensures ms[i] != ms[j] {
        assert ms[i].id != ms[j].id;
      }
    }
    FilterNoDuplicates(ms, (m: Message) => Selected(m, chatId, before, after));
    SubmultisetNoDuplicates(Fetch(ms, chatId, limit, before, after), sel);
  }

  // ---------------------------------------------------------------------------
  // Mark as read and the unread count
  // ---------------------------------------------------------------------------

  /** The filter of `mark_messages_as_read`; it does not look at `is_deleted`. */
  predicate Markable(m: Message, chatId: string, userId: string, before: Option<int>) {
    m.chatId == chatId && m.senderId != userId && m.status != Read
    && (before.None? || m.createdAt <= before.value)
  }

  function ReadIfMarkable(m: Message, chatId: string, userId: string, before: Option<int>): (r: Message)
    ensures Markable(m, chatId, userId, before) ==> r == m.(status := Read)
    ensures !Markable(m, chatId, userId, before) ==> r == m
  {
    if Markable(m, chatId, userId, before) then m.(status := Read) else m
  }

  /** The collection after `update_many(filter, {"$set": {"status": READ}})`. */
  function MarkRead(ms: seq<Message>, chatId: string, userId: string, before: Option<int>): (r: seq<Message>)
    ensures |r| == |ms|
    ensures forall j :: 0 <= j < |ms| ==> r[j] == ReadIfMarkable(ms[j], chatId, userId, before)
    ensures forall j :: (0 <= j < |ms| && ms[j].chatId == chatId && ms[j].senderId != userId
                         && (before.None? || ms[j].createdAt <= before.value)) ==> r[j].status == Read
    ensures forall j :: 0 <= j < |ms| && (ms[j].chatId != chatId || ms[j].senderId == userId) ==> r[j] == ms[j]
  {
    seq(|ms|, j requires 0 <= j < |ms| => ReadIfMarkable(ms[j], chatId, userId, before))
  }

  lemma MarkReadKeepsShape(ms: seq<Message>, chatId: string, userId: string, before: Option<int>)
    requires WellFormed(ms)
    ensures WellFormed(MarkRead(ms, chatId, userId, before))
  {
    var r := MarkRead(ms, chatId, userId, before);
    assert forall j :: 0 <= j < |ms| ==> r[j].id == ms[j].id && r[j].isDeleted == ms[j].isDeleted;
  }

  /** How many messages the filter matches; `modified_count`. */
  function CountMarkable(ms: seq<Message>, chatId: string, userId: string, before: Option<int>): nat {
    if ms == [] then 0
    else CountMarkable(ms[..|ms| - 1], chatId, userId, before)
         + (if Markable(ms[|ms| - 1], chatId, userId, before) then 1 else 0)
  }

  /** The pass of `update_many` over the collection: each document the filter
      matches gets status READ, one by one, and the matches are counted. */
  method ScanForRead(ms: seq<Message>, chatId: string, userId: string, before: Option<int>)
    returns (next: seq<Message>, count: nat)
    ensures next == MarkRead(ms, chatId, userId, before)
    ensures count == CountMarkable(ms, chatId, userId, before)
  {
    next := [];
    count := 0;
    var i := 0;
    while i < |ms|
      invariant 0 <= i <= |ms|
      invariant |next| == i
      invariant forall j :: 0 <= j < i ==> next[j] == ReadIfMarkable(ms[j], chatId, userId, before)
      invariant count == CountMarkable(ms[..i], chatId, userId, before)
    {
      assert ms[..i + 1][..i] == ms[..i] && ms[..i + 1][i] == ms[i];
      if Markable(ms[i], chatId, userId, before) {
        next := next + [ms[i].(status := Read)];
        count := count + 1;
      } else {
        next := next + [ms[i]];
      }
      i := i + 1;
    }
    assert ms[..i] == ms;
  }

  /** How many positions hold different documents. */
  function Differences(a: seq<Message>, b: seq<Message>): nat
    requires |a| == |b|
  {
    if a == [] then 0
    else Differences(a[..|a| - 1], b[..|b| - 1]) + (if a[|a| - 1] != b[|b| - 1] then 1 else 0)
  }

  /** The count returned is the number of documents the update changed. */
  lemma {:induction false} MarkReadCountsChanges(ms: seq<Message>, chatId: string, userId: string, before: Option<int>)
    ensures Differences(ms, MarkRead(ms, chatId, userId, before)) == CountMarkable(ms, chatId, userId, before)
  {
    if ms != [] {
      var n := |ms| - 1;
      var r := MarkRead(ms, chatId, userId, before);
      assert r[..n] == MarkRead(ms[..n], chatId, userId, before);
      MarkReadCountsChanges(ms[..n], chatId, userId, before);
    }
  }

  /** Marking is idempotent: a second pass changes nothing and counts nothing. */
  lemma {:induction false} MarkReadIdempotent(ms: seq<Message>, chatId: string, userId: string, before: Option<int>)
    ensures MarkRead(MarkRead(ms, chatId, userId, before), chatId, userId, before) == MarkRead(ms, chatId, userId, before)
    ensures CountMarkable(MarkRead(ms, chatId, userId, before), chatId, userId, before) == 0
  {
    var r := MarkRead(ms, chatId, userId, before);
    NoneMarkable(r, chatId, userId, before);
  }

  lemma {:induction false} NoneMarkable(r: seq<Message>, chatId: string, userId: string, before: Option<int>)
    requires forall j :: 0 <= j < |r| ==> !Markable(r[j], chatId, userId, before)
    ensures CountMarkable(r, chatId, userId, before) == 0
  {
    if r != [] {
      NoneMarkable(r[..|r| - 1], chatId, userId, before);
    }
  }

  /** `{"chat_id", "sender_id": {"$ne": user}, "status": {"$ne": READ}}`, common to both
      count filters. */
  predicate Unread(m: Message, chatId: string, userId: string) {
    m.chatId == chatId && m.senderId != userId && m.status != Read
  }

  /** `get_unread_count` as written: `"is_deleted": False` does not match a document
      without the key, and `create_message` never writes it. */
  function UnreadCountAsWritten(ms: seq<Message>, chatId: string, userId: string): (n: nat)
    ensures n <= |ms|
  {
    |Filter(ms, (m: Message) => Unread(m, chatId, userId) && m.isDeleted == Some(false))|
  }

  /** The count with `"is_deleted": {"$ne": True}`, the condition the listing uses. */
  function UnreadCount(ms: seq<Message>, chatId: string, userId: string): (n: nat)
    ensures n <= |ms|
    ensures n == 0 <==> forall j :: 0 <= j < |ms| ==> !(Unread(ms[j], chatId, userId) && ms[j].isDeleted != Some(true))
  {
    var f := Filter(ms, (m: Message) => Unread(m, chatId, userId) && m.isDeleted != Some(true));
    assert f != [] ==> f[0] in ms;
    |f|
  }

  /** No stored document has `is_deleted == False`, so the count as written is always 0. */
  lemma UnreadCountAsWrittenIsZero(ms: seq<Message>, chatId: string, userId: string)
    requires WellFormed(ms)
    ensures UnreadCountAsWritten(ms, chatId, userId) == 0
  {
    FilterNone(ms, (m: Message) => Unread(m, chatId, userId) && m.isDeleted == Some(false));
  }

  /** One message from `b` in chat `c`, as `create_message` stores it: `a` has one
      unread message, the count as written says none. */
  lemma UnreadCountCounterexample(id: string, data: MessageCreate, now: int)
    requires IsCanonicalId(id)
    ensures var ms := [NewMessage(id, "c", "b", data, now)];
            WellFormed(ms) && UnreadCountAsWritten(ms, "c", "a") == 0 && UnreadCount(ms, "c", "a") == 1
  {
    var ms := [NewMessage(id, "c", "b", data, now)];
    UnreadCountAsWrittenIsZero(ms, "c", "a");
    assert Unread(ms[0], "c", "a");
    assert Filter(ms, (m: Message) => Unread(m, "c", "a") && m.isDeleted != Some(true)) == ms;
  }

  /** After marking the whole chat read for `user`, the corrected count is 0 for them. */
  lemma MarkReadClearsUnread(ms: seq<Message>, chatId: string, userId: string)
    ensures UnreadCount(MarkRead(ms, chatId, userId, None), chatId, userId) == 0
  {
  }

  // ---------------------------------------------------------------------------
  // Updates of one message document
  // ---------------------------------------------------------------------------

  function StatusRecord(m: Message, status: MessageStatus, now: int): (r: Message)
    ensures r.status == status && r.updatedAt == now
    ensures r == m.(status := status, updatedAt := now)
  {
    m.(status := status, updatedAt := now)
  }

  /** `edit_message`: new content, `is_edited`, `edited_at`, `updated_at`; a deleted
      message stays deleted. */
  function EditRecord(m: Message, content: string, now: int): (r: Message)
    ensures r.content == content && r.isEdited == Some(true) && r.editedAt == Some(now) && r.updatedAt == now
    ensures r.isDeleted == m.isDeleted && r.deletedAt == m.deletedAt && r.reactions == m.reactions
    ensures r.id == m.id && r.chatId == m.chatId && r.senderId == m.senderId && r.status == m.status
  {
    m.(content := content, isEdited := Some(true), editedAt := Some(now), updatedAt := now)
  }

  /** `delete_message`, a soft delete: the flag, its time and the tombstone content. */
  function DeleteRecord(m: Message, now: int): (r: Message)
    ensures r.isDeleted == Some(true) && r.deletedAt == Some(now) && r.content == TOMBSTONE
    ensures r.id == m.id && r.chatId == m.chatId && r.senderId == m.senderId && r.reactions == m.reactions
    ensures !Listed(r, m.chatId)
  {
    m.(isDeleted := Some(true), deletedAt := Some(now), content := TOMBSTONE, updatedAt := now)
  }

  /** Deleting again leaves flag and content as they were; only the times move. */
  lemma DeleteIdempotent(m: Message, t1: int, t2: int)
    ensures DeleteRecord(DeleteRecord(m, t1), t2) == DeleteRecord(m, t2)
    ensures DeleteRecord(DeleteRecord(m, t1), t2).content == DeleteRecord(m, t1).content
  {
  }

  /** `$addToSet` on `reactions.<emoji>`, creating the list when absent. */
  function AddReactionRecord(m: Message, userId: string, emoji: string, now: int): (r: Message)
    ensures emoji in r.reactions && userId in r.reactions[emoji]
    ensures forall x :: x in r.reactions[emoji] <==> x == userId || (emoji in m.reactions && x in m.reactions[emoji])
    ensures emoji in m.reactions && NoDuplicates(m.reactions[emoji]) ==> NoDuplicates(r.reactions[emoji])
    ensures forall e :: e != emoji ==> (e in r.reactions <==> e in m.reactions)
    ensures forall e :: e != emoji && e in m.reactions ==> r.reactions[e] == m.reactions[e]
    ensures r.updatedAt == now && r.id == m.id && r.content == m.content && r.isDeleted == m.isDeleted
  {
    var users := if emoji in m.reactions then m.reactions[emoji] else [];
    var users' := if userId in users then users else users + [userId];
    m.(reactions := m.reactions[emoji := users'], updatedAt := now)
  }

  /** Reacting twice is reacting once. */
  lemma AddReactionIdempotent(m: Message, userId: string, emoji: string, now: int)
    ensures AddReactionRecord(AddReactionRecord(m, userId, emoji, now), userId, emoji, now)
            == AddReactionRecord(m, userId, emoji, now)
  {
    var r := AddReactionRecord(m, userId, emoji, now);
    assert r.reactions[emoji := r.reactions[emoji]] == r.reactions;
  }

  /** `$pull` from `reactions.<emoji>`: every occurrence of the user goes, the key stays;
      nothing happens to the reactions when the key is absent. */
  function RemoveReactionRecord(m: Message, userId: string, emoji: string, now: int): (r: Message)
    ensures emoji in r.reactions ==> userId !in r.reactions[emoji]
    ensures emoji in m.reactions ==> (emoji in r.reactions
              && forall x :: x != userId ==> (x in r.reactions[emoji] <==> x in m.reactions[emoji]))
    ensures emoji !in m.reactions ==> r.reactions == m.reactions
    ensures forall e :: e != emoji ==> (e in r.reactions <==> e in m.reactions)
    ensures forall e :: e != emoji && e in m.reactions ==> r.reactions[e] == m.reactions[e]
    ensures r.updatedAt == now && r.id == m.id && r.content == m.content && r.isDeleted == m.isDeleted
  {
    if emoji in m.reactions then
      m.(reactions := m.reactions[emoji := Without(m.reactions[emoji], userId)], updatedAt := now)
    else m.(updatedAt := now)
  }

  /** Removing a reaction the user never made changes only `updated_at`. */
  lemma RemoveAbsentReaction(m: Message, userId: string, emoji: string, now: int)
    requires emoji !in m.reactions || userId !in m.reactions[emoji]
    ensures RemoveReactionRecord(m, userId, emoji, now) == m.(updatedAt := now)
  {
    if emoji in m.reactions {
      WithoutAbsent(m.reactions[emoji], userId);
      assert m.reactions[emoji := m.reactions[emoji]] == m.reactions;
    }
  }

  lemma {:induction false} WithoutAbsent(s: seq<string>, v: string)
    requires v !in s
    ensures Without(s, v) == s
  {
    if s != [] {
      WithoutAbsent(s[1..], v);
      assert s == [s[0]] + s[1..];
    }
  }

  /** Adding then removing a reaction leaves the user out of that emoji's list. */
  lemma AddThenRemoveReaction(m: Message, userId: string, emoji: string, t1: int, t2: int)
    ensures var r := RemoveReactionRecord(AddReactionRecord(m, userId, emoji, t1), userId, emoji, t2);
            emoji in r.reactions && userId !in r.reactions[emoji]
            && forall x :: x != userId ==> (x in r.reactions[emoji] <==> emoji in m.reactions && x in m.reactions[emoji])
  {
  }

  class MessageStore {
    var messages: seq<Message>

    ghost predicate Valid()
      reads this
    {
      WellFormed(messages)
    }

    constructor ()
      ensures Valid() && messages == []
    {
      messages := [];
    }

    /** `create_message`: the insert, then the chat's last-message update. When the
        chat id is malformed that update raises, after the message was stored. */
    method CreateMessage(chats: ChatService.ChatStore, chatId: string, senderId: string, data: MessageCreate,
                         newId: string, now: int) returns (r: Res<Message>)
      requires Valid() && chats.Valid()
      requires IsCanonicalId(newId) && forall k :: 0 <= k < |messages| ==> messages[k].id != newId
      modifies this, chats
      ensures Valid() && chats.Valid()
      ensures messages == old(messages) + [NewMessage(newId, chatId, senderId, data, now)]
      ensures chats.chats == AfterUpdate(old(chats.chats), ChatService.IdOf, chatId,
                                                     c => ChatService.LastMessageRecord(c, data.content, now, now))
      ensures r.Err? <==> !IsValidObjectId(chatId)
      ensures r.Ok? ==> r.value == NewMessage(newId, chatId, senderId, data, now)
    {
      var m := NewMessage(newId, chatId, senderId, data, now);
      messages := messages + [m];
      var u := chats.UpdateLastMessage(chatId, data.content, now, now);
      r := if u.Err? then Err(u.error) else Ok(m);
    }

    /** `get_chat_messages`: the fetched page, reversed in place when `after` is given. */
    method GetChatMessages(chatId: string, limit: nat, before: Option<int>, after: Option<int>) returns (r: seq<Message>)
      ensures r == ChatMessages(messages, chatId, limit, before, after)
    {
      r := Fetch(messages, chatId, limit, before, after);
      if after.Some? {
        var page := r;
        var a := new Message[|page|](i requires 0 <= i < |page| => page[i]);
        assert a[..] == page;
        ReverseInPlace(a);
        r := a[..];
      }
    }

    /** `mark_messages_as_read`: the matching documents get status READ; the result is
        how many matched. */
    method MarkMessagesAsRead(chatId: string, userId: string, before: Option<int>) returns (count: nat)
      requires Valid()
      modifies this
      ensures Valid()
      ensures messages == MarkRead(old(messages), chatId, userId, before)
      ensures count == CountMarkable(old(messages), chatId, userId, before)
    {
      var next;
      next, count := ScanForRead(messages, chatId, userId, before);
      MarkReadKeepsShape(messages, chatId, userId, before);
      messages := next;
    }

    method UpdateOne(messageId: string, f: Message -> Message) returns (r: Res<Option<Message>>)
      requires Valid()
      requires forall m :: f(m).id == m.id && (m.isDeleted != Some(false) ==> f(m).isDeleted != Some(false))
      modifies this
      ensures Valid()
      ensures UpdatedById(old(messages), messages, IdOf, messageId, f, r)
    {
      UpdateKeepsIds(messages, IdOf, messageId, f);
      var next := UpdateById(messages, IdOf, messageId, f);
      messages, r := next.0, next.1;
    }

    method UpdateMessageStatus(messageId: string, status: MessageStatus, now: int) returns (r: Res<Option<Message>>)
      requires Valid()
      modifies this
      ensures Valid()
      ensures UpdatedById(old(messages), messages, IdOf, messageId, m => StatusRecord(m, status, now), r)
    {
      r := UpdateOne(messageId, m => StatusRecord(m, status, now));
    }

    method EditMessage(messageId: string, content: string, now: int) returns (r: Res<Option<Message>>)
      requires Valid()
      modifies this
      ensures Valid()
      ensures UpdatedById(old(messages), messages, IdOf, messageId, m => EditRecord(m, content, now), r)
    {
      r := UpdateOne(messageId, m => EditRecord(m, content, now));
    }

    method DeleteMessage(messageId: string, now: int) returns (r: Res<Option<Message>>)
      requires Valid()
      modifies this
      ensures Valid()
      ensures UpdatedById(old(messages), messages, IdOf, messageId, m => DeleteRecord(m, now), r)
    {
      r := UpdateOne(messageId, m => DeleteRecord(m, now));
    }

    method AddReaction(messageId: string, userId: string, emoji: string, now: int) returns (r: Res<Option<Message>>)
      requires Valid()
      modifies this
      ensures Valid()
      ensures UpdatedById(old(messages), messages, IdOf, messageId, m => AddReactionRecord(m, userId, emoji, now), r)
    {
      r := UpdateOne(messageId, m => AddReactionRecord(m, userId, emoji, now));
    }

    method RemoveReaction(messageId: string, userId: string, emoji: string, now: int) returns (r: Res<Option<Message>>)
      requires Valid()
      modifies this
      ensures Valid()
      ensures UpdatedById(old(messages), messages, IdOf, messageId, m => RemoveReactionRecord(m, userId, emoji, now), r)
    {
      r := UpdateOne(messageId, m => RemoveReactionRecord(m, userId, emoji, now));
    }
  }
}

=== FILE: security.dfy ===
/** Password strength rules (backend/app/utils/security.py), driven by the four
    password settings of backend/app/config.py. Hashing and checking with bcrypt are
    not part of this model. */
module Security {
  import opened Common

  /** The `PASSWORD_*` settings. */
  datatype PasswordSettings = PasswordSettings(
    minLength: int,
    requireUppercase: bool,
    requireDigits: bool,
    requireSpecial: bool)

  /** The values the settings class declares. */
  const DEFAULT_SETTINGS: PasswordSettings := PasswordSettings(8, true, true, true)

  /** The characters of the regular expression class `[!@#$%^&*(),.?":{}|<>]`. */
  const SPECIAL_CHARACTERS: string := "!@#$%^&*(),.?\":{}|<>"

  predicate HasUppercase(p: string) { exists i :: 0 <= i < |p| && IsAsciiUpper(p[i]) }
  predicate HasDigit(p: string) { exists i :: 0 <= i < |p| && IsDigit(p[i]) }
  predicate HasSpecial(p: string) { exists i :: 0 <= i < |p| && p[i] in SPECIAL_CHARACTERS }

  function LengthMessage(minLength: int): string {
    "Password must be at least " + IntToString(minLength) + " characters"
  }
  const UPPERCASE_MESSAGE: string := "Password must contain at least one uppercase letter"
  const DIGIT_MESSAGE: string := "Password must contain at least one digit"
  const SPECIAL_MESSAGE: string := "Password must contain at least one special character"

  /** The position of each message in the fixed order of the checks, or 4 for a
      string that is none of them. */
  function Rank(minLength: int, m: string): nat {
    if m == LengthMessage(minLength) then 0
    else if m == UPPERCASE_MESSAGE then 1
    else if m == DIGIT_MESSAGE then 2
    else if m == SPECIAL_MESSAGE then 3
    else 4
  }

  /** The four messages are pairwise different, so each failed check is visible in
      the list on its own. */
  lemma MessagesDistinct(minLength: int)
    ensures Rank(minLength, LengthMessage(minLength)) == 0
    ensures Rank(minLength, UPPERCASE_MESSAGE) == 1
    ensures Rank(minLength, DIGIT_MESSAGE) == 2
    ensures Rank(minLength, SPECIAL_MESSAGE) == 3
  {
    var l := LengthMessage(minLength);
    assert l[14] == 'b';
    assert UPPERCASE_MESSAGE[14] == 'c' && DIGIT_MESSAGE[14] == 'c' && SPECIAL_MESSAGE[14] == 'c';
    assert UPPERCASE_MESSAGE[35] == 'u' && DIGIT_MESSAGE[35] == 'd' && SPECIAL_MESSAGE[35] == 's';
  }

  /** `get_password_requirements()`: the dictionary the API shows a client. */
  datatype PasswordRequirements = PasswordRequirements(
    minLength: int,
    requireUppercase: bool,
    requireDigits: bool,
    requireSpecial: bool)

  function GetPasswordRequirements(s: PasswordSettings): (r: PasswordRequirements)
    ensures r.minLength == s.minLength
    ensures r.requireUppercase == s.requireUppercase && r.requireDigits == s.requireDigits
    ensures r.requireSpecial == s.requireSpecial
  {
    PasswordRequirements(s.minLength, s.requireUppercase, s.requireDigits, s.requireSpecial)
  }

  /** A password meets the requirements a client was shown. */
  predicate Meets(req: PasswordRequirements, p: string) {
    |p| >= req.minLength
    && (req.requireUppercase ==> HasUppercase(p))
    && (req.requireDigits ==> HasDigit(p))
    && (req.requireSpecial ==> HasSpecial(p))
  }

  /** The messages in `errors` come in the order of the checks and all from checks
      ranked below `k`. */
  predicate OrderedBelow(minLength: int, errors: seq<string>, k: nat) {
    (forall i :: 0 <= i < |errors| ==> Rank(minLength, errors[i]) < k)
    && (forall i, j :: 0 <= i < j < |errors| ==> Rank(minLength, errors[i]) < Rank(minLength, errors[j]))
  }

  /** One step of the check list: append `m`, ranked `k`, when its check failed. */
  function AppendIf(minLength: int, errors: seq<string>, failed: bool, m: string, k: nat): (r: seq<string>)
    requires OrderedBelow(minLength, errors, k) && Rank(minLength, m) == k
    ensures OrderedBelow(minLength, r, k + 1)
    ensures m in r <==> failed
    ensures forall x :: x != m ==> (x in r <==> x in errors)
    ensures |r| <= |errors| + 1
  {
    if failed then errors + [m] else errors
  }

  /** `validate_password_strength(password)`: one error per failed check, appended in
      the order length, uppercase, digit, special; valid exactly when no check failed,
      which is exactly when the password meets the published requirements. */
  method ValidatePasswordStrength(s: PasswordSettings, password: string) returns (isValid: bool, errors: seq<string>)
    ensures LengthMessage(s.minLength) in errors <==> |password| < s.minLength
    ensures UPPERCASE_MESSAGE in errors <==> s.requireUppercase && !HasUppercase(password)
    ensures DIGIT_MESSAGE in errors <==> s.requireDigits && !HasDigit(password)
    ensures SPECIAL_MESSAGE in errors <==> s.requireSpecial && !HasSpecial(password)
    ensures forall i :: 0 <= i < |errors| ==> Rank(s.minLength, errors[i]) < 4
    ensures forall i, j :: 0 <= i < j < |errors| ==> Rank(s.minLength, errors[i]) < Rank(s.minLength, errors[j])
    ensures |errors| <= 4
    ensures isValid <==> errors == []
    ensures isValid <==> Meets(GetPasswordRequirements(s), password)
  {
    var m := s.minLength;
    MessagesDistinct(m);
    errors := [];
    errors := AppendIf(m, errors, |password| < m, LengthMessage(m), 0);
    errors := AppendIf(m, errors, s.requireUppercase && !HasUppercase(password), UPPERCASE_MESSAGE, 1);
    errors := AppendIf(m, errors, s.requireDigits && !HasDigit(password), DIGIT_MESSAGE, 2);
    errors := AppendIf(m, errors, s.requireSpecial && !HasSpecial(password), SPECIAL_MESSAGE, 3);
    isValid := |errors| == 0;
  }
}

=== FILE: sorting.dfy ===
/** The ordering a MongoDB cursor applies with `.sort(...)`: documents ordered by a
    sort key, ascending or descending, ties in no promised order. The model sorts by
    insertion, which is one of the orders the database may return. */
module Sorting {
  import opened Common

  /** A sort key: an optional primary field (a missing or null value sorts below every
      present one, as in MongoDB) and a secondary field that breaks ties. */
  datatype Key = Key(present: bool, primary: int, secondary: int)

  predicate KeyLe(a: Key, b: Key) {
    if a.present != b.present then !a.present
    else if a.primary != b.primary then a.primary < b.primary
    else a.secondary <= b.secondary
  }

  /** `a` may come before `b` in a sort with this direction (`-1` is descending). */
  predicate InOrder(a: Key, b: Key, descending: bool) {
    if descending then KeyLe(b, a) else KeyLe(a, b)
  }

  lemma KeyLeIsTotalPreorder(a: Key, b: Key, c: Key)
    ensures KeyLe(a, a)
    ensures KeyLe(a, b) || KeyLe(b, a)
    ensures KeyLe(a, b) && KeyLe(b, c) ==> KeyLe(a, c)
  {
  }

  predicate SortedBy<T>(s: seq<T>, key: T -> Key, descending: bool) {
    forall i, j :: 0 <= i < j < |s| ==> InOrder(key(s[i]), key(s[j]), descending)
  }

  /** Putting an item that may precede the head in front keeps a sorted list sorted. */
  lemma FrontSorted<T>(x: T, s: seq<T>, key: T -> Key, descending: bool)
    requires s != [] && InOrder(key(x), key(s[0]), descending)
    ensures SortedBy(s, key, descending) ==> SortedBy([x] + s, key, descending)
  {
    var r := [x] + s;
    if SortedBy(s, key, descending) {
      forall i, j | 0 <= i < j < |r| ensures InOrder(key(r[i]), key(r[j]), descending) {
        if i == 0 && j > 1 {
          KeyLeIsTotalPreorder(key(x), key(s[0]), key(s[j - 1]));
          KeyLeIsTotalPreorder(key(s[j - 1]), key(s[0]), key(x));
        }
      }
    }
  }

  /** The head of a sorted list stays first when the item goes further in, because
      the head may precede both the item and the rest of the list. */
  lemma ConsSorted<T>(x: T, s: seq<T>, t: seq<T>, key: T -> Key, descending: bool)
    requires s != [] && !InOrder(key(x), key(s[0]), descending)
    requires multiset(t) == multiset(s[1..]) + multiset{x}
    ensures SortedBy(s, key, descending) && SortedBy(t, key, descending) ==> SortedBy([s[0]] + t, key, descending)
  {
    var r := [s[0]] + t;
    if SortedBy(s, key, descending) && SortedBy(t, key, descending) {
      forall i, j | 0 <= i < j < |r| ensures InOrder(key(r[i]), key(r[j]), descending) {
        if i == 0 {
          var y := t[j - 1];
          assert y in multiset(t);
          if y == x {
            KeyLeIsTotalPreorder(key(x), key(s[0]), key(x));
          } else {
            assert y in multiset(s[1..]);
            var k :| 0 <= k < |s[1..]| && s[1..][k] == y;
            assert s[k + 1] == y;
          }
        }
      }
    }
  }

  function Insert<T>(x: T, s: seq<T>, key: T -> Key, descending: bool): (r: seq<T>)
    ensures |r| == |s| + 1
    ensures multiset(r) == multiset(s) + multiset{x}
    ensures SortedBy(s, key, descending) ==> SortedBy(r, key, descending)
  {
    if s == [] then [x]
    else if InOrder(key(x), key(s[0]), descending) then
      FrontSorted(x, s, key, descending);
      [x] + s
    else
      var t := Insert(x, s[1..], key, descending);
      assert s == [s[0]] + s[1..];
      ConsSorted(x, s, t, key, descending);
      [s[0]] + t
  }

  /** Insertion sort: a permutation of `s` in the requested order. */
  function SortBy<T>(s: seq<T>, key: T -> Key, descending: bool): (r: seq<T>)
    ensures |r| == |s|
    ensures multiset(r) == multiset(s)
    ensures SortedBy(r, key, descending)
  {
    if s == [] then []
    else
      assert s == [s[0]] + s[1..];
      Insert(s[0], SortBy(s[1..], key, descending), key, descending)
  }

  /** Reversing a list sorted one way sorts it the other way. */
  lemma {:induction false} ReverseFlipsOrder<T>(s: seq<T>, key: T -> Key, descending: bool)
    requires SortedBy(s, key, descending)
    ensures SortedBy(Reverse(s), key, !descending)
  {
    var r := Reverse(s);
    forall i, j | 0 <= i < j < |r| ensures InOrder(key(r[i]), key(r[j]), !descending) {
      assert InOrder(key(s[|s| - 1 - j]), key(s[|s| - 1 - i]), descending);
    }
  }

  /** `find(...).sort(...).limit(n)`: the first `n` items in the requested order. */
  function TopN<T>(s: seq<T>, key: T -> Key, descending: bool, n: nat): (r: seq<T>)
    ensures |r| == if n < |s| then n else |s|
    ensures multiset(r) <= multiset(s)
    ensures SortedBy(r, key, descending)
  {
    var sorted := SortBy(s, key, descending);
    var r := Take(sorted, n);
    assert sorted == r + sorted[|r|..];
    assert multiset(sorted) == multiset(r) + multiset(sorted[|r|..]);
    r
  }

  /** Every item that the limit leaves out comes no earlier in the sort order than any
      item returned: the query returns the top `n`. */
  lemma {:induction false} TopNSelects<T>(s: seq<T>, key: T -> Key, descending: bool, n: nat, i: int, j: int)
    requires 0 <= i < |TopN(s, key, descending, n)| && 0 <= j < |s|
    requires s[j] !in TopN(s, key, descending, n)
    ensures InOrder(key(TopN(s, key, descending, n)[i]), key(s[j]), descending)
  {
    var sorted := SortBy(s, key, descending);
    var r := TopN(s, key, descending, n);
    assert r == sorted[..|r|];
    assert s[j] in multiset(s);
    assert s[j] in multiset(sorted);
    var k :| 0 <= k < |sorted| && sorted[k] == s[j];
    assert k >= |r|;
    assert r[i] == sorted[i];
  }

  /** A sub-multiset of the same size is the whole multiset. */
  lemma MultisetSubsetSameSize<T>(a: seq<T>, b: seq<T>)
    requires multiset(a) <= multiset(b) && |a| == |b|
    ensures multiset(a) == multiset(b)
    ensures forall i :: 0 <= i < |b| ==> b[i] in a
  {
    var d := multiset(b) - multiset(a);
    assert multiset(b) == multiset(a) + d;
    assert |multiset(b)| == |multiset(a)| + |d|;
    assert d == multiset{};
    forall i | 0 <= i < |b| ensures b[i] in a {
      assert b[i] in multiset(b);
    }
  }
}

=== FILE: user_model.dfy ===
/** The user schema (backend/app/models/user.py): the username validator, the
    field bounds of registration and login, and the stored user document. */
module UserModel {
  import opened Common

  const USERNAME_MIN_LENGTH: nat := 3
  const USERNAME_MAX_LENGTH: nat := 50
  const FULL_NAME_MAX_LENGTH: nat := 100
  const BIO_MAX_LENGTH: nat := 1000
  const PASSWORD_MIN_LENGTH: nat := 8
  const PASSWORD_MAX_LENGTH: nat := 128

  /** `v.replace("_", "")` */
  function DropUnderscores(s: string): (r: string)
    ensures '_' !in r
    ensures |r| <= |s|
    ensures forall c :: c in r <==> c in s && c != '_'
  {
    if s == [] then []
    else if s[0] == '_' then DropUnderscores(s[1..])
    else [s[0]] + DropUnderscores(s[1..])
  }

  /** `str.isalnum()`: non-empty, every character a letter or a digit. */
  predicate IsAlnumString(s: string) {
    |s| > 0 && forall i :: 0 <= i < |s| ==> IsAlnum(s[i])
  }

  /** `UserBase.validate_username` (a before-validator), then the 3..50 bound on
      the value it returns. */
  function ValidateUsername(v: string): (r: Res<string>)
    ensures r.Ok? ==> Strip(v) != "" && IsAlnumString(DropUnderscores(v))
    ensures r.Ok? ==> r.value == Lower(Strip(v))
    ensures r.Ok? <==> Strip(v) != "" && IsAlnumString(DropUnderscores(v))
                       && USERNAME_MIN_LENGTH <= |Strip(v)| <= USERNAME_MAX_LENGTH
  {
    if Strip(v) == "" then Err(ValueError("Username cannot be empty"))
    else if !IsAlnumString(DropUnderscores(v)) then
      Err(ValueError("Username can only contain letters, numbers and underscores"))
    else
      var u := Lower(Strip(v));
      if |u| < USERNAME_MIN_LENGTH || |u| > USERNAME_MAX_LENGTH then Err(ValueError("username: length"))
      else Ok(u)
  }

  /** A username made only of letters, digits and underscores. */
  predicate UsernameChars(s: string) {
    forall i :: 0 <= i < |s| ==> IsAlnum(s[i]) || s[i] == '_'
  }

  lemma {:induction false} AlnumAfterDrop(s: string)
    requires IsAlnumString(DropUnderscores(s))
    ensures UsernameChars(s)
  {
    forall i | 0 <= i < |s| ensures IsAlnum(s[i]) || s[i] == '_' {
      if s[i] != '_' {
        assert s[i] in DropUnderscores(s);
      }
    }
  }

  /** An accepted username is the input lower-cased: the check runs on the raw
      string, so it admits no whitespace and `strip()` has nothing to remove. A value
      with a leading or trailing space is therefore refused, and validating the result
      again accepts it unchanged. */
  lemma UsernameIsLowered(v: string)
    ensures ValidateUsername(v).Ok? ==> ValidateUsername(v).value == Lower(v) && UsernameChars(Lower(v))
    ensures |v| > 0 && (IsSpace(v[0]) || IsSpace(v[|v| - 1])) ==> ValidateUsername(v).Err?
    ensures ValidateUsername(v).Ok? ==> ValidateUsername(ValidateUsername(v).value) == ValidateUsername(v)
  {
    if IsAlnumString(DropUnderscores(v)) {
      AlnumAfterDrop(v);
      assert forall i :: 0 <= i < |v| ==> !IsSpace(v[i]);
      StripUnchanged(v);
      var u := Lower(v);
      LowerIdempotent(v);
      assert UsernameChars(u);
      assert forall i :: 0 <= i < |u| ==> !IsSpace(u[i]);
      StripUnchanged(u);
      UnderscoresOfLower(v);
    }
  }

  /** Lower-casing leaves the underscores where they are and keeps every other
      character alphanumeric. */
  lemma {:induction false} UnderscoresOfLower(v: string)
    requires IsAlnumString(DropUnderscores(v))
    ensures IsAlnumString(DropUnderscores(Lower(v)))
  {
    AlnumAfterDrop(v);
    var d := DropUnderscores(Lower(v));
    forall i | 0 <= i < |d| ensures IsAlnum(d[i]) {
      assert d[i] in Lower(v);
    }
    var j :| 0 <= j < |v| && v[j] != '_' by {
      var d0 := DropUnderscores(v)[0];
      assert d0 in v;
    }
    assert Lower(v)[j] != '_';
    assert Lower(v)[j] in d;
  }

  /** A `UserCreate` that passed validation. */
  datatype UserCreate = UserCreate(
    username: string,
    email: string,
    fullName: Option<string>,
    avatar: Option<string>,
    bio: Option<string>,
    password: string)

  function ValidateUserCreate(username: string, email: string, fullName: Option<string>,
                              avatar: Option<string>, bio: Option<string>, password: string): (r: Res<UserCreate>)
    ensures r.Ok? <==> ValidateUsername(username).Ok?
                       && (fullName.Some? ==> 1 <= |fullName.value| <= FULL_NAME_MAX_LENGTH)
                       && (bio.Some? ==> |bio.value| <= BIO_MAX_LENGTH)
                       && PASSWORD_MIN_LENGTH <= |password| <= PASSWORD_MAX_LENGTH
    ensures r.Ok? ==> r.value.username == ValidateUsername(username).value && r.value.email == email
                      && r.value.password == password && r.value.fullName == fullName
                      && r.value.avatar == avatar && r.value.bio == bio
  {
    match ValidateUsername(username)
    case Err(e) => Err(e)
    case Ok(u) =>
      if fullName.Some? && !(1 <= |fullName.value| <= FULL_NAME_MAX_LENGTH) then Err(ValueError("full_name: length"))
      else if bio.Some? && |bio.value| > BIO_MAX_LENGTH then Err(ValueError("bio: length"))
      else if !(PASSWORD_MIN_LENGTH <= |password| <= PASSWORD_MAX_LENGTH) then Err(ValueError("password: length"))
      else Ok(UserCreate(u, email, fullName, avatar, bio, password))
  }

  /** `UserLogin`: the password bound, then `require_email_or_username`, which
      refuses a request where both are missing or empty. */
  function ValidateUserLogin(email: Option<string>, username: Option<string>, password: string): (r: Res<()>)
    ensures r.Ok? <==> PASSWORD_MIN_LENGTH <= |password| <= PASSWORD_MAX_LENGTH && (Truthy(email) || Truthy(username))
  {
    if !(PASSWORD_MIN_LENGTH <= |password| <= PASSWORD_MAX_LENGTH) then Err(ValueError("password: length"))
    else if !Truthy(email) && !Truthy(username) then Err(ValueError("Either email or username is required"))
    else Ok(())
  }

  /** `UserUpdate`: every field optional, no validator (the username is not lowered). */
  datatype UserUpdate = UserUpdate(
    firstName: Option<string>,
    lastName: Option<string>,
    avatar: Option<string>,
    bio: Option<string>,
    username: Option<string>)

  const UPDATE_NAME_MAX_LENGTH: nat := 100
  const UPDATE_BIO_MAX_LENGTH: nat := 500

  /** The field bounds of `UserUpdate`: names up to 100 characters, a bio up to 500,
      a username of 3..50 characters that is neither stripped nor lower-cased. */
  function ValidateUserUpdate(u: UserUpdate): (r: Res<UserUpdate>)
    ensures r.Ok? <==> (u.firstName.Some? ==> |u.firstName.value| <= UPDATE_NAME_MAX_LENGTH)
                       && (u.lastName.Some? ==> |u.lastName.value| <= UPDATE_NAME_MAX_LENGTH)
                       && (u.bio.Some? ==> |u.bio.value| <= UPDATE_BIO_MAX_LENGTH)
                       && (u.username.Some? ==> USERNAME_MIN_LENGTH <= |u.username.value| <= USERNAME_MAX_LENGTH)
    ensures r.Ok? ==> r.value == u
  {
    if u.firstName.Some? && |u.firstName.value| > UPDATE_NAME_MAX_LENGTH then Err(ValueError("first_name: length"))
    else if u.lastName.Some? && |u.lastName.value| > UPDATE_NAME_MAX_LENGTH then Err(ValueError("last_name: length"))
    else if u.bio.Some? && |u.bio.value| > UPDATE_BIO_MAX_LENGTH then Err(ValueError("bio: length"))
    else if u.username.Some? && !(USERNAME_MIN_LENGTH <= |u.username.value| <= USERNAME_MAX_LENGTH) then
      Err(ValueError("username: length"))
    else Ok(u)
  }

  /** A document of the `users` collection. */
  datatype User = User(
    id: string,
    username: string,
    email: string,
    passwordHash: string,
    firstName: Option<string>,
    lastName: Option<string>,
    avatar: Option<string>,
    bio: Option<string>,
    isActive: bool,
    isOnline: bool,
    createdAt: int,
    updatedAt: int,
    lastSeen: Option<int>)

  /** A user document read with the projection `{"password_hash": 0}`: the type has
      no place for the hash. */
  datatype PublicUser = PublicUser(
    id: string,
    username: string,
    email: string,
    firstName: Option<string>,
    lastName: Option<string>,
    avatar: Option<string>,
    bio: Option<string>,
    isActive: bool,
    isOnline: bool,
    createdAt: int,
    updatedAt: int,
    lastSeen: Option<int>)

  function WithoutHash(u: User): (p: PublicUser)
    ensures p.id == u.id && p.username == u.username && p.email == u.email
    ensures p.isOnline == u.isOnline && p.lastSeen == u.lastSeen && p.isActive == u.isActive
  {
    PublicUser(u.id, u.username, u.email, u.firstName, u.lastName, u.avatar, u.bio,
               u.isActive, u.isOnline, u.createdAt, u.updatedAt, u.lastSeen)
  }

  /** The `User` model with its status fields left to their defaults. */
  function UserDefaults(id: string, username: string, email: string, passwordHash: string, now: int): (u: User)
    ensures u.isActive && !u.isOnline && u.lastSeen.None?
  {
    User(id, username, email, passwordHash, None, None, None, None, true, false, now, now, None)
  }
}

=== FILE: user_service.dfy ===
/** The `users` collection and its service (backend/app/services/user_service.py). The
    collection carries the unique indexes on `email` and `username` that
    backend/app/database.py creates; bcrypt hashing and the `$regex` match of the search
    are parameters. */
module UserService {
  import opened Common
  import opened UserModel
  import opened Collection

  function IdOf(u: User): string { u.id }

  /** What every stored user satisfies: a unique canonical id, and an email and a
      username no other user has (the unique indexes). */
  predicate WellFormed(us: seq<User>) {
    UniqueIds(us, IdOf)
    && (forall i :: 0 <= i < |us| ==> IsCanonicalId(us[i].id))
    && (forall i, j :: 0 <= i < j < |us| ==> us[i].email != us[j].email && us[i].username != us[j].username)
  }

  // ---------------------------------------------------------------------------
  // Creation
  // ---------------------------------------------------------------------------

  predicate NotSpace(c: char) { !IsSpace(c) }

  /** `t.split(None, 1)` of a stripped, non-empty `t`: the first word, and the rest
      after the whitespace that follows it, if any. */
  function SplitFirstWord(t: string): (r: (string, Option<string>))
    requires t != [] && !IsSpace(t[0]) && !IsSpace(t[|t| - 1])
    ensures r.0 != "" && forall i :: 0 <= i < |r.0| ==> !IsSpace(r.0[i])
    ensures r.1.Some? ==> r.1.value != "" && !IsSpace(r.1.value[0]) && !IsSpace(r.1.value[|r.1.value| - 1])
  {
    match FirstIndex(t, IsSpace)
    case None => (t, None)
    case Some(k) =>
      match FirstIndex(t[k..], NotSpace)
      case None =>
        assert NotSpace(t[k..][|t| - 1 - k]);
        assert false;
        (t, None)
      case Some(j) => (t[..k], Some(t[k + j..]))
  }

  /** The two pieces put back together with the whitespace between them are the
      string split. */
  lemma SplitFirstWordRejoins(t: string)
    requires t != [] && !IsSpace(t[0]) && !IsSpace(t[|t| - 1])
    ensures SplitFirstWord(t).1.None? ==> SplitFirstWord(t).0 == t
    ensures SplitFirstWord(t).1.Some? ==>
              exists w :: w != "" && (forall i :: 0 <= i < |w| ==> IsSpace(w[i]))
                          && t == SplitFirstWord(t).0 + w + SplitFirstWord(t).1.value
  {
    var r := SplitFirstWord(t);
    match FirstIndex(t, IsSpace)
    case None =>
    case Some(k) =>
      assert NotSpace(t[k..][|t| - 1 - k]);
      var j := FirstIndex(t[k..], NotSpace).value;
      var w := t[k..k + j];
      assert r == (t[..k], Some(t[k + j..]));
      assert w != "" && forall i :: 0 <= i < |w| ==> IsSpace(w[i]) by {
        assert j != 0;
      }
      assert t == t[..k] + w + t[k + j..];
  }

  /** `full_name.strip().split(None, 1) if full_name else []`, then `first_name` is the
      first piece and `last_name` the second, or `None`. */
  function SplitFullName(fullName: Option<string>): (r: (Option<string>, Option<string>))
    ensures r.0.None? ==> r.1.None?
    ensures r.0.None? <==> !Truthy(fullName) || Strip(fullName.value) == ""
    ensures r.0.Some? ==> var t := Strip(fullName.value); r == (Some(SplitFirstWord(t).0), SplitFirstWord(t).1)
  {
    if !Truthy(fullName) then (None, None)
    else
      var t := Strip(fullName.value);
      if t == "" then (None, None)
      else
        var (first, rest) := SplitFirstWord(t);
        (Some(first), rest)
  }

  /** The document `create_user` inserts, lower-cased, status fields at their defaults. */
  function NewUser(id: string, data: UserCreate, hash: string -> string, now: int): (u: User)
    ensures u.id == id && u.username == Lower(data.username) && u.email == Lower(data.email)
    ensures u.passwordHash == hash(data.password)
    ensures (u.firstName, u.lastName) == SplitFullName(data.fullName)
    ensures u.isActive && !u.isOnline && u.lastSeen.None?
    ensures u.avatar == data.avatar && u.bio == data.bio && u.createdAt == now && u.updatedAt == now
  {
    var (first, last) := SplitFullName(data.fullName);
    User(id, Lower(data.username), Lower(data.email), hash(data.password), first, last,
         data.avatar, data.bio, true, false, now, now, None)
  }

  /** Some user has this email, compared as stored. */
  predicate EmailTaken(us: seq<User>, email: string) {
    FirstIndex(us, (u: User) => u.email == email).Some?
  }

  predicate UsernameTaken(us: seq<User>, username: string) {
    FirstIndex(us, (u: User) => u.username == username).Some?
  }

  /** `create_user` as written: the existence checks compare the request's email as
      given with the lower-cased stored emails, so an address differing only in case
      passes the check, and the unique index then refuses the insert. */
  function PlanCreateUserAsWritten(us: seq<User>, data: UserCreate, newId: string, hash: string -> string, now: int): (r: Res<User>)
    ensures r.Ok? ==> r.value == NewUser(newId, data, hash, now)
    ensures EmailTaken(us, data.email) || UsernameTaken(us, data.username) ==> r == Err(Http(400))
  {
    if EmailTaken(us, data.email) || UsernameTaken(us, data.username) then Err(Http(400))
    else
      var doc := NewUser(newId, data, hash, now);
      if EmailTaken(us, doc.email) || UsernameTaken(us, doc.username) then Err(DuplicateKey)
      else Ok(doc)
  }

  /** `create_user` with the checks made on the values that will be stored: an email
      or username already in use is refused with 400 before any insert, and the insert
      never meets the unique index. */
  function PlanCreateUser(us: seq<User>, data: UserCreate, newId: string, hash: string -> string, now: int): (r: Res<User>)
    ensures r.Err? <==> EmailTaken(us, Lower(data.email)) || UsernameTaken(us, Lower(data.username))
    ensures r.Err? ==> r.error == Http(400)
    ensures r.Ok? ==> r.value == NewUser(newId, data, hash, now)
                      && forall k :: 0 <= k < |us| ==> us[k].email != r.value.email && us[k].username != r.value.username
  {
    if EmailTaken(us, Lower(data.email)) || UsernameTaken(us, Lower(data.username)) then Err(Http(400))
    else Ok(NewUser(newId, data, hash, now))
  }

  /** The as-written check lets an existing address through when its case differs: the
      request ends in the index's DuplicateKey where the corrected check answers 400. */
  lemma CreateUserEmailCaseCounterexample(existing: User, data: UserCreate, newId: string, hash: string -> string, now: int)
    requires existing.email == "alice@example.com" && existing.username == "alice"
    requires data.email == "Alice@example.com" && data.username == "bob"
    ensures PlanCreateUserAsWritten([existing], data, newId, hash, now) == Err(DuplicateKey)
    ensures PlanCreateUser([existing], data, newId, hash, now) == Err(Http(400))
  {
    var us := [existing];
    assert Lower(data.email) == "alice@example.com" by {
      assert LowerChar('A') == 'a';
      assert forall i :: 1 <= i < |data.email| ==> Lower(data.email)[i] == data.email[i];
    }
    assert data.email != existing.email by { assert data.email[0] != existing.email[0]; }
    assert !EmailTaken(us, data.email);
    assert data.username != existing.username by { assert data.username[0] != existing.username[0]; }
    assert !UsernameTaken(us, data.username);
    assert EmailTaken(us, Lower(data.email));
  }

  /** Whenever the corrected check accepts, the as-written one agrees: it differs only
      by refusing more, with the wrong error. */
  lemma CreateUserAgrees(us: seq<User>, data: UserCreate, newId: string, hash: string -> string, now: int)
    requires PlanCreateUser(us, data, newId, hash, now).Ok?
    requires Lower(data.username) == data.username && Lower(data.email) == data.email
    ensures PlanCreateUserAsWritten(us, data, newId, hash, now) == PlanCreateUser(us, data, newId, hash, now)
  {
  }

  // ---------------------------------------------------------------------------
  // Reads
  // ---------------------------------------------------------------------------

  /** `get_user_by_id`: `None` for a malformed id without querying; the projection
      leaves the hash out. */
  function GetUserById(us: seq<User>, userId: string): (r: Option<PublicUser>)
    ensures !IsValidObjectId(userId) ==> r.None?
    ensures r.Some? ==> exists k :: 0 <= k < |us| && us[k].id == Lower(userId) && r.value == WithoutHash(us[k])
    ensures r.None? && IsValidObjectId(userId) ==> forall k :: 0 <= k < |us| ==> us[k].id != Lower(userId)
  {
    match FindById(us, IdOf, userId)
    case Ok(Some(k)) => Some(WithoutHash(us[k]))
    case _ => None
  }

  /** The ids of `ids` that `ObjectId.is_valid` accepts, as ObjectIds. */
  function ValidIds(ids: seq<string>): (r: seq<string>)
    ensures |r| <= |ids|
    ensures forall x :: x in r <==> exists i :: 0 <= i < |ids| && IsValidObjectId(ids[i]) && x == Lower(ids[i])
  {
    if ids == [] then []
    else
      var rest := ValidIds(ids[1..]);
      assert forall i :: 1 <= i < |ids| ==> ids[i] == ids[1..][i - 1];
      if IsValidObjectId(ids[0]) then [Lower(ids[0])] + rest else rest
  }

  /** The `$nin` exclusion: only when `exclude_ids` is non-empty and some id is valid. */
  predicate Excluded(u: User, excludeIds: Option<seq<string>>) {
    excludeIds.Some? && excludeIds.value != [] && u.id in ValidIds(excludeIds.value)
  }

  /** A user the search selects: the pattern matches the username or the email, and
      the id is not excluded. */
  predicate SearchHit(u: User, matches: string -> bool, excludeIds: Option<seq<string>>) {
    (matches(u.username) || matches(u.email)) && !Excluded(u, excludeIds)
  }

  /** When every selected user is among `hits`, every selected user's public view is
      among the public views of `hits`. */
  lemma PublicViewsCover(us: seq<User>, hits: seq<User>, r: seq<PublicUser>, sel: User -> bool)
    requires |r| == |hits| && forall i :: 0 <= i < |r| ==> r[i] == WithoutHash(hits[i])
    requires forall k :: 0 <= k < |us| && sel(us[k]) ==> us[k] in hits
    ensures forall k :: 0 <= k < |us| && sel(us[k]) ==> WithoutHash(us[k]) in r
  {
    forall k | 0 <= k < |us| && sel(us[k]) ensures WithoutHash(us[k]) in r {
      var i :| 0 <= i < |hits| && hits[i] == us[k];
      assert r[i] == WithoutHash(us[k]);
    }
  }

  /** Public views of users with pairwise different ids are pairwise different. */
  lemma DistinctViews(found: seq<User>, r: seq<PublicUser>)
    requires |r| == |found| && forall i :: 0 <= i < |r| ==> r[i] == WithoutHash(found[i])
    requires forall i, j :: 0 <= i < j < |found| ==> IdOf(found[i]) != IdOf(found[j])
    ensures NoDuplicates(r)
  {
    forall i, j | 0 <= i < j < |r| ensures r[i] != r[j] {
      assert r[i].id == found[i].id && r[j].id == found[j].id;
    }
  }

  /** `search_user(query, limit, exclude_ids)`: users whose username or email the
      case-insensitive pattern matches, not excluded, in natural order, at most
      `limit`; fewer than `limit` only when every such user is returned. */
  function SearchUser(us: seq<User>, matches: string -> bool, limit: nat, excludeIds: Option<seq<string>>): (r: seq<PublicUser>)
    ensures |r| <= limit
    ensures forall i :: 0 <= i < |r| ==> exists k :: (0 <= k < |us| && r[i] == WithoutHash(us[k])
              && (matches(us[k].username) || matches(us[k].email)) && !Excluded(us[k], excludeIds))
    ensures |r| == limit
            || (forall k :: 0 <= k < |us| && SearchHit(us[k], matches, excludeIds) ==> WithoutHash(us[k]) in r)
    ensures WellFormed(us) ==> NoDuplicates(r)
  {
    var hit := (u: User) => SearchHit(u, matches, excludeIds);
    var hits := Filter(us, hit);
    var found := Take(hits, limit);
    var r := seq(|found|, i requires 0 <= i < |found| => WithoutHash(found[i]));
    assert forall i :: 0 <= i < |found| ==> found[i] in us && SearchHit(found[i], matches, excludeIds);
    assert |r| != limit ==> found == hits;
    assert WellFormed(us) ==> NoDuplicates(r) by {
      if WellFormed(us) {
        FilterUniqueKeys(us, IdOf, hit);
        DistinctViews(found, r);
      }
    }
    if |r| != limit then PublicViewsCover(us, hits, r, hit); r else r
  }

  /** An excluded id never comes back: a valid id in `exclude_ids` hides that user. */
  lemma SearchExcludes(us: seq<User>, matches: string -> bool, limit: nat, excludeIds: seq<string>, j: int)
    requires 0 <= j < |excludeIds| && IsValidObjectId(excludeIds[j])
    requires WellFormed(us)
    ensures forall i :: 0 <= i < |SearchUser(us, matches, limit, Some(excludeIds))| ==>
              SearchUser(us, matches, limit, Some(excludeIds))[i].id != Lower(excludeIds[j])
  {
    var r := SearchUser(us, matches, limit, Some(excludeIds));
    forall i | 0 <= i < |r| ensures r[i].id != Lower(excludeIds[j]) {
      var k :| 0 <= k < |us| && r[i] == WithoutHash(us[k]) && !Excluded(us[k], Some(excludeIds));
      assert Lower(excludeIds[j]) in ValidIds(excludeIds);
    }
  }

  /** `get_users_by_id(user_ids)`: the users whose id is among the valid ids, read up to
      as many documents as there are valid ids; invalid ids are dropped silently. */
  function GetUsersById(us: seq<User>, userIds: seq<string>): (r: seq<PublicUser>)
    ensures |r| <= |ValidIds(userIds)|
    ensures forall i :: 0 <= i < |r| ==> exists k :: (0 <= k < |us| && r[i] == WithoutHash(us[k])
              && exists j :: 0 <= j < |userIds| && IsValidObjectId(userIds[j]) && us[k].id == Lower(userIds[j]))
    ensures WellFormed(us) ==> forall k :: 0 <= k < |us| && us[k].id in ValidIds(userIds) ==> WithoutHash(us[k]) in r
    ensures WellFormed(us) ==> NoDuplicates(r)
  {
    var v := ValidIds(userIds);
    var asked := (u: User) => u.id in v;
    var hits := Filter(us, asked);
    var found := Take(hits, |v|);
    var r := seq(|found|, i requires 0 <= i < |found| => WithoutHash(found[i]));
    if WellFormed(us) then
      FilterKeyedBound(us, IdOf, asked, v);
      PublicViewsCover(us, hits, r, asked);
      FilterUniqueKeys(us, IdOf, asked);
      DistinctViews(found, r);
      r
    else r
  }

  /** Invalid ids change nothing: asking with only the valid ones gives the same users. */
  lemma GetUsersByIdIgnoresInvalid(us: seq<User>, userIds: seq<string>, junk: string)
    requires !IsValidObjectId(junk)
    ensures GetUsersById(us, userIds + [junk]) == GetUsersById(us, userIds)
  {
    ValidIdsAppendInvalid(userIds, junk);
  }

  lemma {:induction false} ValidIdsAppendInvalid(ids: seq<string>, junk: string)
    requires !IsValidObjectId(junk)
    ensures ValidIds(ids + [junk]) == ValidIds(ids)
  {
    if ids != [] {
      assert (ids + [junk])[1..] == ids[1..] + [junk];
      ValidIdsAppendInvalid(ids[1..], junk);
    }
  }

  // ---------------------------------------------------------------------------
  // Updates of one user document
  // ---------------------------------------------------------------------------

  /** The `UserUpdate` fields as `model_dump` lists them. */
  function UserDump(u: UserUpdate): Dump {
    [("first_name", u.firstName), ("last_name", u.lastName), ("avatar", u.avatar), ("bio", u.bio),
     ("username", u.username)]
  }

  function Field(doc: map<string, string>, key: string, current: Option<string>): Option<string> {
    if key in doc then Some(doc[key]) else current
  }

  /** `$set` of an update document on a user, with `updated_at`. */
  function ApplyUserDoc(u: User, doc: map<string, string>, now: int): (r: User)
    ensures r.firstName == Field(doc, "first_name", u.firstName) && r.lastName == Field(doc, "last_name", u.lastName)
    ensures r.avatar == Field(doc, "avatar", u.avatar) && r.bio == Field(doc, "bio", u.bio)
    ensures r.username == (if "username" in doc then doc["username"] else u.username)
    ensures r.id == u.id && r.email == u.email && r.passwordHash == u.passwordHash && r.isOnline == u.isOnline
    ensures r.updatedAt == now
  {
    u.(firstName := Field(doc, "first_name", u.firstName), lastName := Field(doc, "last_name", u.lastName),
       avatar := Field(doc, "avatar", u.avatar), bio := Field(doc, "bio", u.bio),
       username := if "username" in doc then doc["username"] else u.username, updatedAt := now)
  }

  /** `set_user_online_status`: the flag and `updated_at`, and `last_seen` only when
      going offline. */
  function PresenceRecord(u: User, isOnline: bool, now: int): (r: User)
    ensures r.isOnline == isOnline && r.updatedAt == now
    ensures r.lastSeen == (if isOnline then u.lastSeen else Some(now))
    ensures r.id == u.id && r.email == u.email && r.username == u.username && r.passwordHash == u.passwordHash
  {
    if isOnline then u.(isOnline := true, updatedAt := now)
    else u.(isOnline := false, updatedAt := now, lastSeen := Some(now))
  }

  /** `PresenceRecord` as the per-document update `set_user_online_status` applies. */
  function Presence(isOnline: bool, now: int): User -> User {
    x => PresenceRecord(x, isOnline, now)
  }

  /** `update_user` writes exactly the fields given a value and keeps the others. */
  lemma UpdateUserWritesGivenFields(x: User, u: UserUpdate, now: int)
    ensures var r := ApplyUserDoc(x, UpdateDoc(UserDump(u)), now);
            r.firstName == (if u.firstName.Some? then u.firstName else x.firstName)
            && r.lastName == (if u.lastName.Some? then u.lastName else x.lastName)
            && r.avatar == (if u.avatar.Some? then u.avatar else x.avatar)
            && r.bio == (if u.bio.Some? then u.bio else x.bio)
            && r.username == (if u.username.Some? then u.username.value else x.username)
  {
    var d := UserDump(u);
    UpdateDocLookup(d, 0);
    UpdateDocLookup(d, 1);
    UpdateDocLookup(d, 2);
    UpdateDocLookup(d, 3);
    UpdateDocLookup(d, 4);
  }

  /** The update document is empty exactly when the update sets no field. */
  lemma UserDocEmpty(u: UserUpdate)
    ensures UpdateDoc(UserDump(u)) == map[] <==> u == UserUpdate(None, None, None, None, None)
  {
    var d := UserDump(u);
    if UpdateDoc(d) == map[] {
      assert d[0].1.None? && d[1].1.None? && d[2].1.None? && d[3].1.None? && d[4].1.None?;
    }
  }

  /** The position of a user other than `x` who already holds `x`'s username. */
  function UsernameClash(us: seq<User>, x: User): (r: Option<nat>)
    ensures r.Some? ==> r.value < |us| && us[r.value].username == x.username && us[r.value].id != x.id
    ensures r.None? ==> forall j :: 0 <= j < |us| && us[j].id != x.id ==> us[j].username != x.username
  {
    FirstIndex(us, (y: User) => y.username == x.username && y.id != x.id)
  }

  /** `find_one_and_update` with `$set` of a non-empty update document: as an update by
      id, except that the unique index on `username` refuses a write that would give
      two users the same username. Stored users stay well formed. */
  function UpdateUserDoc(us: seq<User>, userId: string, doc: map<string, string>, now: int): (r: (seq<User>, Res<Option<User>>))
    requires WellFormed(us)
    ensures r.1 != Err(DuplicateKey) ==> UpdatedById(us, r.0, IdOf, userId, x => ApplyUserDoc(x, doc, now), r.1)
    ensures r.1 == Err(DuplicateKey) ==>
              r.0 == us && "username" in doc
              && exists j :: 0 <= j < |us| && us[j].username == doc["username"] && us[j].id != Lower(userId)
    ensures r.1.Err? <==> !IsValidObjectId(userId) || r.1 == Err(DuplicateKey)
    ensures WellFormed(r.0)
  {
    match FindById(us, IdOf, userId)
    case Err(e) => (us, Err(e))
    case Ok(None) => (us, Ok(None))
    case Ok(Some(k)) =>
      var updated := ApplyUserDoc(us[k], doc, now);
      match UsernameClash(us, updated)
      case Some(j) =>
        (us, Err(DuplicateKey))
      case None =>
        var after := us[k := updated];
        assert after == UpdateAt(us, k, x => ApplyUserDoc(x, doc, now));
        assert WellFormed(after) by {
          forall i, j | 0 <= i < j < |after|
            ensures after[i].id != after[j].id && after[i].email != after[j].email
                    && after[i].username != after[j].username
          {
            assert us[i].id != us[j].id;
          }
        }
        (after, Ok(Some(updated)))
  }

  /** What `update_user` answers: the projected user when nothing is set, the whole
      updated document (hash included) otherwise. */
  datatype UserView = Projected(user: PublicUser) | Full(doc: User)

  function FullView(r: Res<Option<User>>): Res<Option<UserView>> {
    match r
    case Err(e) => Err(e)
    case Ok(None) => Ok(None)
    case Ok(Some(x)) => Ok(Some(Full(x)))
  }

  class UserStore {
    var users: seq<User>

    ghost predicate Valid()
      reads this
    {
      WellFormed(users)
    }

    constructor ()
      ensures Valid() && users == []
    {
      users := [];
    }

    /** `create_user` with the corrected checks; the answer leaves the hash out. */
    method CreateUser(data: UserCreate, newId: string, hash: string -> string, now: int) returns (r: Res<PublicUser>)
      requires Valid()
      requires IsCanonicalId(newId) && forall k :: 0 <= k < |users| ==> users[k].id != newId
      modifies this
      ensures Valid()
      ensures match PlanCreateUser(old(users), data, newId, hash, now)
              case Err(e) => r == Err(e) && users == old(users)
              case Ok(u) => r == Ok(WithoutHash(u)) && users == old(users) + [u]
    {
      var plan := PlanCreateUser(users, data, newId, hash, now);
      match plan
      case Err(e) =>
        r := Err(e);
      case Ok(u) =>
        users := users + [u];
        r := Ok(WithoutHash(u));
    }

    /** `update_user`: an update that sets nothing reads the user back; otherwise the
        set fields are written with `updated_at`. */
    method UpdateUser(userId: string, u: UserUpdate, now: int) returns (r: Res<Option<UserView>>)
      requires Valid()
      modifies this
      ensures Valid()
      ensures u == UserUpdate(None, None, None, None, None) ==>
                users == old(users) && r == Ok(if GetUserById(old(users), userId).Some?
                                               then Some(Projected(GetUserById(old(users), userId).value)) else None)
      ensures u != UserUpdate(None, None, None, None, None) ==>
                var next := UpdateUserDoc(old(users), userId, UpdateDoc(UserDump(u)), now);
                users == next.0 && r == FullView(next.1)
    {
      var doc := BuildUpdateDoc(UserDump(u));
      UserDocEmpty(u);
      if doc == map[] {
        var found := GetUserById(users, userId);
        r := Ok(if found.Some? then Some(Projected(found.value)) else None);
        return;
      }
      var next := UpdateUserDoc(users, userId, doc, now);
      users := next.0;
      r := FullView(next.1);
    }

    /** `set_user_online_status`: raises for a malformed id, answers whether the user
        exists. */
    method SetUserOnlineStatus(userId: string, isOnline: bool, now: int) returns (r: Res<bool>)
      requires Valid()
      modifies this
      ensures Valid()
      ensures users == AfterUpdate(old(users), IdOf, userId, Presence(isOnline, now))
      ensures r.Err? <==> !IsValidObjectId(userId)
      ensures r.Ok? ==> (r.value <==> exists k :: 0 <= k < |old(users)| && old(users)[k].id == Lower(userId))
    {
      var f := Presence(isOnline, now);
      UpdateKeepsIds(users, IdOf, userId, f);
      var next := UpdateById(users, IdOf, userId, f);
      assert forall j :: 0 <= j < |users| ==> next.0[j].email == users[j].email && next.0[j].username == users[j].username;
      users := next.0;
      r := match next.1 case Err(e) => Err(e) case Ok(found) => Ok(found.Some?);
    }
  }
}
